=== FILE: README.md ===
# lcp-py placement and catalogue core, modelled in Dafny

This project models the decision logic of `lcp`, a command-line manager for
local GGUF language models served by llama.cpp. Each module follows one
source file.

- `Hardware` covers `lcp/hardware.py`. It turns a host snapshot into a
  recommended model size and quantization tier. It splits a model over VRAM,
  system RAM and storage, and lays out the memory usage bar.
- `ModelAnalyzer` covers `lcp/model_analyzer.py`. It estimates GGUF layers by
  file-size band and computes `calculate_gpu_layers` for the strategies
  `gpu-only`, `cpu-only`, `auto-percentage` and `auto-maximize`. Any other
  strategy name behaves as `auto-maximize`.
- `Models` covers `lcp/models.py`:
  - the metadata `ModelInfo.__post_init__` derives from file names;
  - `display_name`, `model_id` and `matches_query`;
  - the chat session's message list and token total;
  - first-occurrence de-duplication of search results by
    `(repo_id, filename)`.
- `Backends` covers `lcp/backends/base.py` and `lcp/backends/huggingface.py`:
  - identifier parsing and aliases;
  - glob matching of repository ids;
  - file-name cleanup and the repository file filter;
  - the Q4_K_M preference;
  - the de-duplicate, sort-by-score and cut steps of `search_models`.
- `Core` covers `lcp/core.py`: merging the backends' search results, and the
  first backend that resolves a model.
- `Service` covers `lcp/service.py`: the `-ngl N` rewrite of the server
  command in `_update_compose_for_model`.
- `Chat` covers `lcp/ui/chat.py`: command handling, one turn of the chat
  loop, the fold over the server-sent event lines of a streamed reply, and
  how the session grows.
- `Ansi` covers `lcp/ui/ansi_processor.py`: escape-sequence stripping, the
  ansi/markdown/plain classification, and the streaming renderer's buffer
  and mode.
- `Strings` and `Regex` are shared building blocks:
  - Python's `str` operations;
  - `int()` truncation and list slicing;
  - hand-written matchers for each regular expression the source uses;
  - a generic left-to-right `re.sub`.

The model has no side effects. Some things the source obtains itself are
parameters here:

- network responses;
- the contents of the model file;
- fuzzy-match scores;
- the hardware snapshot;
- terminal input.

Quantities in GB and MB are `real`. Python's `int()` on a float is
truncation toward zero (`Strings.PyInt`).

Three behaviours of the code are easy to get wrong, and the model keeps them
as written:

- `read_gguf_header` returns `None` when the file opens and its first four
  bytes are not `GGUF` (`lcp/model_analyzer.py:53-57`). Only a file that
  cannot be opened, or whose header ends early, gets the size-based
  estimate.
- The `auto-percentage` strategy divides the usable VRAM by the raw file
  size in MB over the total layer count (`lcp/model_analyzer.py:182-185`).
  It does not use the metadata's weight memory, which carries a 10% margin.
- So the division by zero in that strategy happens when the layer count is
  0 or the file is empty (`ModelAnalyzer.PercentageLayers`).

## Model

| member | source | states |
|---|---|---|
| Hardware.QuantizationFor | lcp/hardware.py:133-141 | the tier is one of Q5_K_M, Q4_K_M, Q4_K_S, Q3_K_M, and the top tier is chosen exactly from 20 GB up |
| Hardware.QuantizationMonotone | lcp/hardware.py:133-141 | a larger recommended size never gives a lower-fidelity tier |
| Hardware.CalculateRecommendations | lcp/hardware.py:120-143 | offloading is viable iff total VRAM is at least 8 GB; the size is 80% of available VRAM when viable, otherwise 50% of available RAM; the tier follows the size; no other field changes |
| Hardware.RecommendationAtThreshold | lcp/hardware.py:126-135 | 25 GB of available VRAM on a 32 GB card gives exactly 20 GB and therefore Q5_K_M, because the thresholds are inclusive |
| Hardware.UsageColor | lcp/hardware.py:204-226 | a tier is green iff its usage is at most 70% of its capacity, red iff above 90%, and red when it has no capacity |
| Hardware.MemoryBreakdownOf | lcp/hardware.py:184-237 | the three tiers add up to the model size and none is negative; VRAM is untouched unless offloading is viable; RAM is touched only when VRAM leaves a remainder, and then its colour follows its share of 60% of RAM; storage is red when used; the model is feasible iff storage is not needed |
| Hardware.BreakdownClosedForm | lcp/hardware.py:196-232 | VRAM takes min(size, 80% of VRAM), RAM takes min(rest, 60% of RAM), storage takes what is left |
| Hardware.StorageMonotone | lcp/hardware.py:228-232 | a larger model never needs less storage |
| Hardware.NoOffloadRoutesToRam | lcp/hardware.py:199-226 | on a host below the 8 GB offload threshold, VRAM is never used and RAM takes up to 60% of what is available |
| Hardware.FitToWidth | lcp/hardware.py:308-315 | for a non-negative width the bar has exactly `width` cells: the sections, then filler; a bar longer than the width is cut to its first `width` cells |
| Hardware.MemoryUsageBar | lcp/hardware.py:240-317 | "No memory available" iff the pool is empty; "Insufficient RAM" iff the pool is non-empty and the model exceeds it; division by zero iff the model fits and the width is 0; a drawn bar of positive width has exactly `width` cells |
| Hardware.NeededIsDemand | lcp/hardware.py:259-264 | against a non-empty pool, the three tiers together exceed it iff the model size does, so the insufficiency test can use either |
| Hardware.BarLayout | lcp/hardware.py:266-315 | with non-negative availabilities, each used count fits its section, the sections never overflow the width, and the bar is the sections followed by filler |
| Hardware.CountsFit | lcp/hardware.py:266-281 | the section sizes sum to at most the width, and the used counts stay within their sections |
| Hardware.LeftJustify | lcp/hardware.py:256 | `ljust` pads to the width with spaces and keeps the text as a prefix |
| Hardware.BarMarkup | lcp/hardware.py:255-317 | the function returns a string in every case except the zero width, where it raises |
| ModelAnalyzer.HeaderTotalMemCoversFile | lcp/model_analyzer.py:114-118 | for a recognised file the total memory requirement covers the file size in MB, plus a positive context estimate, plus the 512 MB overhead |
| ModelAnalyzer.MemPerLayerMb | lcp/model_analyzer.py:33-38 | with layers present, the per-layer share times the layer count is the weight memory; otherwise 0 |
| ModelAnalyzer.BandFor | lcp/model_analyzer.py:76-110 | the layer count is one of 22, 32, 40, 60, 80; under 2 GB iff 22 layers; 25 GB and up iff 80 layers; the embedding width is a positive multiple of 32 |
| ModelAnalyzer.BandMonotone | lcp/model_analyzer.py:76-110 | a larger file never gets fewer layers, parameters or a narrower embedding |
| ModelAnalyzer.ReadGgufHeader | lcp/model_analyzer.py:41-120 | None iff the file opened and its first four bytes are not `GGUF`; otherwise the band's layers, parameters and width, the size in GB, a weight memory of `int(size_gb * 1024 * 1.1)` (at least the size in MB), a context memory of 1/32 of the width and a 512 MB overhead |
| ModelAnalyzer.MagicRecognised | lcp/model_analyzer.py:53-57 | a file starting with the magic is always recognised, whatever follows |
| ModelAnalyzer.ParseStrategy | lcp/model_analyzer.py:164-207 | each of the three named strategies is recognised exactly by its name; anything else is auto-maximize |
| ModelAnalyzer.TotalLayers | lcp/model_analyzer.py:148-161 | an override is used as given; a recognised file gets its band's layer count; an unrecognised one gets 32 below 3 GiB, 80 from 8 GiB, and 40 between |
| ModelAnalyzer.Clamp | lcp/model_analyzer.py:174 | the percentage is clamped to 0..100 and kept when already inside |
| ModelAnalyzer.PercentageLayers | lcp/model_analyzer.py:172-192 | division by zero iff the layer count or the file size is 0; otherwise a count between 0 and the total |
| ModelAnalyzer.CalculateGpuLayers | lcp/model_analyzer.py:123-207 | gpu-only gives 999 and cpu-only gives 0; division by zero only for an empty file or a zero layer count; every other plan is between 0 and the total |
| ModelAnalyzer.PlanIsGreatestFit | lcp/model_analyzer.py:185-190 | below the total, the count is the largest number of layers whose memory fits in the usable VRAM |
| ModelAnalyzer.PlanMonotoneInVram | lcp/model_analyzer.py:175-190 | more VRAM never gives fewer layers |
| ModelAnalyzer.PlanMonotoneInPercentage | lcp/model_analyzer.py:174-190 | a larger percentage never gives fewer layers |
| ModelAnalyzer.NoUsableVramNoLayers | lcp/model_analyzer.py:179-190 | no VRAM left after the 512 MB reserve, or a zero percentage, puts no layers on the GPU |
| ModelAnalyzer.PercentageClamped | lcp/model_analyzer.py:174 | a percentage above 100 plans exactly like 100 |
| ModelAnalyzer.UnknownStrategyMaximizes | lcp/model_analyzer.py:194-207 | an unrecognised strategy plans exactly as auto-maximize, ignoring the percentage given |
| ModelAnalyzer.MaximizeOnSmallCard | lcp/model_analyzer.py:194-203 | a 6 GiB GGUF on a 4 GiB card gets 20 of its 40 layers under auto-maximize |
| Models.AllQuantizationsComplete | lcp/models.py:20-37 | the iteration order lists every quantization type |
| Models.FirstQuantIn | lcp/models.py:76-78 | the result occurs in the text and no earlier candidate does; None iff no candidate occurs |
| Models.ExtractQuantization | lcp/models.py:72-80 | the first type in declaration order whose value occurs in the upper-cased file name; None iff none occurs |
| Models.ShortFormAt | lcp/models.py:88 | a short-form match is at least a digit and a magnitude letter, and occurs in the text |
| Models.LongFormAt | lcp/models.py:89 | a long-form match is a number that occurs in the text |
| Models.SearchShortForm | lcp/models.py:92-95 | `re.search` returns the leftmost match; None iff the pattern matches nowhere; a match needs a digit |
| Models.SearchLongForm | lcp/models.py:92-95 | `re.search` returns the leftmost match; None iff the pattern matches nowhere; a match needs a digit |
| Models.ExtractParameterCount | lcp/models.py:82-97 | the leftmost short form (`7B`) whenever one occurs anywhere; otherwise the leftmost long form (`7 billion`), None iff there is none; a count starts with a digit and occurs in the text |
| Models.ParameterCountFound | lcp/models.py:84-95 | a digit followed by B or M, in either case, anywhere in the text always yields a count |
| Models.ShortFormFoundBefore | lcp/models.py:88-94 | the leftmost search succeeds whenever a digit-magnitude pair lies ahead |
| Models.ExtractModelType | lcp/models.py:99-110 | never Chat; Instruct iff an instruct keyword occurs; Code iff no instruct keyword and a code keyword occur; Function iff only a tool keyword group occurs; Base iff no keyword of the three groups occurs |
| Models.PostInit | lcp/models.py:58-70 | given fields are kept; each missing one is filled by its extractor; the type is always set; an unset quantization stays unset only when no type occurs in the file name; no other field changes |
| Models.ModelTypeIgnoresCase | lcp/models.py:99-110 | the type depends only on the lower-cased name |
| Models.InstructOutranksCode | lcp/models.py:101-104 | `CodeLlama-7B-Instruct` is Instruct: the instruct keywords are tested before the code keywords |
| Models.SpacedName | lcp/models.py:125 | same length; `-` and `_` become spaces and every other character is kept |
| Models.ReplaceCharPointwise | lcp/models.py:125 | replacing one character by a space is a pointwise map |
| Models.DisplayNameShape | lcp/models.py:120-136 | the spaced name, then ` (count)` when a count is set, then ` [quant]` when a quantization is set |
| Models.MatchesQuery | lcp/models.py:149-163 | a query occurring case-insensitively in the name, repository or file name matches, and so does the empty query |
| Models.SearchTextShape | lcp/models.py:154-161 | the searched text is the lower-cased name, repository and file name, then the optional parts, joined by spaces |
| Models.NewSession | lcp/models.py:224-230 | a new session is empty and consistent |
| Models.TokenSumAppend | lcp/models.py:232-236 | appending a message adds its token count, or nothing when it has none |
| Models.AddMessage | lcp/models.py:232-236 | appends the message and adds its token count; keeps the total consistent |
| Models.ClearHistory | lcp/models.py:238-241 | empties the messages and the total and keeps the model name |
| Models.GetContextMessages | lcp/models.py:243-250 | the last `max` messages, oldest first, as role and content; all of them when `max` is not positive or exceeds the history |
| Models.ApplyOpsConsistent | lcp/models.py:232-241 | any sequence of appends and clears keeps the total equal to the messages' token counts |
| Models.FirstOccurrences | lcp/backends/huggingface.py:84-91 | reference de-duplication: distinct keys, the same key set as the input, each kept element the first with its key, in input order |
| Models.FirstOccurrencesSnoc | lcp/backends/huggingface.py:84-91 | a new element is kept at the end iff its key has not been seen |
| Models.DedupByKey | lcp/core.py:60-67 | the `seen`-set loop computes exactly the reference de-duplication |
| Backends.BaseParseIdentifier | lcp/backends/base.py:53-69 | without `/`, a bare name with no file; with `/`, a repository with exactly one `/` |
| Backends.BaseParseRoundTrip | lcp/backends/base.py:61-66 | one `/` makes the identifier the repository; with more, the repository, `/` and file name give back the identifier |
| Backends.BaseParseRepoFile | lcp/backends/base.py:61-66 | `a/b/f` splits into the repository `a/b` and the file `f` |
| Backends.AliasesAreRepos | lcp/backends/huggingface.py:31-42 | every alias resolves to an id containing `/` |
| Backends.AliasKeysHaveNoSlash | lcp/backends/huggingface.py:31-42 | no alias key contains `/` |
| Backends.SupportedResolvesToRepo | lcp/backends/huggingface.py:275-291 | a supported identifier always resolves to a repository id containing `/`, with exactly one outside the aliases |
| Backends.ParseModelIdRoundTrip | lcp/backends/huggingface.py:283-291 | parsing a model's `model_id` gives back its repository and file name |
| Backends.MatchesPattern | lcp/backends/huggingface.py:142-149 | without `*` the pattern matches exactly the identical id |
| Backends.GlobExtends | lcp/backends/huggingface.py:148-149 | `re.match` anchors only at the start, so trailing text never breaks a match |
| Backends.GlobIgnoresCase | lcp/backends/huggingface.py:149 | matching is blind to the case of the id |
| Backends.GlobInstance | lcp/backends/huggingface.py:142-149 | an id that spells out a one-star pattern, with line-free text in place of the star and anything after it, matches |
| Backends.ExtractModelName | lcp/backends/huggingface.py:197-212 | the cleaned name is never longer than the file name |
| Backends.ExtractModelNameKeeps | lcp/backends/huggingface.py:197-212 | a name with no `.gguf` and no suffix match is kept unchanged |
| Backends.StripsQuantSuffix | lcp/backends/huggingface.py:199-210 | `base-Q<digits>_K_M.gguf`, in any case, cleans to `base` |
| Backends.PhiExample | lcp/backends/huggingface.py:197-212 | `Phi-4-Q4_K_M.gguf` is named `Phi-4` |
| Backends.ModelFor | lcp/backends/huggingface.py:180-187 | the record carries the repository, file, size, cleaned name and download URL |
| Backends.KeptEntries | lcp/backends/huggingface.py:168-178 | every kept entry passes the filter, and the kept entries appear in listing order |
| Backends.KeptComplete | lcp/backends/huggingface.py:168-178 | on a well-formed listing every entry that passes the filter is kept |
| Backends.KeptSound | lcp/backends/huggingface.py:168-178 | every kept entry comes from the listing |
| Backends.RepoModels | lcp/backends/huggingface.py:151-195 | every model belongs to the repository and names a `.gguf` file |
| Backends.RepoModelsComplete | lcp/backends/huggingface.py:168-189 | on a well-formed listing, every file that passes the filter yields its model |
| Backends.RepoModelsSound | lcp/backends/huggingface.py:168-189 | every model comes from a listed file that passes the filter |
| Backends.MalformedEndsListing | lcp/backends/huggingface.py:160-193 | an entry that raises ends the listing: nothing after it is kept |
| Backends.EmptyQueryKeepsAllGguf | lcp/backends/huggingface.py:177 | with the empty query the filter keeps exactly the GGUF files |
| Backends.FirstQ4KM | lcp/backends/huggingface.py:224-227 | the index of the first file name containing Q4_K_M, or None iff there is none |
| Backends.PickPreferred | lcp/backends/huggingface.py:224-227 | the first model whose file contains Q4_K_M, or the first model when none does |
| Backends.ChooseModel | lcp/backends/huggingface.py:222-228 | None iff there are no models; otherwise the first model whose file contains Q4_K_M, or the first model when none does |
| Backends.GetModelInfo | lcp/backends/huggingface.py:214-239 | a named file is described directly; for a bare repository, None iff its listing yields no model, otherwise a listed model: the first with Q4_K_M when there is one, else the first |
| Backends.FailedListingFindsNothing | lcp/backends/huggingface.py:218-239 | a bare repository whose listing fails gives None |
| Backends.SortByScoreSorted | lcp/backends/huggingface.py:99 | the sort orders by descending score |
| Backends.SortByScorePermutes | lcp/backends/huggingface.py:99 | the sort is a permutation |
| Backends.SortByScoreStable | lcp/backends/huggingface.py:99 | equal-scoring models keep their relative order, as Python's stable sort does |
| Backends.InsertSorted | lcp/backends/huggingface.py:99 | inserting into a sorted list keeps it sorted |
| Backends.InsertPermutes | lcp/backends/huggingface.py:99 | inserting adds exactly the element |
| Backends.InsertAfterEqual | lcp/backends/huggingface.py:99 | an inserted element goes after every element with its score |
| Backends.Flatten | lcp/backends/huggingface.py:77-81 | a model is collected iff it is in the list of some search that returned a list; a raised search adds nothing |
| Backends.FlattenAppend | lcp/backends/huggingface.py:77-81 | the searches' lists are collected in task order, one after the other |
| Backends.FlattenBlock | lcp/backends/huggingface.py:79-81 | each returned list is collected whole, in its own order, between the lists of earlier and later searches |
| Backends.HfSearchResults | lcp/backends/huggingface.py:48-101 | keys are distinct; at most `limit` results for a positive limit; every result is the alias hit or comes from a repository search |
| Backends.RankedFacts | lcp/backends/huggingface.py:83-101 | de-duplicating, sorting and cutting keeps keys distinct and adds nothing |
| Backends.SearchResultsOrdered | lcp/backends/huggingface.py:93-101 | apart from the early alias return, results come by descending score, ties in first-seen order |
| Core.SearchModels | lcp/core.py:42-69 | keys are distinct; every result comes from a backend that answered; with a non-negative limit, exactly min(limit, distinct keys) results, a prefix of the first occurrences in backend order |
| Core.SearchCoversAll | lcp/core.py:60-69 | a limit no smaller than the number of distinct models covers every one of them |
| Core.FailedBackendIgnored | lcp/core.py:53-57 | a backend that raised does not change the result |
| Core.GetModel | lcp/core.py:71-79 | None iff no backend both supports the id and finds it; otherwise the first such backend's model |
| Service.RewriteCommand | lcp/service.py:196-200 | a command with neither `-ngl` nor `--host` is unchanged |
| Service.RewriteIdempotent | lcp/service.py:196-200 | rewriting twice with the same count is rewriting once |
| Service.SubIdempotent | lcp/service.py:197 | replacing every `-ngl <n>` twice with the same count is replacing once |
| Service.InsertLeavesNgl | lcp/service.py:200 | inserting before `--host` leaves an `-ngl` in the command |
| Service.NglArgMatches | lcp/service.py:197 | the written `-ngl N` is one whole match of the flag pattern when no digit follows |
| Service.UpdateCompose | lcp/service.py:166-223 | succeeds iff the model link exists and the planner does not raise; on success the command is rewritten with the planned, non-negative count, with total VRAM converted to MB |
| Service.UpdateWithoutFlags | lcp/service.py:196-219 | with neither flag present, the update succeeds and leaves the command as it was |
| Chat.HandleCommand | lcp/ui/chat.py:105-129 | the loop stops iff the normalised command is `/quit` or `/exit`; `/clear` empties the history and total; everything else leaves the session alone |
| Chat.CommandCaseAndSpace | lcp/ui/chat.py:107-124 | commands are recognised whatever their case and surrounding whitespace |
| Chat.StripPadded | lcp/ui/chat.py:107 | trailing whitespace after a word is stripped off |
| Chat.StripPadded2 | lcp/ui/chat.py:107 | leading whitespace before a word is stripped off |
| Chat.LoopStep | lcp/ui/chat.py:64-87 | empty input is skipped; a user message is sent iff the input is non-empty, is not a command and is not a quit word; a quit word exits without change; a command acts as `_handle_command`, and exits iff that returns false |
| Chat.QuitCommandEndsLoop | lcp/ui/chat.py:72-76 | `/quit` ends the loop with the session unchanged, whatever input follows |
| Chat.EndOfInputExits | lcp/ui/chat.py:98-103 | end of input reads as `quit` and ends the loop without touching the session |
| Chat.Step | lcp/ui/chat.py:204-221 | each line keeps the piece count consistent with the text |
| Chat.FoldLines | lcp/ui/chat.py:203-221 | a finished reply counts at most one piece per character, and none iff its text is empty |
| Chat.StreamReply | lcp/ui/chat.py:184-223 | the loop over the event lines computes exactly the reference fold |
| Chat.DoneEndsReply | lcp/ui/chat.py:207-208 | lines after `[DONE]` are never read |
| Chat.OtherLinesIgnored | lcp/ui/chat.py:204 | lines that are not `data: ` events do not change the reply |
| Chat.Respond | lcp/ui/chat.py:160-246 | the session stays consistent; it is unchanged, or gains exactly one assistant message with non-empty text and a positive count |
| Chat.RespondAdds | lcp/ui/chat.py:242-244 | a complete non-empty reply adds its text with its piece count, and the total grows by that count |
| Chat.ChatLoop | lcp/ui/chat.py:58-92 | the loop never changes the session's model |
| Chat.ChatLoopConsistent | lcp/ui/chat.py:64-87 | whatever is typed and whatever the server sends, the running total stays equal to the messages' token counts |
| Ansi.StripAnsi | lcp/ui/ansi_processor.py:44-63 | stripping never lengthens the text, and ESC-free text is unchanged |
| Ansi.StripStyled | lcp/ui/ansi_processor.py:44-63 | ESC-free pieces separated by SGR sequences come out as the pieces run together |
| Ansi.SgrPassKeepsPieces | lcp/ui/ansi_processor.py:54 | the SGR pass removes each styling sequence and keeps what lies between |
| Ansi.SgrSeqMatches | lcp/ui/ansi_processor.py:23 | `ESC [ params m` is matched whole by the SGR pattern |
| Ansi.HasSgrIff | lcp/ui/ansi_processor.py:75 | the SGR search succeeds iff a match starts at some position |
| Ansi.MarkdownFromIff | lcp/ui/ansi_processor.py:79-90 | the multiline search succeeds iff some line start begins an indicator |
| Ansi.DetectContentType | lcp/ui/ansi_processor.py:65-92 | ansi iff an SGR sequence occurs; markdown iff none occurs and some line starts with an indicator; plain otherwise |
| Ansi.IndicatorLead | lcp/ui/ansi_processor.py:79-86 | every markdown indicator starts with `#`, `*`, a backtick, `\|`, `-`, `+` or a digit |
| Ansi.PlainWhenNoLeads | lcp/ui/ansi_processor.py:65-92 | text without SGR and with no line starting with one of those characters is plain |
| Ansi.HeadingIsMarkdown | lcp/ui/ansi_processor.py:80 | without SGR, a line starting with `# ` makes the text markdown |
| Ansi.AddContent | lcp/ui/ansi_processor.py:253-259 | the buffer grows by the chunk, and ANSI mode, once on, stays on |
| Ansi.FeedState | lcp/ui/ansi_processor.py:224-259 | the buffer is everything added, and ANSI mode is on iff some single chunk held `ESC [` |
| Ansi.SplitEscapeMissed | lcp/ui/ansi_processor.py:258-259 | an `ESC [` split across two chunks leaves ANSI mode off although the buffer holds it |
| Ansi.AddContentBuffered | lcp/ui/ansi_processor.py:253-259 | corrected renderer: the buffer grows by the chunk and ANSI mode never reverts |
| Ansi.FeedBufferedTracksBuffer | lcp/ui/ansi_processor.py:253-259 | corrected renderer: ANSI mode is on iff the buffer holds `ESC [` |
| Ansi.SplitEscapeCaught | lcp/ui/ansi_processor.py:258-259 | corrected renderer: the split escape sequence switches ANSI mode on |
| Regex.Sub | lcp/backends/huggingface.py:209-210 | `re.sub` leaves text without the pattern's first character unchanged |
| Regex.SubAtMatch | lcp/ui/ansi_processor.py:54-61 | a match at the front is replaced and the scan resumes after it |
| Regex.SubDeleteShrinks | lcp/ui/ansi_processor.py:54-61 | deleting matches never lengthens the text |
| Regex.SubNoMatch | lcp/backends/huggingface.py:209-210 | text in which the pattern never matches is unchanged |
| Strings.Strip | lcp/ui/chat.py:107 | the result is a slice of the input with only whitespace cut away on either side, has no whitespace at either end, and is empty only for all-whitespace input |
| Strings.Split | lcp/backends/base.py:63 | one more piece than separators, none containing the separator |
| Strings.JoinSplit | lcp/backends/base.py:63-65 | joining the pieces of a split gives back the string |
| Strings.SplitJoin | lcp/backends/base.py:63-65 | splitting a join of separator-free pieces gives back the pieces |
| Strings.PyInt | lcp/model_analyzer.py:188 | `int()` is the floor for non-negative values; for negative ones it is the ceiling, the integer in `[x, x + 1)` |
| Strings.PyPrefix | lcp/core.py:69 | `xs[:k]` is a prefix of length min(k, len) for non-negative `k`, and of length max(len + k, 0) for negative `k` |
| Strings.DecimalString | lcp/service.py:197 | `str(n)` is a non-empty run of digits whose decimal value is `n`, with no leading zero unless `n` is 0 |
| Strings.Replace | lcp/service.py:200 | `str.replace` leaves text without the pattern unchanged, and a shorter replacement never lengthens it |
| Strings.ReplaceSkipsFree | lcp/service.py:200 | text free of the pattern's first character is copied unchanged and the scan goes on after it |
| Strings.ReplaceAtMatch | lcp/service.py:200 | an occurrence at the front is replaced and the scan resumes after it |
| Strings.ReplaceJoin | lcp/service.py:200 | replacing the separator of pieces joined by it, when no piece holds its first character, joins them by the replacement |

## Left out

- I/O is not modelled. This covers the network calls, reading and writing the compose YAML, `stat` and `open` on the model file, console output, `Live` displays and timing. Their results are parameters, or the step is left to the caller.
- Host probing (`detect_gpu_info`, `get_memory_info`, `detect_storage_info`, `get_cpu_info`, `create_hardware_profile`) is not modelled. It reads the operating system; its results form the `HardwareProfile` input.
- `get_optimized_docker_params` is not modelled. It only assembles strings around `calculate_gpu_layers` and is not called from the modelled code.
- Concurrency is not modelled. `asyncio.gather` is modelled by its result list, with `None` for a task that raised.
- Floating point is approximated. GB and MB quantities are exact reals, so rounding of Python floats is not modelled.
- `fuzz.partial_ratio` is an opaque score function. Only the order the sort imposes is modelled.
- Only ASCII case folding, ASCII digits and ASCII letters are modelled. Python's `lower()`, `upper()`, `\d` and IGNORECASE also act on non-ASCII characters; whitespace uses the exact `str.isspace()` set.
- Backends.MatchesPattern: models patterns whose only metacharacters are `*` and `.`. The pattern it receives is a configured repository pattern with `*` replaced by the user's query (lcp/backends/huggingface.py:69-73), and it is reached only when that string still holds `*` or has no `/` (lcp/backends/huggingface.py:114). A query carrying other regex syntax (`+ ? ( [ ^ $ | \`), or one that makes the regex invalid and raises the `re.error` swallowed at lcp/backends/huggingface.py:136-138, is outside the model.
- Backends.AliasesAreRepos states only that each alias value contains `/`. That each has exactly one `/` follows from the literals but is not proved.
- Models.MatchesQuery: the contract gives the sufficient conditions on name, repository and file name. The full condition is the containment in the searched text described by `Models.SearchTextShape`.
- Backends.ExtractModelName: the contract is only a length bound. Its exact behaviour is stated by `ExtractModelNameKeeps`, `StripsQuantSuffix` and `PhiExample`.
- Strings.Replace: the function's own contract states only the pattern-free and length cases. What happens at each position is stated by `ReplaceAtMatch`, `ReplaceSkipsFree` and `ReplaceJoin`; written on `Replace` itself it would repeat the body.
- Service.RewriteCommand: the contract covers only the command with neither flag. The rewrite's main property is `RewriteIdempotent`.
- Chat.ChatLoop: an exception raised inside the loop, which the source catches and which ends the loop, is not modelled.
- `_search_in_repo` is not modelled: the pattern search against the API and the per-repository listings are network steps. Their outcome is the `results` input of `HfSearchResults`; the pattern test itself is `MatchesPattern`.
- `process_ansi_text`, `render_mixed_content`, `CommandOutputProcessor` and the renderer's `finalize` are not modelled. They hand text to Rich for display.
- `download_model`, `list_local_models`, `set_active_model`, `remove_model` and the status tables in lcp/core.py are not modelled. They are file-system and display operations.

## Findings

| source | as written | input that shows it | evidently intended | confidence | as-written member | corrected member |
|---|---|---|---|---|---|---|
| lcp/ui/ansi_processor.py:258-259 | ANSI mode is switched on only when one chunk contains `ESC [` | the chunks `ESC` and `[31m` | ANSI mode on once the received text contains `ESC [`, wherever the stream was cut | medium, not executed | Ansi.SplitEscapeMissed | Ansi.FeedBufferedTracksBuffer |

=== FILE: ansi.dfy ===
/** Escape-sequence handling of lcp/ui/ansi_processor.py: removing escape
    sequences, telling ANSI, markdown and plain text apart, and the state the
    streaming renderer keeps between chunks. */
module Ansi {
  import opened Strings
  import Regex

  // ---------------------------------------------------------------------------
  // strip_ansi
  // ---------------------------------------------------------------------------

  function Delete(p: Regex.Pattern, s: string): string {
    Regex.Sub(p, s, "")
  }

  /** `ANSIProcessor.strip_ansi`: six deletion passes, in this order: SGR,
      256-colour SGR, RGB SGR, any CSI, OSC up to BEL, and DCS/SOS/PM/APC up
      to the string terminator. */
  function StripAnsi(text: string): (r: string)
    ensures |r| <= |text|
    ensures !HasChar(text, Regex.Esc) ==> r == text
  {
    var a := Delete(Regex.Sgr, text);
    var b := Delete(Regex.Sgr256, a);
    var c := Delete(Regex.SgrRgb, b);
    var d := Delete(Regex.Csi, c);
    var e := Delete(Regex.Osc, d);
    Regex.SubDeleteShrinks(Regex.Sgr, text);
    Regex.SubDeleteShrinks(Regex.Sgr256, a);
    Regex.SubDeleteShrinks(Regex.SgrRgb, b);
    Regex.SubDeleteShrinks(Regex.Csi, c);
    Regex.SubDeleteShrinks(Regex.Osc, d);
    Regex.SubDeleteShrinks(Regex.Dcs, e);
    Delete(Regex.Dcs, e)
  }

  /** An SGR sequence `ESC [ params m` with `params` drawn from `[0-9;]`. */
  function SgrSeq(params: string): string {
    [Regex.Esc, '['] + params + "m"
  }

  predicate ParamsOk(params: string) {
    forall i :: 0 <= i < |params| ==> Regex.IsParamChar(params[i])
  }

  /** Text made of ESC-free pieces, each but the first preceded by an SGR
      sequence: `first`, then for every pair its SGR and its piece. */
  function Styled(first: string, runs: seq<(string, string)>): string
    decreases |runs|
  {
    if |runs| == 0 then first
    else first + Styled2(runs)
  }

  function Styled2(runs: seq<(string, string)>): string
    decreases |runs|
  {
    if |runs| == 0 then ""
    else SgrSeq(runs[0].0) + runs[0].1 + Styled2(runs[1..])
  }

  /** The pieces without their styling. */
  function Plain(first: string, runs: seq<(string, string)>): string {
    first + Pieces(runs)
  }

  function Pieces(runs: seq<(string, string)>): string
    decreases |runs|
  {
    if |runs| == 0 then "" else runs[0].1 + Pieces(runs[1..])
  }

  predicate WellFormedRuns(first: string, runs: seq<(string, string)>) {
    && !HasChar(first, Regex.Esc)
    && forall k :: 0 <= k < |runs| ==> ParamsOk(runs[k].0) && !HasChar(runs[k].1, Regex.Esc)
  }

  /** An SGR sequence is matched whole. */
  lemma SgrSeqMatches(params: string, t: string)
    requires ParamsOk(params)
    ensures Regex.MatchLen(Regex.Sgr, SgrSeq(params) + t) == |SgrSeq(params)|
  {
    var s := SgrSeq(params) + t;
    ParamRunAt(s, 2, |params|);
  }

  lemma {:induction false} ParamRunAt(s: string, i: nat, n: nat)
    requires i + n < |s| && s[i + n] == 'm'
    requires forall k :: i <= k < i + n ==> Regex.IsParamChar(s[k])
    ensures Regex.ParamRunEnd(s, i) == i + n
    decreases n
  {
    if n > 0 {
      ParamRunAt(s, i + 1, n - 1);
    }
  }

  lemma ParamsAt(params: string, t: string)
    requires ParamsOk(params)
    ensures var s := SgrSeq(params) + t;
      2 + |params| < |s| && s[2 + |params|] == 'm'
      && forall k :: 2 <= k < 2 + |params| ==> Regex.IsParamChar(s[k])
  {
    var s := SgrSeq(params) + t;
    forall k | 2 <= k < 2 + |params| ensures Regex.IsParamChar(s[k]) {
      assert s[k] == params[k - 2];
    }
  }

  /** The SGR pass removes every styling sequence and keeps the pieces. */
  lemma {:induction false} SgrPassKeepsPieces(runs: seq<(string, string)>)
    requires WellFormedRuns("", runs)
    ensures Delete(Regex.Sgr, Styled2(runs)) == Pieces(runs)
    decreases |runs|
  {
    if |runs| > 0 {
      var (params, piece) := runs[0];
      var rest := Styled2(runs[1..]);
      assert WellFormedRuns("", runs[1..]) by {
        forall k | 0 <= k < |runs[1..]| ensures ParamsOk(runs[1..][k].0) && !HasChar(runs[1..][k].1, Regex.Esc) {
          assert runs[1..][k] == runs[k + 1];
        }
      }
      SgrPassKeepsPieces(runs[1..]);
      assert Styled2(runs) == SgrSeq(params) + (piece + rest);
      ParamsAt(params, piece + rest);
      SgrSeqMatches(params, piece + rest);
      Regex.SubAtMatch(Regex.Sgr, SgrSeq(params), piece + rest, "");
      Regex.SubSkipsFree(Regex.Sgr, piece, rest, "");
    }
  }

  lemma {:induction false} PiecesEscFree(runs: seq<(string, string)>)
    requires WellFormedRuns("", runs)
    ensures !HasChar(Pieces(runs), Regex.Esc)
    decreases |runs|
  {
    if |runs| > 0 {
      assert WellFormedRuns("", runs[1..]) by {
        forall k | 0 <= k < |runs[1..]| ensures ParamsOk(runs[1..][k].0) && !HasChar(runs[1..][k].1, Regex.Esc) {
          assert runs[1..][k] == runs[k + 1];
        }
      }
      PiecesEscFree(runs[1..]);
      NoCharConcat(runs[0].1, Pieces(runs[1..]), Regex.Esc);
    }
  }

  lemma NoCharConcat(a: string, b: string, c: char)
    requires !HasChar(a, c) && !HasChar(b, c)
    ensures !HasChar(a + b, c)
  {
    forall i | 0 <= i < |a + b| ensures (a + b)[i] != c {
      if i < |a| { assert (a + b)[i] == a[i]; } else { assert (a + b)[i] == b[i - |a|]; }
    }
  }

  /** ESC-free pieces separated by SGR sequences come out as the pieces run
      together. */
  lemma StripStyled(first: string, runs: seq<(string, string)>)
    requires WellFormedRuns(first, runs)
    ensures StripAnsi(Styled(first, runs)) == Plain(first, runs)
  {
    var plain := Plain(first, runs);
    if |runs| > 0 {
      Regex.SubSkipsFree(Regex.Sgr, first, Styled2(runs), "");
      SgrPassKeepsPieces(runs);
    } else {
      assert Styled(first, runs) == first && plain == first + "";
      Regex.SubSkipsFree(Regex.Sgr, first, "", "");
      assert first + "" == first;
    }
    PiecesEscFree(runs);
    NoCharConcat(first, Pieces(runs), Regex.Esc);
    assert Delete(Regex.Sgr, Styled(first, runs)) == plain;
  }

  // ---------------------------------------------------------------------------
  // detect_content_type
  // ---------------------------------------------------------------------------

  /** Whether an SGR sequence starts somewhere in `t` (`re.search`). */
  predicate HasSgr(t: string)
    decreases |t|
  {
    |t| > 0 && (Regex.MatchLen(Regex.Sgr, t) > 0 || HasSgr(t[1..]))
  }

  lemma {:induction false} HasSgrIff(t: string)
    ensures HasSgr(t) <==> exists i :: 0 <= i < |t| && Regex.MatchLen(Regex.Sgr, t[i..]) > 0
    decreases |t|
  {
    if |t| > 0 {
      HasSgrIff(t[1..]);
      assert t[0..] == t;
      forall i | 1 <= i < |t| ensures t[i..] == t[1..][i - 1..] { }
      if exists i :: 0 <= i < |t| && Regex.MatchLen(Regex.Sgr, t[i..]) > 0 {
        var i :| 0 <= i < |t| && Regex.MatchLen(Regex.Sgr, t[i..]) > 0;
        if i > 0 {
          assert Regex.MatchLen(Regex.Sgr, t[1..][i - 1..]) > 0;
        }
      }
    }
  }

  /** The number of times `c` repeats at the front of `t`. */
  function RunOf(t: string, c: char): (n: nat)
    ensures n <= |t|
    ensures forall k :: 0 <= k < n ==> t[k] == c
    ensures n < |t| ==> t[n] != c
  {
    if |t| > 0 && t[0] == c then 1 + RunOf(t[1..], c) else 0
  }

  /** `^#{1,6}\\s` */
  predicate Header(t: string) {
    var n := RunOf(t, '#');
    1 <= n <= 6 && n < |t| && IsSpace(t[n])
  }

  /** `^\\*{1,2}[^\\*]+\\*{1,2}`: the run of non-stars may cross line ends. */
  predicate Emphasis(t: string) {
    var n := RunOf(t, '*');
    1 <= n <= 2 && HasChar(t[n..], '*')
  }

  /** `^```` */
  predicate Fence(t: string) {
    StartsWith(t, "```")
  }

  /** `^\\|.*\\|`: a second bar on the same line. */
  predicate Table(t: string) {
    |t| > 0 && t[0] == '|' && HasChar(LineOf(t[1..]), '|')
  }

  /** The text up to the first newline. */
  function LineOf(t: string): (r: string)
    ensures |r| <= |t| && r == t[..|r|] && !HasChar(r, '\n')
    ensures |r| < |t| ==> t[|r|] == '\n'
  {
    if |t| == 0 || t[0] == '\n' then ""
    else
      var rest := LineOf(t[1..]);
      LineCons(t, rest);
      [t[0]] + rest
  }

  /** A line that does not start with a newline is its first character
      followed by the line of the rest. */
  lemma LineCons(t: string, rest: string)
    requires |t| > 0 && t[0] != '\n'
    requires |rest| <= |t[1..]| && rest == t[1..][..|rest|] && !HasChar(rest, '\n')
    requires |rest| < |t[1..]| ==> t[1..][|rest|] == '\n'
    ensures var r := [t[0]] + rest;
      && |r| <= |t| && r == t[..|r|] && !HasChar(r, '\n')
      && (|r| < |t| ==> t[|r|] == '\n')
  {
    var r := [t[0]] + rest;
    assert t[..|r|] == [t[0]] + t[1..][..|rest|];
    forall k | 0 <= k < |r| ensures r[k] != '\n' {
      if k > 0 { assert r[k] == rest[k - 1]; }
    }
  }

  /** `^[-*+]\\s` */
  predicate ListItem(t: string) {
    |t| >= 2 && (t[0] == '-' || t[0] == '*' || t[0] == '+') && IsSpace(t[1])
  }

  /** `^\\d+\\.\\s` */
  predicate Numbered(t: string) {
    var n := DigitRunEnd(t, 0);
    n >= 1 && n + 1 < |t| && t[n] == '.' && IsSpace(t[n + 1])
  }

  /** Whether one of the markdown patterns matches at the front of `t`. */
  predicate Indicator(t: string) {
    Header(t) || Emphasis(t) || Fence(t) || Table(t) || ListItem(t) || Numbered(t)
  }

  /** Under MULTILINE, `^` matches at the start and after every newline. */
  predicate LineStart(t: string, i: nat) {
    i == 0 || (0 < i <= |t| && t[i - 1] == '\n')
  }

  /** Scan of the line starts from `i` on. */
  predicate MarkdownFrom(t: string, i: nat)
    requires i <= |t|
    decreases |t| - i
  {
    (LineStart(t, i) && Indicator(t[i..])) || (i < |t| && MarkdownFrom(t, i + 1))
  }

  lemma {:induction false} MarkdownFromIff(t: string, i: nat)
    requires i <= |t|
    ensures MarkdownFrom(t, i) <==> exists j :: i <= j <= |t| && LineStart(t, j) && Indicator(t[j..])
    decreases |t| - i
  {
    if i < |t| {
      MarkdownFromIff(t, i + 1);
    }
  }

  datatype ContentType = AnsiText | MarkdownText | PlainText

  function Label(c: ContentType): string {
    match c
    case AnsiText => "ansi"
    case MarkdownText => "markdown"
    case PlainText => "plain"
  }

  /** `ANSIProcessor.detect_content_type`. */
  function DetectContentType(text: string): (r: ContentType)
    ensures r == AnsiText <==> exists i :: 0 <= i < |text| && Regex.MatchLen(Regex.Sgr, text[i..]) > 0
    ensures r == MarkdownText <==>
      (!HasSgr(text) && exists j :: 0 <= j <= |text| && LineStart(text, j) && Indicator(text[j..]))
  {
    HasSgrIff(text);
    MarkdownFromIff(text, 0);
    if HasSgr(text) then AnsiText
    else if MarkdownFrom(text, 0) then MarkdownText
    else PlainText
  }

  /** Each markdown pattern starts with one of a few characters. */
  lemma IndicatorLead(t: string)
    requires Indicator(t)
    ensures |t| > 0 && (t[0] in "#*`|-+" || IsDigit(t[0]))
  {
    if Numbered(t) {
      assert IsDigit(t[0]);
    }
  }

  lemma NoLeadNoIndicator(t: string)
    requires |t| > 0 ==> !(t[0] in "#*`|-+" || IsDigit(t[0]))
    ensures !Indicator(t)
  {
    if Indicator(t) {
      IndicatorLead(t);
      assert false;
    }
  }

  /** Text without SGR none of whose lines starts with one of those
      characters is plain. */
  lemma PlainWhenNoLeads(text: string)
    requires forall i :: 0 <= i < |text| ==> Regex.MatchLen(Regex.Sgr, text[i..]) == 0
    requires forall j :: 0 <= j < |text| && LineStart(text, j) ==> !(text[j] in "#*`|-+" || IsDigit(text[j]))
    ensures DetectContentType(text) == PlainText
  {
    forall j | 0 <= j <= |text| && LineStart(text, j) ensures !Indicator(text[j..]) {
      if j < |text| {
        assert text[j..][0] == text[j];
      }
      NoLeadNoIndicator(text[j..]);
    }
  }

  /** Without SGR, a line starting `# ` makes the text markdown. */
  lemma HeadingIsMarkdown(text: string, j: nat)
    requires forall i :: 0 <= i < |text| ==> Regex.MatchLen(Regex.Sgr, text[i..]) == 0
    requires LineStart(text, j) && j + 2 <= |text| && text[j] == '#' && text[j + 1] == ' '
    ensures DetectContentType(text) == MarkdownText
  {
    var t := text[j..];
    assert t[0] == '#' && t[1] == ' ';
    assert RunOf(t, '#') == 1 by {
      assert RunOf(t[1..], '#') == 0;
    }
    assert Header(t);
  }

  // ---------------------------------------------------------------------------
  // ANSIStreamingRenderer
  // ---------------------------------------------------------------------------

  /** The renderer's buffer and mode, without the display. */
  datatype RendererState = RendererState(buffer: string, ansiMode: bool)

  const InitialRenderer: RendererState := RendererState("", false)

  const Csi: string := [Regex.Esc, '[']

  /** `add_content`: the chunk is appended, and ANSI mode is switched on
      when this chunk holds an `ESC [`; it is never switched off. */
  function AddContent(st: RendererState, chunk: string): (r: RendererState)
    ensures r.buffer == st.buffer + chunk
    ensures st.ansiMode ==> r.ansiMode
    ensures r.ansiMode <==> st.ansiMode || Contains(chunk, Csi)
  {
    RendererState(st.buffer + chunk, st.ansiMode || Contains(chunk, Csi))
  }

  function Feed(st: RendererState, chunks: seq<string>): RendererState
    decreases |chunks|
  {
    if |chunks| == 0 then st else Feed(AddContent(st, chunks[0]), chunks[1..])
  }

  function Concat(chunks: seq<string>): string
    decreases |chunks|
  {
    if |chunks| == 0 then "" else chunks[0] + Concat(chunks[1..])
  }

  /** From a fresh renderer the buffer is everything added, and ANSI mode is
      on exactly when some single chunk held an `ESC [`. */
  lemma {:induction false} FeedState(st: RendererState, chunks: seq<string>)
    ensures Feed(st, chunks).buffer == st.buffer + Concat(chunks)
    ensures Feed(st, chunks).ansiMode <==>
      st.ansiMode || exists k :: 0 <= k < |chunks| && Contains(chunks[k], Csi)
    decreases |chunks|
  {
    if |chunks| == 0 {
      assert st.buffer + "" == st.buffer;
    } else {
      FeedState(AddContent(st, chunks[0]), chunks[1..]);
      assert st.buffer + chunks[0] + Concat(chunks[1..]) == st.buffer + (chunks[0] + Concat(chunks[1..]));
      assert forall k :: 1 <= k < |chunks| ==> chunks[k] == chunks[1..][k - 1];
      if exists k :: 1 <= k < |chunks| && Contains(chunks[k], Csi) {
        var k :| 1 <= k < |chunks| && Contains(chunks[k], Csi);
        assert Contains(chunks[1..][k - 1], Csi);
      }
    }
  }

  /** An `ESC [` split across two chunks does not switch ANSI mode on, even
      though the buffer then holds it. */
  lemma SplitEscapeMissed()
    ensures var st := Feed(InitialRenderer, [[Regex.Esc], "[31m"]);
      Contains(st.buffer, Csi) && !st.ansiMode
  {
    FeedState(InitialRenderer, [[Regex.Esc], "[31m"]);
    var st := Feed(InitialRenderer, [[Regex.Esc], "[31m"]);
    var chunks: seq<string> := [[Regex.Esc], "[31m"];
    assert chunks[1..] == ["[31m"] && chunks[1..][1..] == [];
    assert Concat(chunks[1..][1..]) == "";
    assert Concat(chunks[1..]) == "[31m" + "";
    assert Concat(chunks) == [Regex.Esc] + ("[31m" + "");
    assert st.buffer == [Regex.Esc] + "[31m";
    assert st.buffer[0..2] == Csi;
    ContainsAt(st.buffer, Csi, 0);
    assert !Contains([Regex.Esc], Csi);
    assert !Contains("[31m", Csi) by {
      forall i | 0 <= i <= 4 ensures !StartsWith("[31m"[i..], Csi) {
        if 4 - i >= 2 { assert "[31m"[i..][0] != Regex.Esc; }
      }
    }
  }

  /** The renderer as its mode is evidently meant to work: ANSI mode is on
      once the text received so far holds an `ESC [`, wherever the chunks
      were cut. */
  function AddContentBuffered(st: RendererState, chunk: string): (r: RendererState)
    ensures r.buffer == st.buffer + chunk
    ensures st.ansiMode ==> r.ansiMode
  {
    RendererState(st.buffer + chunk, st.ansiMode || Contains(st.buffer + chunk, Csi))
  }

  function FeedBuffered(st: RendererState, chunks: seq<string>): RendererState
    decreases |chunks|
  {
    if |chunks| == 0 then st else FeedBuffered(AddContentBuffered(st, chunks[0]), chunks[1..])
  }

  /** With the buffered check, ANSI mode is on exactly when the buffer holds
      an `ESC [`. */
  lemma {:induction false} FeedBufferedTracksBuffer(st: RendererState, chunks: seq<string>)
    requires st.ansiMode <==> Contains(st.buffer, Csi)
    ensures FeedBuffered(st, chunks).buffer == st.buffer + Concat(chunks)
    ensures FeedBuffered(st, chunks).ansiMode <==> Contains(st.buffer + Concat(chunks), Csi)
    decreases |chunks|
  {
    if |chunks| == 0 {
      assert st.buffer + "" == st.buffer;
    } else {
      var next := AddContentBuffered(st, chunks[0]);
      if Contains(st.buffer, Csi) {
        ContainsPrefix(st.buffer, chunks[0], Csi);
      }
      FeedBufferedTracksBuffer(next, chunks[1..]);
      assert st.buffer + chunks[0] + Concat(chunks[1..]) == st.buffer + (chunks[0] + Concat(chunks[1..]));
    }
  }

  /** An occurrence in a prefix is an occurrence in the whole. */
  lemma ContainsPrefix(a: string, b: string, p: string)
    requires Contains(a, p)
    ensures Contains(a + b, p)
  {
    var i :| 0 <= i <= |a| && StartsWith(a[i..], p);
    assert (a + b)[i..i + |p|] == a[i..i + |p|];
    ContainsAt(a + b, p, i);
  }

  /** The split escape sequence is caught. */
  lemma SplitEscapeCaught()
    ensures FeedBuffered(InitialRenderer, [[Regex.Esc], "[31m"]).ansiMode
  {
    var chunks: seq<string> := [[Regex.Esc], "[31m"];
    assert !Contains("", Csi);
    FeedBufferedTracksBuffer(InitialRenderer, chunks);
    assert chunks[1..] == ["[31m"] && chunks[1..][1..] == [];
    assert Concat(chunks[1..][1..]) == "";
    assert Concat(chunks[1..]) == "[31m" + "";
    assert Concat(chunks) == [Regex.Esc] + ("[31m" + "");
    var b := "" + Concat(chunks);
    assert b == [Regex.Esc] + "[31m";
    assert b[0..2] == Csi;
    ContainsAt(b, Csi, 0);
  }
}

=== FILE: backends.dfy ===
/** The identifier handling of the backend base class (lcp/backends/base.py)
    and the pure parts of the Hugging Face backend
    (lcp/backends/huggingface.py): aliases, glob matching of repository ids,
    file-name cleanup, the repository file filter, the Q4_K_M preference and
    the ordering of search results. Network responses and fuzzy scores are
    inputs. */
module Backends {
  import opened Strings
  import opened Models
  import Regex

  // ---------------------------------------------------------------------------
  // Base backend
  // ---------------------------------------------------------------------------

  /** The base class accepts every identifier. */
  function BaseSupportsModel(id: string): (r: bool)
    ensures r
  {
    true
  }

  /** `Backend.parse_model_identifier`: with a `/`, the repository is the
      first two `/`-separated parts and the file name the rest; without one,
      the identifier is a bare name. */
  function BaseParseIdentifier(id: string): (r: (string, string))
    ensures !HasChar(id, '/') ==> r == (id, "")
    ensures HasChar(id, '/') ==> CountChar(r.0, '/') == 1
  {
    if HasChar(id, '/') then
      var parts := Split(id, '/');
      assert |parts| >= 2;
      TwoPartsOneSlash(parts[0], parts[1]);
      assert parts[..2] == [parts[0], parts[1]];
      (Join(parts[..2], "/"), if |parts| > 2 then Join(parts[2..], "/") else "")
    else (id, "")
  }

  lemma TwoPartsOneSlash(a: string, b: string)
    requires !HasChar(a, '/') && !HasChar(b, '/')
    ensures Join([a, b], "/") == a + "/" + b
    ensures CountChar(a + "/" + b, '/') == 1
  {
    assert [a, b][1..] == [b];
    CountCharAppend(a, "/", '/');
    CountCharAppend(a + "/", b, '/');
  }

  /** Putting the parts back together: one `/` means the identifier is the
      repository itself; more mean it is the repository, a `/`, and the file
      name. */
  lemma BaseParseRoundTrip(id: string)
    ensures var r := BaseParseIdentifier(id);
      && (CountChar(id, '/') == 1 ==> r == (id, ""))
      && (CountChar(id, '/') >= 2 ==> id == r.0 + "/" + r.1)
  {
    if HasChar(id, '/') {
      var parts := Split(id, '/');
      JoinSplit(id, '/');
      assert ['/'] == "/";
      if |parts| == 2 {
        assert parts[..2] == parts;
      } else {
        assert parts == parts[..2] + parts[2..];
        JoinConcat(parts[..2], parts[2..], "/");
      }
    }
  }

  // ---------------------------------------------------------------------------
  // Hugging Face identifiers
  // ---------------------------------------------------------------------------

  const PhiRepo: string := "bartowski/Phi-3.5-mini-instruct-GGUF"
  const QwenRepo: string := "bartowski/Qwen2.5-7B-Instruct-GGUF"
  const LlamaRepo: string := "bartowski/Llama-3.1-8B-Instruct-GGUF"
  const CodestralRepo: string := "bartowski/Codestral-22B-v0.1-GGUF"
  const MistralRepo: string := "bartowski/Mistral-7B-Instruct-v0.3-GGUF"

  /** Short names for common repositories, matched case-insensitively. */
  const Aliases: map<string, string> := map[
    "phi3" := PhiRepo, "phi-3" := PhiRepo, "phi3.5" := PhiRepo,
    "qwen2.5" := QwenRepo, "qwen" := QwenRepo,
    "llama3" := LlamaRepo, "llama-3" := LlamaRepo, "llama3.1" := LlamaRepo,
    "codestral" := CodestralRepo,
    "mistral" := MistralRepo]

  /** Default quantizations a repository listing keeps regardless of query. */
  const DefaultPreferredQuantizations: seq<string> := ["Q4_K_M", "Q5_K_M", "Q6_K", "Q8_0"]

  const BaseUrl: string := "https://huggingface.co"

  /** Every alias resolves to an `owner/name` repository id. */
  lemma AliasesAreRepos(key: string)
    requires key in Aliases
    ensures HasChar(Aliases[key], '/')
  {
    var v := Aliases[key];
    assert v[9] == '/';
  }

  /** `supports_model`: a `repo/…` identifier, or an alias in any case. */
  function HfSupportsModel(id: string): (r: bool)
    ensures r <==> HasChar(id, '/') || Lower(id) in Aliases
  {
    if HasChar(id, '/') then true else Lower(id) in Aliases
  }

  /** `parse_model_identifier`: aliases first (case-insensitively), then the
      base rule. */
  function HfParseIdentifier(id: string): (r: (string, string))
    ensures Lower(id) in Aliases ==> r == (Aliases[Lower(id)], "")
    ensures Lower(id) !in Aliases ==> r == BaseParseIdentifier(id)
  {
    if Lower(id) in Aliases then (Aliases[Lower(id)], "") else BaseParseIdentifier(id)
  }

  /** Every identifier the backend supports resolves to an `owner/name`
      repository id; outside the aliases it has exactly one `/`. */
  lemma SupportedResolvesToRepo(id: string)
    requires HfSupportsModel(id)
    ensures HasChar(HfParseIdentifier(id).0, '/')
    ensures Lower(id) !in Aliases ==> CountChar(HfParseIdentifier(id).0, '/') == 1
  {
    if Lower(id) in Aliases {
      AliasesAreRepos(Lower(id));
    }
  }

  /** No alias key contains a `/`. */
  lemma AliasKeysHaveNoSlash(key: string)
    requires key in Aliases
    ensures !HasChar(key, '/')
  {
  }

  /** Parsing a model's `model_id` gives back its repository and file name
      when the repository is of the form `owner/name`. */
  lemma ParseModelIdRoundTrip(m: ModelInfo)
    requires CountChar(m.repoId, '/') == 1
    ensures HfParseIdentifier(ModelId(m)) == (m.repoId, m.filename)
  {
    var id := ModelId(m);
    assert id == m.repoId + "/" + m.filename;
    CountCharAppend(m.repoId, "/", '/');
    CountCharAppend(m.repoId + "/", m.filename, '/');
    assert HasChar(id, '/') by {
      assert id[|m.repoId|] == '/';
    }
    assert Lower(id) !in Aliases by {
      if Lower(id) in Aliases {
        AliasKeysHaveNoSlash(Lower(id));
      }
    }
    var rp := Split(m.repoId, '/');
    RepoSplitsInTwo(m.repoId);
    assert id == rp[0] + "/" + rp[1] + "/" + m.filename;
    BaseParseRepoFile(rp[0], rp[1], m.filename);
  }

  /** A repository id with one `/` is its two slash-free parts around it. */
  lemma RepoSplitsInTwo(repo: string)
    requires CountChar(repo, '/') == 1
    ensures var rp := Split(repo, '/');
      |rp| == 2 && repo == rp[0] + "/" + rp[1]
  {
    var rp := Split(repo, '/');
    JoinSplit(repo, '/');
    assert ['/'] == "/";
    assert rp[1..] == [rp[1]];
  }

  /** The base rule splits `a/b/f` into the repository `a/b` and the file
      name `f`. */
  lemma BaseParseRepoFile(a: string, b: string, f: string)
    requires !HasChar(a, '/') && !HasChar(b, '/')
    ensures BaseParseIdentifier(a + "/" + b + "/" + f) == (a + "/" + b, f)
  {
    var id := a + "/" + b + "/" + f;
    assert ['/'] == "/";
    assert id == a + ['/'] + (b + ['/'] + f);
    SplitAppend(a, b + ['/'] + f, '/');
    SplitAppend(b, f, '/');
    var fp := Split(f, '/');
    var parts := Split(id, '/');
    assert parts == [a, b] + fp;
    assert HasChar(id, '/') by { assert id[|a|] == '/'; }
    assert parts[..2] == [a, b];
    assert parts[2..] == fp;
    TwoPartsOneSlash(a, b);
    JoinSplit(f, '/');
  }

  // ---------------------------------------------------------------------------
  // Glob matching of repository ids
  // ---------------------------------------------------------------------------

  /** One pattern character against one text character under IGNORECASE:
      `.` is any character but a newline. */
  predicate CharMatches(pc: char, c: char) {
    if pc == '.' then c != '\n' else LowerChar(pc) == LowerChar(c)
  }

  /** Whether some prefix of `s` matches the pattern in which each `*` stands
      for `.*`, as `re.match` with IGNORECASE decides it. */
  predicate GlobPrefix(p: string, s: string)
    decreases |p|, |s|
  {
    if |p| == 0 then true
    else if p[0] == '*' then
      GlobPrefix(p[1..], s) || (|s| > 0 && s[0] != '\n' && GlobPrefix(p, s[1..]))
    else |s| > 0 && CharMatches(p[0], s[0]) && GlobPrefix(p[1..], s[1..])
  }

  /** `_matches_pattern`. */
  function MatchesPattern(repoId: string, pattern: string): (r: bool)
    ensures !HasChar(pattern, '*') ==> (r <==> repoId == pattern)
  {
    if !HasChar(pattern, '*') then repoId == pattern else GlobPrefix(pattern, repoId)
  }

  /** The match is anchored only at the start: trailing text is allowed. */
  lemma {:induction false} GlobExtends(p: string, s: string, t: string)
    requires GlobPrefix(p, s)
    ensures GlobPrefix(p, s + t)
    decreases |p|, |s|
  {
    if |p| > 0 {
      if p[0] == '*' {
        if GlobPrefix(p[1..], s) {
          GlobExtends(p[1..], s, t);
        } else {
          assert (s + t)[1..] == s[1..] + t;
          GlobExtends(p, s[1..], t);
        }
      } else {
        assert (s + t)[1..] == s[1..] + t;
        GlobExtends(p[1..], s[1..], t);
      }
    }
  }

  /** Matching ignores the case of ASCII letters in the repository id. */
  lemma {:induction false} GlobIgnoresCase(p: string, s: string)
    ensures GlobPrefix(p, s) <==> GlobPrefix(p, Lower(s))
    decreases |p|, |s|
  {
    if |p| > 0 && |s| > 0 {
      assert Lower(s)[1..] == Lower(s[1..]);
      assert LowerChar(Lower(s)[0]) == LowerChar(s[0]);
      assert s[0] == '\n' <==> Lower(s)[0] == '\n';
      GlobIgnoresCase(p[1..], s[1..]);
      if p[0] == '*' {
        GlobIgnoresCase(p[1..], s);
        GlobIgnoresCase(p, s[1..]);
      }
    } else if |p| > 0 && p[0] == '*' {
      GlobIgnoresCase(p[1..], s);
    }
  }

  /** A pattern piece without `*` matches itself. */
  lemma {:induction false} GlobLiteral(a: string, q: string, t: string)
    requires !HasChar(a, '*') && GlobPrefix(q, t)
    ensures GlobPrefix(a + q, a + t)
  {
    if |a| > 0 {
      assert (a + q)[0] == a[0] != '*';
      assert (a + q)[1..] == a[1..] + q;
      assert (a + t)[1..] == a[1..] + t;
      assert !HasChar(a[1..], '*') by {
        forall k | 0 <= k < |a[1..]| ensures a[1..][k] == a[k + 1] { }
      }
      GlobLiteral(a[1..], q, t);
    } else {
      assert a + q == q && a + t == t;
    }
  }

  /** A `*` absorbs any run of characters without a newline. */
  lemma {:induction false} GlobStar(q: string, mid: string, t: string)
    requires !HasChar(mid, '\n') && GlobPrefix(q, t)
    ensures GlobPrefix("*" + q, mid + t)
  {
    assert ("*" + q)[1..] == q;
    if |mid| > 0 {
      assert (mid + t)[0] == mid[0];
      assert (mid + t)[1..] == mid[1..] + t;
      assert !HasChar(mid[1..], '\n') by {
        forall k | 0 <= k < |mid[1..]| ensures mid[1..][k] == mid[k + 1] { }
      }
      GlobStar(q, mid[1..], t);
    } else {
      assert mid + t == t;
    }
  }

  /** An id that spells out a one-star pattern, with any line-free text in
      place of the star and anything after it, matches. */
  lemma GlobInstance(a: string, mid: string, b: string, rest: string)
    requires !HasChar(a, '*') && !HasChar(b, '*') && !HasChar(mid, '\n')
    ensures MatchesPattern(a + mid + b + rest, a + "*" + b)
  {
    GlobLiteral(b, "", "");
    assert b + "" == b;
    GlobStar(b, mid, b);
    GlobLiteral(a, "*" + b, mid + b);
    assert a + ("*" + b) == a + "*" + b;
    assert a + (mid + b) == a + mid + b;
    GlobExtends(a + "*" + b, a + mid + b, rest);
    assert (a + "*" + b)[|a|] == '*';
  }

  // ---------------------------------------------------------------------------
  // File-name cleanup
  // ---------------------------------------------------------------------------

  /** The suffix passes of `_extract_model_name`: `-Q\d+_K_[MS]` and
      `-q\d+_k_[ms]` (the same pattern under IGNORECASE), then `-F\d+` and
      `-f\d+`, each deleted everywhere. */
  function StripSuffixes(name: string): string {
    var a := Regex.Sub(Regex.QuantSuffix, name, "");
    var b := Regex.Sub(Regex.QuantSuffix, a, "");
    var c := Regex.Sub(Regex.FloatSuffix, b, "");
    Regex.Sub(Regex.FloatSuffix, c, "")
  }

  /** `_extract_model_name`: drops `.gguf` everywhere, then the suffixes. */
  function ExtractModelName(filename: string): (r: string)
    ensures |r| <= |filename|
  {
    var name := Replace(filename, ".gguf", "");
    var a := Regex.Sub(Regex.QuantSuffix, name, "");
    var b := Regex.Sub(Regex.QuantSuffix, a, "");
    var c := Regex.Sub(Regex.FloatSuffix, b, "");
    Regex.SubDeleteShrinks(Regex.QuantSuffix, name);
    Regex.SubDeleteShrinks(Regex.QuantSuffix, a);
    Regex.SubDeleteShrinks(Regex.FloatSuffix, b);
    Regex.SubDeleteShrinks(Regex.FloatSuffix, c);
    StripSuffixes(name)
  }

  /** A name with no `.gguf` and no suffix match anywhere is kept as is. */
  lemma ExtractModelNameKeeps(filename: string)
    requires !Contains(filename, ".gguf")
    requires Regex.Unmatched(Regex.QuantSuffix, filename, "")
    requires Regex.Unmatched(Regex.FloatSuffix, filename, "")
    ensures ExtractModelName(filename) == filename
  {
    Regex.SubNoMatch(Regex.QuantSuffix, filename, "");
    Regex.SubNoMatch(Regex.FloatSuffix, filename, "");
  }

  /** A quantization suffix (in any case) and the extension are removed from a
      base name none of whose dashes starts a suffix. */
  lemma StripsQuantSuffix(base: string, q: char, digits: string, k: char, m: char)
    requires !HasChar(base, '.') && Regex.NoSuffixStart(base)
    requires LowerChar(q) == 'q' && LowerChar(k) == 'k' && (LowerChar(m) == 'm' || LowerChar(m) == 's')
    requires |digits| > 0 && forall i :: 0 <= i < |digits| ==> IsDigit(digits[i])
    ensures ExtractModelName(base + ['-', q] + digits + ['_', k, '_', m] + ".gguf") == base
  {
    var suffix := ['-', q] + digits + ['_', k, '_', m];
    var stem := base + suffix;
    var filename := base + ['-', q] + digits + ['_', k, '_', m] + ".gguf";
    assert filename == base + suffix + ".gguf";
    assert !HasChar(suffix, '.');
    DropsExtension(base, suffix);
    var name := Replace(filename, ".gguf", "");
    assert name == base + suffix;
    QuantSuffixDeleted(base, q, digits, k, m);
    var a := Regex.Sub(Regex.QuantSuffix, name, "");
    assert a == base;
    // The remaining passes see only the base.
    Regex.NoSuffixStartUnmatched(Regex.QuantSuffix, base, "");
    Regex.NoSuffixStartUnmatched(Regex.FloatSuffix, base, "");
    Regex.SubNoMatch(Regex.QuantSuffix, base, "");
    Regex.SubNoMatch(Regex.FloatSuffix, base, "");
    assert StripSuffixes(name) == base;
  }

  /** `.gguf` at the end of a stem without dots is the only occurrence. */
  lemma DropsExtension(base: string, suffix: string)
    requires !HasChar(base, '.') && !HasChar(suffix, '.')
    ensures Replace(base + suffix + ".gguf", ".gguf", "") == base + suffix
  {
    var stem := base + suffix;
    assert !HasChar(stem, '.') by {
      forall i | 0 <= i < |stem| ensures stem[i] != '.' {
        if i < |base| { assert stem[i] == base[i]; } else { assert stem[i] == suffix[i - |base|]; }
      }
    }
    ReplaceSkipsFree(stem, ".gguf", ".gguf", "");
    assert Replace(".gguf", ".gguf", "") == "" + Replace("", ".gguf", "");
    assert stem + "" == stem;
  }

  /** A quantization suffix is matched whole. */
  lemma QuantSuffixMatch(q: char, digits: string, k: char, m: char)
    requires LowerChar(q) == 'q' && LowerChar(k) == 'k' && (LowerChar(m) == 'm' || LowerChar(m) == 's')
    requires |digits| > 0 && forall i :: 0 <= i < |digits| ==> IsDigit(digits[i])
    ensures var suffix := ['-', q] + digits + ['_', k, '_', m];
      Regex.MatchLen(Regex.QuantSuffix, suffix + "") == |suffix|
  {
    var suffix := ['-', q] + digits + ['_', k, '_', m];
    assert suffix + "" == suffix;
    forall i | 2 <= i < 2 + |digits| ensures IsDigit(suffix[i]) {
      assert suffix[i] == digits[i - 2];
    }
    DigitRunAt(suffix, 2, |digits|);
  }

  /** The first quantization pass deletes the suffix after a base none of
      whose dashes starts a suffix. */
  lemma QuantSuffixDeleted(base: string, q: char, digits: string, k: char, m: char)
    requires Regex.NoSuffixStart(base)
    requires LowerChar(q) == 'q' && LowerChar(k) == 'k' && (LowerChar(m) == 'm' || LowerChar(m) == 's')
    requires |digits| > 0 && forall i :: 0 <= i < |digits| ==> IsDigit(digits[i])
    ensures Regex.Sub(Regex.QuantSuffix, base + (['-', q] + digits + ['_', k, '_', m]), "") == base
  {
    var suffix := ['-', q] + digits + ['_', k, '_', m];
    Regex.NoSuffixStartUnmatched(Regex.QuantSuffix, base, suffix);
    Regex.SubSkipsUnmatched(Regex.QuantSuffix, base, suffix, "");
    QuantSuffixMatch(q, digits, k, m);
    Regex.SubAtMatch(Regex.QuantSuffix, suffix, "", "");
    assert suffix + "" == suffix;
    assert base + "" == base;
  }

  /** The worked example: "Phi-4-Q4_K_M.gguf" names the model "Phi-4". */
  lemma PhiExample()
    ensures ExtractModelName("Phi-4-Q4_K_M.gguf") == "Phi-4"
  {
    assert Regex.NoSuffixStart("Phi-4");
    assert "Phi-4-Q4_K_M.gguf" == "Phi-4" + ['-', 'Q'] + "4" + ['_', 'K', '_', 'M'] + ".gguf";
    StripsQuantSuffix("Phi-4", 'Q', "4", 'K', 'M');
  }

  // ---------------------------------------------------------------------------
  // Repository file listing
  // ---------------------------------------------------------------------------

  /** One entry of a repository tree listing. `Malformed` stands for an entry
      on which the loop raises (not an object, or a file whose path is not a
      string), which ends the listing with the models found so far. */
  datatype FileEntry =
    | Entry(kind: Option<string>, path: Option<string>, size: Option<int>)
    | Malformed

  function EntryPath(e: FileEntry): string
    requires e.Entry?
  {
    if e.path.Some? then e.path.value else ""
  }

  predicate HasPreferred(filename: string, preferred: seq<string>) {
    exists k :: 0 <= k < |preferred| && Contains(filename, preferred[k])
  }

  /** The filter of `_get_repo_models`. */
  predicate Keep(e: FileEntry, query: string, preferred: seq<string>) {
    && e.Entry?
    && e.kind == Some("file")
    && EndsWith(Lower(EntryPath(e)), ".gguf")
    && (Contains(Lower(EntryPath(e)), Lower(query)) || HasPreferred(EntryPath(e), preferred))
  }

  function DownloadUrl(repoId: string, filename: string): string {
    BaseUrl + "/" + repoId + "/resolve/main/" + filename
  }

  /** The record built for a kept file, completed by `__post_init__`. */
  function ModelFor(repoId: string, filename: string, size: Option<int>, backend: string): (m: ModelInfo)
    ensures m.repoId == repoId && m.filename == filename && m.sizeBytes == size
    ensures m.name == ExtractModelName(filename)
    ensures m.downloadUrl == Some(DownloadUrl(repoId, filename))
  {
    PostInit(ModelInfo(ExtractModelName(filename), repoId, filename, backend, size,
                       None, None, None, None, Some(DownloadUrl(repoId, filename))))
  }

  function EntryModel(repoId: string, e: FileEntry, backend: string): ModelInfo
    requires e.Entry?
  {
    ModelFor(repoId, EntryPath(e), e.size, backend)
  }

  /** The files of a listing that the loop of `_get_repo_models` keeps, in
      listing order; the loop stops at the first malformed entry. */
  function KeptEntries(query: string, entries: seq<FileEntry>, preferred: seq<string>): (r: seq<FileEntry>)
    ensures |r| <= |entries|
    ensures forall k :: 0 <= k < |r| ==> Keep(r[k], query, preferred)
    ensures Subsequence(r, entries)
  {
    if |entries| == 0 || entries[0].Malformed? then
      SubsequenceEmpty(entries);
      []
    else
      var rest := KeptEntries(query, entries[1..], preferred);
      assert [entries[0]] + entries[1..] == entries;
      SubsequenceCons(rest, entries[1..], entries[0]);
      if Keep(entries[0], query, preferred) then [entries[0]] + rest else rest
  }

  /** `_get_repo_models` over a listing: one record per kept file. */
  function RepoModels(repoId: string, query: string, entries: seq<FileEntry>,
                      preferred: seq<string>, backend: string): (r: seq<ModelInfo>)
    ensures |r| <= |entries|
    ensures forall m :: m in r ==> m.repoId == repoId && EndsWith(Lower(m.filename), ".gguf")
  {
    var kept := KeptEntries(query, entries, preferred);
    seq(|kept|, k requires 0 <= k < |kept| => EntryModel(repoId, kept[k], backend))
  }

  /** On a well-formed listing every file that passes the test is kept. */
  lemma {:induction false} KeptComplete(query: string, entries: seq<FileEntry>, preferred: seq<string>, i: nat)
    requires forall j :: 0 <= j < |entries| ==> entries[j].Entry?
    requires i < |entries| && Keep(entries[i], query, preferred)
    ensures entries[i] in KeptEntries(query, entries, preferred)
  {
    if i > 0 {
      var tail := entries[1..];
      assert entries[i] == tail[i - 1];
      AllEntriesTail(entries);
      KeptComplete(query, tail, preferred, i - 1);
    }
  }

  lemma AllEntriesTail(entries: seq<FileEntry>)
    requires |entries| > 0 && forall j :: 0 <= j < |entries| ==> entries[j].Entry?
    ensures forall j :: 0 <= j < |entries[1..]| ==> entries[1..][j].Entry?
  {
    forall j | 0 <= j < |entries[1..]| ensures entries[1..][j].Entry? {
      assert entries[1..][j] == entries[j + 1];
    }
  }

  /** Every kept entry is an entry of the listing. */
  lemma {:induction false} KeptSound(query: string, entries: seq<FileEntry>, preferred: seq<string>, e: FileEntry)
    requires e in KeptEntries(query, entries, preferred)
    ensures e in entries
  {
    if e != entries[0] {
      KeptSound(query, entries[1..], preferred, e);
    }
  }

  /** On a well-formed listing every file that passes the test yields a
      model. */
  lemma RepoModelsComplete(repoId: string, query: string, entries: seq<FileEntry>,
                           preferred: seq<string>, backend: string, i: nat)
    requires forall j :: 0 <= j < |entries| ==> entries[j].Entry?
    requires i < |entries| && Keep(entries[i], query, preferred)
    ensures EntryModel(repoId, entries[i], backend) in RepoModels(repoId, query, entries, preferred, backend)
  {
    KeptComplete(query, entries, preferred, i);
    var kept := KeptEntries(query, entries, preferred);
    var k :| 0 <= k < |kept| && kept[k] == entries[i];
    assert RepoModels(repoId, query, entries, preferred, backend)[k] == EntryModel(repoId, kept[k], backend);
  }

  /** Every model comes from a file of the listing that passes the test. */
  lemma RepoModelsSound(repoId: string, query: string, entries: seq<FileEntry>,
                        preferred: seq<string>, backend: string)
    ensures forall m :: m in RepoModels(repoId, query, entries, preferred, backend) ==>
      exists i :: (0 <= i < |entries| && Keep(entries[i], query, preferred)
                   && m == EntryModel(repoId, entries[i], backend))
  {
    var r := RepoModels(repoId, query, entries, preferred, backend);
    forall m | m in r
      ensures exists i :: (0 <= i < |entries| && Keep(entries[i], query, preferred)
                           && m == EntryModel(repoId, entries[i], backend))
    {
      var k :| 0 <= k < |r| && r[k] == m;
      RepoModelAtSound(repoId, query, entries, preferred, backend, k);
    }
  }

  lemma RepoModelAtSound(repoId: string, query: string, entries: seq<FileEntry>,
                         preferred: seq<string>, backend: string, k: nat)
    requires k < |RepoModels(repoId, query, entries, preferred, backend)|
    ensures exists i :: (0 <= i < |entries| && Keep(entries[i], query, preferred)
                         && RepoModels(repoId, query, entries, preferred, backend)[k]
                            == EntryModel(repoId, entries[i], backend))
  {
    var kept := KeptEntries(query, entries, preferred);
    assert RepoModels(repoId, query, entries, preferred, backend)[k] == EntryModel(repoId, kept[k], backend);
    KeptSound(query, entries, preferred, kept[k]);
    var i :| 0 <= i < |entries| && entries[i] == kept[k];
  }

  /** A malformed entry ends the listing: nothing after it is kept. */
  lemma {:induction false} MalformedEndsListing(query: string, before: seq<FileEntry>,
                                                after: seq<FileEntry>, preferred: seq<string>)
    ensures KeptEntries(query, before + [Malformed] + after, preferred)
         == KeptEntries(query, before + [Malformed], preferred)
  {
    if |before| > 0 {
      assert (before + [Malformed] + after)[1..] == before[1..] + [Malformed] + after;
      assert (before + [Malformed])[1..] == before[1..] + [Malformed];
      MalformedEndsListing(query, before[1..], after, preferred);
    } else {
      assert (before + [Malformed] + after)[0] == Malformed;
    }
  }

  /** With an empty query the filter keeps every GGUF file. */
  lemma EmptyQueryKeepsAllGguf(e: FileEntry, preferred: seq<string>)
    requires e.Entry?
    ensures Keep(e, "", preferred) <==> e.kind == Some("file") && EndsWith(Lower(EntryPath(e)), ".gguf")
  {
    assert Lower("") == "";
    ContainsEmpty(Lower(EntryPath(e)));
  }

  // ---------------------------------------------------------------------------
  // get_model_info
  // ---------------------------------------------------------------------------

  /** Index of the first model whose file name contains Q4_K_M. */
  function FirstQ4KM(models: seq<ModelInfo>): (r: Option<nat>)
    ensures r.Some? ==> (r.value < |models| && Contains(models[r.value].filename, "Q4_K_M")
                         && forall j :: 0 <= j < r.value ==> !Contains(models[j].filename, "Q4_K_M"))
    ensures r.None? ==> forall j :: 0 <= j < |models| ==> !Contains(models[j].filename, "Q4_K_M")
  {
    if |models| == 0 then None
    else if Contains(models[0].filename, "Q4_K_M") then Some(0)
    else match FirstQ4KM(models[1..])
      case Some(i) => Some(i + 1)
      case None => None
  }

  /** `next((m for m in models if "Q4_K_M" in m.filename), models[0])`. */
  function PickPreferred(models: seq<ModelInfo>): (r: ModelInfo)
    requires |models| > 0
    ensures r in models
    ensures (exists j :: 0 <= j < |models| && Contains(models[j].filename, "Q4_K_M")) ==>
      exists i :: 0 <= i < |models| && r == models[i] && Contains(r.filename, "Q4_K_M")
        && forall j :: 0 <= j < i ==> !Contains(models[j].filename, "Q4_K_M")
    ensures (forall j :: 0 <= j < |models| ==> !Contains(models[j].filename, "Q4_K_M")) ==> r == models[0]
  {
    match FirstQ4KM(models)
    case Some(i) => models[i]
    case None => models[0]
  }

  /** Whether some model's file name contains Q4_K_M. */
  predicate AnyQ4KM(models: seq<ModelInfo>) {
    exists j :: 0 <= j < |models| && Contains(models[j].filename, "Q4_K_M")
  }

  /** The choice `get_model_info` makes among a repository's models: the first
      Q4_K_M file, else the first file, else nothing. */
  function ChooseModel(models: seq<ModelInfo>): (r: Option<ModelInfo>)
    ensures r.None? <==> |models| == 0
    ensures r.Some? ==> r.value in models
    ensures AnyQ4KM(models) ==>
      exists i :: (0 <= i < |models| && r == Some(models[i]) && Contains(models[i].filename, "Q4_K_M")
                   && forall j :: 0 <= j < i ==> !Contains(models[j].filename, "Q4_K_M"))
    ensures !AnyQ4KM(models) && |models| > 0 ==> r == Some(models[0])
  {
    if |models| > 0 then Some(PickPreferred(models)) else None
  }

  /** `get_model_info`: a named file is described directly; a bare repository
      is listed (`listing` is None when the request fails) and its preferred
      GGUF file returned, or None when it has none. */
  function GetModelInfo(id: string, listing: Option<seq<FileEntry>>, preferred: seq<string>,
                        backend: string): (r: Option<ModelInfo>)
    ensures HfParseIdentifier(id).1 != "" ==>
      r == Some(ModelFor(HfParseIdentifier(id).0, HfParseIdentifier(id).1, None, backend))
    ensures r.Some? && HfParseIdentifier(id).1 == "" ==>
      r.value.repoId == HfParseIdentifier(id).0 && EndsWith(Lower(r.value.filename), ".gguf")
    ensures r.None? ==> HfParseIdentifier(id).1 == ""
    ensures HfParseIdentifier(id).1 == "" ==>
      var listed := RepoModels(HfParseIdentifier(id).0, "", if listing.Some? then listing.value else [],
                               preferred, backend);
      && (r.None? <==> |listed| == 0)
      && (r.Some? ==> r.value in listed)
      && (AnyQ4KM(listed) ==>
            exists i :: (0 <= i < |listed| && r == Some(listed[i]) && Contains(listed[i].filename, "Q4_K_M")
                         && forall j :: 0 <= j < i ==> !Contains(listed[j].filename, "Q4_K_M")))
      && (!AnyQ4KM(listed) && |listed| > 0 ==> r == Some(listed[0]))
  {
    var (repo, filename) := HfParseIdentifier(id);
    if filename == "" then
      ChooseModel(RepoModels(repo, "", if listing.Some? then listing.value else [], preferred, backend))
    else Some(ModelFor(repo, filename, None, backend))
  }

  /** A failed listing of a bare repository finds nothing. */
  lemma FailedListingFindsNothing(id: string, preferred: seq<string>, backend: string)
    requires HfParseIdentifier(id).1 == ""
    ensures GetModelInfo(id, None, preferred, backend) == None
  {
  }

  // ---------------------------------------------------------------------------
  // search_models post-processing
  // ---------------------------------------------------------------------------

  predicate SortedByScore(xs: seq<ModelInfo>, score: ModelInfo -> int) {
    forall i, j :: 0 <= i < j < |xs| ==> score(xs[i]) >= score(xs[j])
  }

  /** Length of the longest prefix whose scores are all at least `s`. */
  function AtLeastPrefix(xs: seq<ModelInfo>, s: int, score: ModelInfo -> int): (k: nat)
    ensures k <= |xs|
    ensures forall i :: 0 <= i < k ==> score(xs[i]) >= s
    ensures k < |xs| ==> score(xs[k]) < s
  {
    if |xs| == 0 || score(xs[0]) < s then 0
    else 1 + AtLeastPrefix(xs[1..], s, score)
  }

  /** Places `x` after every element scoring at least as much. */
  function InsertByScore(xs: seq<ModelInfo>, x: ModelInfo, score: ModelInfo -> int): seq<ModelInfo> {
    var k := AtLeastPrefix(xs, score(x), score);
    xs[..k] + [x] + xs[k..]
  }

  /** Insertion sort, descending by score; the later of two equal-scoring
      elements goes after the earlier, as Python's stable
      `sort(key=…, reverse=True)` does. */
  function SortByScore(xs: seq<ModelInfo>, score: ModelInfo -> int): (r: seq<ModelInfo>)
    ensures |r| == |xs|
  {
    if |xs| == 0 then []
    else InsertByScore(SortByScore(xs[..|xs| - 1], score), xs[|xs| - 1], score)
  }

  /** The elements with score `v`, in order. */
  function WithScore(xs: seq<ModelInfo>, v: int, score: ModelInfo -> int): seq<ModelInfo> {
    if |xs| == 0 then []
    else WithScore(xs[..|xs| - 1], v, score) + (if score(xs[|xs| - 1]) == v then [xs[|xs| - 1]] else [])
  }

  lemma {:induction false} WithScoreAppend(a: seq<ModelInfo>, b: seq<ModelInfo>, v: int, score: ModelInfo -> int)
    ensures WithScore(a + b, v, score) == WithScore(a, v, score) + WithScore(b, v, score)
    decreases |b|
  {
    if |b| == 0 {
      assert a + b == a;
    } else {
      assert (a + b)[..|a + b| - 1] == a + b[..|b| - 1];
      assert (a + b)[|a + b| - 1] == b[|b| - 1];
      WithScoreAppend(a, b[..|b| - 1], v, score);
    }
  }

  lemma {:induction false} WithScoreNone(xs: seq<ModelInfo>, v: int, score: ModelInfo -> int)
    requires forall i :: 0 <= i < |xs| ==> score(xs[i]) != v
    ensures WithScore(xs, v, score) == []
    decreases |xs|
  {
    if |xs| > 0 {
      WithScoreNone(xs[..|xs| - 1], v, score);
    }
  }

  /** Everything from the insertion point on scores below `x`. */
  lemma InsertPointBelow(xs: seq<ModelInfo>, x: ModelInfo, score: ModelInfo -> int, i: nat)
    requires SortedByScore(xs, score)
    requires AtLeastPrefix(xs, score(x), score) <= i < |xs|
    ensures score(xs[i]) < score(x)
  {
    var k := AtLeastPrefix(xs, score(x), score);
    assert score(xs[i]) <= score(xs[k]);
  }

  /** Inserting into a sorted list keeps it sorted. */
  lemma InsertSorted(xs: seq<ModelInfo>, x: ModelInfo, score: ModelInfo -> int)
    requires SortedByScore(xs, score)
    ensures SortedByScore(InsertByScore(xs, x, score), score)
  {
    var k := AtLeastPrefix(xs, score(x), score);
    var r := xs[..k] + [x] + xs[k..];
    forall i, j | 0 <= i < j < |r| ensures score(r[i]) >= score(r[j]) {
      if i < k && j > k {
        assert r[i] == xs[i] && r[j] == xs[j - 1];
      } else if i < k && j < k {
        assert r[i] == xs[i] && r[j] == xs[j];
      } else if i > k {
        assert r[i] == xs[i - 1] && r[j] == xs[j - 1];
      } else if i == k {
        assert r[j] == xs[j - 1];
        InsertPointBelow(xs, x, score, j - 1);
      }
    }
  }

  /** Inserting adds exactly `x`. */
  lemma InsertPermutes(xs: seq<ModelInfo>, x: ModelInfo, score: ModelInfo -> int)
    ensures multiset(InsertByScore(xs, x, score)) == multiset(xs) + multiset{x}
  {
    var k := AtLeastPrefix(xs, score(x), score);
    assert xs[..k] + xs[k..] == xs;
  }

  /** Inserting puts `x` after every element with its score. */
  lemma InsertAfterEqual(xs: seq<ModelInfo>, x: ModelInfo, score: ModelInfo -> int, v: int)
    requires SortedByScore(xs, score)
    ensures WithScore(InsertByScore(xs, x, score), v, score)
         == WithScore(xs, v, score) + (if score(x) == v then [x] else [])
  {
    var k := AtLeastPrefix(xs, score(x), score);
    if score(x) == v {
      forall i | k <= i < |xs| ensures score(xs[i]) != v {
        InsertPointBelow(xs, x, score, i);
      }
      WithScoreBelow(xs, k, v, score);
    }
    InsertSplit(xs, k, x, v, score);
  }

  /** Where `x` goes into `xs` at `k`, the elements with score `v` are those
      before `k`, then `x` if it has that score, then those after. */
  lemma InsertSplit(xs: seq<ModelInfo>, k: nat, x: ModelInfo, v: int, score: ModelInfo -> int)
    requires k <= |xs|
    ensures WithScore(xs[..k] + [x] + xs[k..], v, score)
         == WithScore(xs[..k], v, score) + (if score(x) == v then [x] else []) + WithScore(xs[k..], v, score)
    ensures WithScore(xs, v, score) == WithScore(xs[..k], v, score) + WithScore(xs[k..], v, score)
  {
    var a, b := xs[..k], xs[k..];
    assert a + b == xs;
    WithScoreAppend(a + [x], b, v, score);
    WithScoreAppend(a, [x], v, score);
    WithScoreAppend(a, b, v, score);
    WithScoreSingle(x, v, score);
  }

  lemma WithScoreSingle(x: ModelInfo, v: int, score: ModelInfo -> int)
    ensures WithScore([x], v, score) == if score(x) == v then [x] else []
  {
    assert [x][..0] == [];
  }

  /** A suffix without score `v` contributes nothing. */
  lemma WithScoreBelow(xs: seq<ModelInfo>, k: nat, v: int, score: ModelInfo -> int)
    requires k <= |xs|
    requires forall i :: k <= i < |xs| ==> score(xs[i]) != v
    ensures WithScore(xs[k..], v, score) == []
  {
    var b := xs[k..];
    forall i | 0 <= i < |b| ensures score(b[i]) != v {
      assert b[i] == xs[k + i];
    }
    WithScoreNone(b, v, score);
  }

  /** The sort orders by descending score. */
  lemma {:induction false} SortByScoreSorted(xs: seq<ModelInfo>, score: ModelInfo -> int)
    ensures SortedByScore(SortByScore(xs, score), score)
    decreases |xs|
  {
    if |xs| > 0 {
      var init := xs[..|xs| - 1];
      SortByScoreSorted(init, score);
      InsertSorted(SortByScore(init, score), xs[|xs| - 1], score);
    }
  }

  /** The sort is a permutation. */
  lemma {:induction false} SortByScorePermutes(xs: seq<ModelInfo>, score: ModelInfo -> int)
    ensures multiset(SortByScore(xs, score)) == multiset(xs)
    decreases |xs|
  {
    if |xs| > 0 {
      var init := xs[..|xs| - 1];
      SortByScorePermutes(init, score);
      InsertPermutes(SortByScore(init, score), xs[|xs| - 1], score);
      assert xs == init + [xs[|xs| - 1]];
    }
  }

  /** The sort keeps the relative order of equal-scoring elements. */
  lemma {:induction false} SortByScoreStable(xs: seq<ModelInfo>, score: ModelInfo -> int, v: int)
    ensures WithScore(SortByScore(xs, score), v, score) == WithScore(xs, v, score)
    decreases |xs|
  {
    if |xs| > 0 {
      var init := xs[..|xs| - 1];
      SortByScoreStable(init, score, v);
      SortByScoreSorted(init, score);
      InsertAfterEqual(SortByScore(init, score), xs[|xs| - 1], score, v);
    }
  }

  lemma PrefixSorted(xs: seq<ModelInfo>, score: ModelInfo -> int, k: int)
    requires SortedByScore(xs, score)
    ensures SortedByScore(PyPrefix(xs, k), score)
  {
    var r := PyPrefix(xs, k);
    forall i, j | 0 <= i < j < |r| ensures score(r[i]) >= score(r[j]) {
      assert r[i] == xs[i] && r[j] == xs[j];
    }
  }

  /** A permutation of a list with distinct keys has distinct keys. */
  lemma DistinctKeysPermutation(xs: seq<ModelInfo>, ys: seq<ModelInfo>)
    requires DistinctKeys(xs) && multiset(xs) == multiset(ys)
    ensures DistinctKeys(ys)
  {
    forall i, j | 0 <= i < j < |ys| ensures Key(ys[i]) != Key(ys[j]) {
      if Key(ys[i]) == Key(ys[j]) {
        var a := ys[i];
        var b := ys[j];
        assert a in multiset(xs) && b in multiset(xs);
        var ia :| 0 <= ia < |xs| && xs[ia] == a;
        var ib :| 0 <= ib < |xs| && xs[ib] == b;
        if a == b {
          MultisetTwice(ys, i, j);
          SingleOccurrence(xs, ia);
          assert false;
        } else {
          assert false;
        }
      }
    }
  }

  lemma MultisetTwice(ys: seq<ModelInfo>, i: nat, j: nat)
    requires i < j < |ys| && ys[i] == ys[j]
    ensures multiset(ys)[ys[i]] >= 2
  {
    assert ys == ys[..i] + [ys[i]] + ys[i + 1..j] + [ys[j]] + ys[j + 1..];
  }

  /** In a list with distinct keys every element occurs once. */
  lemma SingleOccurrence(xs: seq<ModelInfo>, i: nat)
    requires DistinctKeys(xs) && i < |xs|
    ensures multiset(xs)[xs[i]] == 1
  {
    assert xs == xs[..i] + [xs[i]] + xs[i + 1..];
    assert xs[i] !in xs[..i] by {
      forall j | 0 <= j < i ensures xs[..i][j] != xs[i] { assert xs[..i][j] == xs[j]; }
    }
    var tail := xs[i + 1..];
    assert xs[i] !in tail by {
      forall j | 0 <= j < |tail| ensures tail[j] != xs[i] { assert tail[j] == xs[i + 1 + j]; }
    }
  }

  lemma PrefixDistinct(xs: seq<ModelInfo>, k: int)
    requires DistinctKeys(xs)
    ensures DistinctKeys(PyPrefix(xs, k))
  {
    var r := PyPrefix(xs, k);
    forall i, j | 0 <= i < j < |r| ensures Key(r[i]) != Key(r[j]) {
      assert r[i] == xs[i] && r[j] == xs[j];
    }
  }

  /** The results of the concurrent repository searches; `None` is a task
      that ended in an exception, which contributes nothing. */
  function Flatten(results: seq<Option<seq<ModelInfo>>>): (r: seq<ModelInfo>)
    ensures forall m :: m in r ==> exists i :: 0 <= i < |results| && results[i].Some? && m in results[i].value
    ensures forall i, m :: 0 <= i < |results| && results[i].Some? && m in results[i].value ==> m in r
  {
    if |results| == 0 then []
    else
      var rest := Flatten(results[1..]);
      assert forall i :: 0 <= i < |results[1..]| ==> results[1..][i] == results[i + 1];
      (if results[0].Some? then results[0].value else []) + rest
  }

  /** `models.extend` in task order: the results of two runs of searches
      collect one after the other. */
  lemma {:induction false} FlattenAppend(a: seq<Option<seq<ModelInfo>>>, b: seq<Option<seq<ModelInfo>>>)
    ensures Flatten(a + b) == Flatten(a) + Flatten(b)
    decreases |a|
  {
    if |a| == 0 {
      assert a + b == b;
    } else {
      assert (a + b)[0] == a[0];
      assert (a + b)[1..] == a[1..] + b;
      FlattenAppend(a[1..], b);
    }
  }

  /** Each search that returned a list contributes all its models, whole and
      in their own order, between those of the searches before and after it. */
  lemma FlattenBlock(results: seq<Option<seq<ModelInfo>>>, i: nat)
    requires i < |results| && results[i].Some?
    ensures Flatten(results) == Flatten(results[..i]) + results[i].value + Flatten(results[i + 1..])
  {
    assert results == results[..i] + ([results[i]] + results[i + 1..]);
    FlattenAppend(results[..i], [results[i]] + results[i + 1..]);
    assert ([results[i]] + results[i + 1..])[1..] == results[i + 1..];
  }

  /** `search_models` after the network calls: the alias hit first (returned
      alone when the limit is already reached), then the repository results;
      first occurrences only, stably sorted by descending score, cut to
      `limit`. */
  function HfSearchResults(query: string, limit: int, aliasHit: Option<ModelInfo>,
                           results: seq<Option<seq<ModelInfo>>>, score: ModelInfo -> int): (r: seq<ModelInfo>)
    ensures DistinctKeys(r)
    ensures limit >= 1 ==> |r| <= limit
    ensures forall m :: m in r ==> (aliasHit.Some? && m == aliasHit.value) || m in Flatten(results)
  {
    var seed := if Lower(query) in Aliases && aliasHit.Some? then [aliasHit.value] else [];
    if |seed| > 0 && |seed| >= limit then seed
    else
      var sorted := SortByScore(FirstOccurrences(seed + Flatten(results)), score);
      RankedFacts(seed + Flatten(results), score, limit);
      PyPrefix(sorted, limit)
  }

  /** De-duplicating, sorting and cutting keeps keys distinct and adds
      nothing. */
  lemma RankedFacts(all: seq<ModelInfo>, score: ModelInfo -> int, limit: int)
    ensures var r := PyPrefix(SortByScore(FirstOccurrences(all), score), limit);
      DistinctKeys(r) && forall m :: m in r ==> m in all
  {
    var unique := FirstOccurrences(all);
    var sorted := SortByScore(unique, score);
    SortByScorePermutes(unique, score);
    DistinctKeysPermutation(unique, sorted);
    PrefixDistinct(sorted, limit);
    var r := PyPrefix(sorted, limit);
    forall m | m in r ensures m in all {
      assert m in sorted;
      assert m in multiset(unique);
      assert FirstOfKey(m, all);
    }
  }

  /** Apart from the early alias return, results come sorted by descending
      score, and equal-scoring results keep their first-occurrence order. */
  lemma SearchResultsOrdered(query: string, limit: int, aliasHit: Option<ModelInfo>,
                             results: seq<Option<seq<ModelInfo>>>, score: ModelInfo -> int, v: int)
    requires limit > 1 || Lower(query) !in Aliases || aliasHit.None?
    ensures var r := HfSearchResults(query, limit, aliasHit, results, score);
      var seed := if Lower(query) in Aliases && aliasHit.Some? then [aliasHit.value] else [];
      var sorted := SortByScore(FirstOccurrences(seed + Flatten(results)), score);
      && SortedByScore(r, score)
      && r == PyPrefix(sorted, limit)
      && WithScore(sorted, v, score) == WithScore(FirstOccurrences(seed + Flatten(results)), v, score)
  {
    var seed := if Lower(query) in Aliases && aliasHit.Some? then [aliasHit.value] else [];
    var unique := FirstOccurrences(seed + Flatten(results));
    SortByScoreSorted(unique, score);
    SortByScoreStable(unique, score, v);
    PrefixSorted(SortByScore(unique, score), score, limit);
  }
}

=== FILE: chat.dfy ===
/** The chat loop of lcp/ui/chat.py as a session transformer: what one line
    of input does to the session, the chat commands, and the fold over the
    server-sent event lines of a streamed reply. Terminal input, the HTTP
    stream and JSON decoding are inputs. */
module Chat {
  import opened Strings
  import opened Models

  // ---------------------------------------------------------------------------
  // Commands
  // ---------------------------------------------------------------------------

  /** The command as compared: lower-cased, then stripped. */
  function Normalize(command: string): string {
    Strip(Lower(command))
  }

  /** `_handle_command`: whether the loop goes on, and the session after the
      command. Only `/clear` changes the session; only `/quit` and `/exit`
      stop. */
  function HandleCommand(s: ChatSession, command: string): (r: (bool, ChatSession))
    ensures !r.0 <==> Normalize(command) == "/quit" || Normalize(command) == "/exit"
    ensures Normalize(command) == "/clear" ==> |r.1.messages| == 0 && r.1.totalTokens == 0
    ensures Normalize(command) != "/clear" ==> r.1 == s
    ensures r.1.modelName == s.modelName
  {
    var c := Normalize(command);
    if c == "/clear" then (true, ClearHistory(s))
    else if c == "/help" then (true, s)
    else if c == "/stats" then (true, s)
    else if c == "/quit" || c == "/exit" then (false, s)
    else (true, s)
  }

  /** Commands are matched regardless of case and surrounding whitespace. */
  lemma CommandCaseAndSpace(s: ChatSession, pad: string)
    requires forall i :: 0 <= i < |pad| ==> IsSpace(pad[i])
    ensures HandleCommand(s, "/QUIT" + pad).0 == false
    ensures HandleCommand(s, pad + "/Exit").0 == false
  {
    assert Lower("/QUIT" + pad) == "/quit" + Lower(pad);
    assert Lower(pad + "/Exit") == Lower(pad) + "/exit";
    LowerKeepsSpace(pad);
    StripPadded("/quit", Lower(pad));
    StripPadded2(Lower(pad), "/exit");
  }

  lemma LowerKeepsSpace(pad: string)
    requires forall i :: 0 <= i < |pad| ==> IsSpace(pad[i])
    ensures forall i :: 0 <= i < |Lower(pad)| ==> IsSpace(Lower(pad)[i])
  {
  }

  /** Trailing whitespace after a word is stripped. */
  lemma StripPadded(w: string, pad: string)
    requires |w| > 0 && !IsSpace(w[0]) && !IsSpace(w[|w| - 1])
    requires forall i :: 0 <= i < |pad| ==> IsSpace(pad[i])
    ensures Strip(w + pad) == w
  {
    StripLeftStops(w + pad);
    StripRightPad(w, pad);
  }

  /** Leading whitespace before a word is stripped. */
  lemma StripPadded2(pad: string, w: string)
    requires |w| > 0 && !IsSpace(w[0]) && !IsSpace(w[|w| - 1])
    requires forall i :: 0 <= i < |pad| ==> IsSpace(pad[i])
    ensures Strip(pad + w) == w
  {
    StripLeftPad(pad, w);
    StripRightStops(w);
  }

  lemma StripLeftStops(s: string)
    requires |s| > 0 && !IsSpace(s[0])
    ensures StripLeft(s) == s
  {
  }

  lemma StripRightStops(s: string)
    requires |s| > 0 && !IsSpace(s[|s| - 1])
    ensures StripRight(s) == s
  {
  }

  lemma {:induction false} StripLeftPad(pad: string, w: string)
    requires |w| > 0 && !IsSpace(w[0])
    requires forall i :: 0 <= i < |pad| ==> IsSpace(pad[i])
    ensures StripLeft(pad + w) == w
    decreases |pad|
  {
    if |pad| == 0 {
      assert pad + w == w;
    } else {
      assert (pad + w)[0] == pad[0];
      assert (pad + w)[1..] == pad[1..] + w;
      StripLeftPad(pad[1..], w);
    }
  }

  lemma {:induction false} StripRightPad(w: string, pad: string)
    requires |w| > 0 && !IsSpace(w[|w| - 1])
    requires forall i :: 0 <= i < |pad| ==> IsSpace(pad[i])
    ensures StripRight(w + pad) == w
    decreases |pad|
  {
    if |pad| == 0 {
      assert w + pad == w;
    } else {
      var s := w + pad;
      assert s[|s| - 1] == pad[|pad| - 1];
      assert s[..|s| - 1] == w + pad[..|pad| - 1];
      StripRightPad(w, pad[..|pad| - 1]);
    }
  }

  // ---------------------------------------------------------------------------
  // One turn of the loop
  // ---------------------------------------------------------------------------

  /** A read from the terminal: a line, or end of input. */
  datatype Input = Line(text: string) | EndOfInput

  /** `_get_user_input`: end of input reads as "quit". */
  function InputText(i: Input): string {
    match i
    case Line(t) => t
    case EndOfInput => "quit"
  }

  /** What the loop does after one input. */
  datatype Action =
    | Skip    // empty input, or a command that keeps the loop going
    | Exit    // leave the loop
    | Send    // a user message was added; a reply is requested

  const QuitWords: set<string> := {"quit", "exit", "bye"}

  /** One turn of `chat_loop` up to the request for a reply. */
  function LoopStep(s: ChatSession, input: Input): (r: (Action, ChatSession))
    ensures var t := InputText(input);
      && (t == "" ==> r == (Skip, s))
      && (r.0 == Send <==> t != "" && t[0] != '/' && Lower(t) !in QuitWords)
      && (r.0 == Send ==> r.1 == AddMessage(s, UserMessage(t)) && r.1.totalTokens == s.totalTokens)
      && (t != "" && t[0] != '/' && Lower(t) in QuitWords ==> r == (Exit, s))
      && (t != "" && t[0] == '/' ==> r.1 == HandleCommand(s, t).1)
      && (t != "" && t[0] == '/' ==> (r.0 == Exit <==> !HandleCommand(s, t).0))
  {
    var t := InputText(input);
    if t == "" then (Skip, s)
    else if t[0] == '/' then
      var (cont, s2) := HandleCommand(s, t);
      (if cont then Skip else Exit, s2)
    else if Lower(t) in QuitWords then (Exit, s)
    else (Send, AddMessage(s, UserMessage(t)))
  }

  /** End of input ends the loop without touching the session. */
  lemma EndOfInputExits(s: ChatSession)
    ensures LoopStep(s, EndOfInput) == (Exit, s)
  {
    assert Lower("quit") == "quit";
    assert "quit"[0] != '/';
  }

  // ---------------------------------------------------------------------------
  // The streamed reply
  // ---------------------------------------------------------------------------

  /** What decoding one `data: ` payload yields: its `delta.content` (empty
      when absent), a JSON error, which is skipped, or any other failure,
      which abandons the reply. */
  datatype Chunk = Content(text: string) | Undecodable | Failure

  /** A reply's text and the number of non-empty pieces it was built from,
      or `Abandoned` when the stream failed. */
  datatype Reply = Finished(text: string, count: nat) | Abandoned

  const DataPrefix: string := "data: "
  const DoneMarker: string := "[DONE]"

  /** Whether a line is the end-of-stream marker. */
  predicate IsDone(line: string) {
    StartsWith(line, DataPrefix) && Strip(line[|DataPrefix|..]) == DoneMarker
  }

  /** A finished reply counts one chunk per non-empty piece, so it counts
      nothing exactly when its text is empty. */
  predicate WellCounted(r: Reply) {
    r.Finished? ==> r.count <= |r.text| && (r.count == 0 <==> r.text == "")
  }

  /** One event line in front of the fold of the lines after it: lines
      without the `data: ` prefix are ignored; the `[DONE]` marker ends the
      reply; each non-empty piece of content is added and counted. */
  function Step(line: string, decode: string -> Chunk, rest: Reply): (r: Reply)
    ensures WellCounted(rest) ==> WellCounted(r)
  {
    if !StartsWith(line, DataPrefix) then rest
    else if IsDone(line) then Finished("", 0)
    else
      match decode(line[|DataPrefix|..])
      case Undecodable => rest
      case Failure => Abandoned
      case Content(c) =>
        if c == "" then rest
        else match rest
          case Finished(t, n) => Finished(c + t, n + 1)
          case Abandoned => Abandoned
  }

  /** Reference fold over the event lines of a reply. */
  function FoldLines(lines: seq<string>, decode: string -> Chunk): (r: Reply)
    ensures WellCounted(r)
  {
    if |lines| == 0 then Finished("", 0)
    else Step(lines[0], decode, FoldLines(lines[1..], decode))
  }

  /** A reply so far followed by the fold of the remaining lines. */
  function Then(text: string, count: nat, rest: Reply): Reply {
    match rest
    case Finished(t, n) => Finished(text + t, count + n)
    case Abandoned => Abandoned
  }

  /** The loop of `_get_streaming_response` over the lines of a reply. */
  method StreamReply(lines: seq<string>, decode: string -> Chunk) returns (r: Reply)
    ensures r == FoldLines(lines, decode)
  {
    var text := "";
    var count := 0;
    var i := 0;
    while i < |lines|
      invariant 0 <= i <= |lines|
      invariant Then(text, count, FoldLines(lines[i..], decode)) == FoldLines(lines, decode)
    {
      var line := lines[i];
      var rest := FoldLines(lines[i + 1..], decode);
      assert lines[i..][1..] == lines[i + 1..];
      assert FoldLines(lines[i..], decode) == Step(line, decode, rest);
      StepThen(line, decode, text, count, rest);
      if StartsWith(line, DataPrefix) {
        var data := line[|DataPrefix|..];
        if Strip(data) == DoneMarker {
          return Finished(text, count);
        }
        match decode(data)
        case Undecodable => {}
        case Failure => { return Abandoned; }
        case Content(c) => {
          if c != "" {
            text := text + c;
            count := count + 1;
          }
        }
      }
      i := i + 1;
    }
    assert text + "" == text;
    return Finished(text, count);
  }

  /** One step of the loop against the reference fold: what the reply so far
      followed by one more line comes to, arm by arm. */
  lemma StepThen(line: string, decode: string -> Chunk, text: string, count: nat, rest: Reply)
    ensures !StartsWith(line, DataPrefix) ==> Then(text, count, Step(line, decode, rest)) == Then(text, count, rest)
    ensures IsDone(line) ==> Then(text, count, Step(line, decode, rest)) == Finished(text, count)
    ensures StartsWith(line, DataPrefix) && !IsDone(line) ==>
      match decode(line[|DataPrefix|..])
      case Undecodable => Then(text, count, Step(line, decode, rest)) == Then(text, count, rest)
      case Failure => Then(text, count, Step(line, decode, rest)) == Abandoned
      case Content(c) =>
        Then(text, count, Step(line, decode, rest))
          == if c == "" then Then(text, count, rest) else Then(text + c, count + 1, rest)
  {
    assert text + "" == text;
    if StartsWith(line, DataPrefix) && !IsDone(line) {
      match decode(line[|DataPrefix|..])
      case Content(c) =>
        if c != "" {
          ThenAssoc(text, c, count, rest);
        }
      case Undecodable =>
      case Failure =>
    }
  }

  lemma ThenAssoc(text: string, c: string, count: nat, rest: Reply)
    ensures Then(text, count, Then(c, 1, rest)) == Then(text + c, count + 1, rest)
  {
    if rest.Finished? {
      assert text + (c + rest.text) == text + c + rest.text;
    }
  }

  /** Lines after the end marker are never read. */
  lemma {:induction false} DoneEndsReply(before: seq<string>, done: string, after: seq<string>,
                                         decode: string -> Chunk)
    requires IsDone(done)
    ensures FoldLines(before + [done] + after, decode) == FoldLines(before + [done], decode)
    decreases |before|
  {
    if |before| == 0 {
      assert before + [done] + after == [done] + after;
      assert before + [done] == [done];
      assert ([done] + after)[0] == done;
    } else {
      assert before + [done] + after == [before[0]] + (before[1..] + [done] + after);
      assert before + [done] == [before[0]] + (before[1..] + [done]);
      DoneEndsReply(before[1..], done, after, decode);
      FoldCongruent(before[0], before[1..] + [done] + after, before[1..] + [done], decode);
    }
  }

  /** The fold of a list depends on its tail only through the tail's fold. */
  lemma FoldCongruent(line: string, a: seq<string>, b: seq<string>, decode: string -> Chunk)
    requires FoldLines(a, decode) == FoldLines(b, decode)
    ensures FoldLines([line] + a, decode) == FoldLines([line] + b, decode)
  {
    assert ([line] + a)[1..] == a;
    assert ([line] + b)[1..] == b;
  }

  /** Lines that are not `data: ` events do not change the reply. */
  lemma OtherLinesIgnored(before: seq<string>, other: string, after: seq<string>, decode: string -> Chunk)
    requires !StartsWith(other, DataPrefix)
    ensures FoldLines(before + [other] + after, decode) == FoldLines(before + after, decode)
  {
    FoldSkips(before, other, after, decode);
  }

  lemma {:induction false} FoldSkips(before: seq<string>, other: string, after: seq<string>, decode: string -> Chunk)
    requires !StartsWith(other, DataPrefix)
    ensures FoldLines(before + [other] + after, decode) == FoldLines(before + after, decode)
    decreases |before|
  {
    if |before| == 0 {
      assert before + [other] + after == [other] + after;
      assert ([other] + after)[1..] == after;
      assert before + after == after;
    } else {
      assert before + [other] + after == [before[0]] + (before[1..] + [other] + after);
      assert before + after == [before[0]] + (before[1..] + after);
      FoldSkips(before[1..], other, after, decode);
      FoldCongruent(before[0], before[1..] + [other] + after, before[1..] + after, decode);
    }
  }

  /** How the reply request ended: no client, a status other than 200, or
      the lines of a 200 response. */
  datatype Response = NoClient | Status(code: int, lines: seq<string>)

  /** The session after `_get_streaming_response`: the assistant's message,
      with its piece count as token count, is added only when some text
      arrived and the stream did not fail. */
  function Respond(s: ChatSession, response: Response, decode: string -> Chunk): (r: ChatSession)
    ensures Consistent(s) ==> Consistent(r)
    ensures r == s || (exists t, n :: (t != "" && n > 0 && r == AddMessage(s, AssistantMessage(t, Some(n)))))
  {
    match response
    case NoClient => s
    case Status(code, lines) =>
      if code != 200 then s
      else match FoldLines(lines, decode)
        case Abandoned => s
        case Finished(t, n) => if t != "" then AddMessage(s, AssistantMessage(t, Some(n))) else s
  }

  /** A complete reply adds exactly its text with its piece count. */
  lemma RespondAdds(s: ChatSession, lines: seq<string>, decode: string -> Chunk)
    requires FoldLines(lines, decode).Finished? && FoldLines(lines, decode).text != ""
    ensures var reply := FoldLines(lines, decode);
      var r := Respond(s, Status(200, lines), decode);
      && r.messages == s.messages + [AssistantMessage(reply.text, Some(reply.count))]
      && r.totalTokens == s.totalTokens + reply.count
  {
  }

  // ---------------------------------------------------------------------------
  // The whole loop
  // ---------------------------------------------------------------------------

  /** `chat_loop` over a sequence of inputs, each user message answered by
      the next response. It ends at an exit, or when the inputs or the
      responses run out. */
  function ChatLoop(s: ChatSession, inputs: seq<Input>, responses: seq<Response>,
                    decode: string -> Chunk): (r: ChatSession)
    ensures r.modelName == s.modelName
    decreases |inputs|
  {
    if |inputs| == 0 then s
    else
      var (action, s2) := LoopStep(s, inputs[0]);
      match action
      case Exit => s2
      case Skip => ChatLoop(s2, inputs[1..], responses, decode)
      case Send =>
        if |responses| == 0 then s2
        else ChatLoop(Respond(s2, responses[0], decode), inputs[1..], responses[1..], decode)
  }

  /** `/quit` ends the loop: the session is left as it was and no later
      input is read. */
  lemma QuitCommandEndsLoop(s: ChatSession, rest: seq<Input>, responses: seq<Response>,
                            decode: string -> Chunk)
    ensures ChatLoop(s, [Line("/quit")] + rest, responses, decode) == s
  {
    QuitStep(s);
    assert ([Line("/quit")] + rest)[0] == Line("/quit");
  }

  lemma QuitStep(s: ChatSession)
    ensures LoopStep(s, Line("/quit")) == (Exit, s)
  {
    var q := "/quit";
    assert Lower(q) == q;
    assert q + "" == q;
    StripPadded(q, "");
    assert Strip(q) == q;
    assert Normalize(q) == q;
    assert HandleCommand(s, q) == (false, s);
  }

  /** The running token total always equals the tokens the session's
      messages carry, whatever is typed and whatever the server sends. */
  lemma {:induction false} ChatLoopConsistent(s: ChatSession, inputs: seq<Input>, responses: seq<Response>,
                                              decode: string -> Chunk)
    requires Consistent(s)
    ensures Consistent(ChatLoop(s, inputs, responses, decode))
    decreases |inputs|
  {
    if |inputs| > 0 {
      var (action, s2) := LoopStep(s, inputs[0]);
      assert Consistent(s2) by {
        var t := InputText(inputs[0]);
        if t != "" && t[0] == '/' && Normalize(t) == "/clear" {
          assert s2 == ClearHistory(s);
        }
      }
      match action
      case Exit =>
      case Skip => ChatLoopConsistent(s2, inputs[1..], responses, decode);
      case Send =>
        if |responses| > 0 {
          ChatLoopConsistent(Respond(s2, responses[0], decode), inputs[1..], responses[1..], decode);
        }
    }
  }
}

=== FILE: core.dfy ===
/** The result handling of `LCPCore` in lcp/core.py: merging the searches of
    all configured backends, and asking them in turn for one model. The
    backends' answers are inputs; `None` in a search result stands for a
    backend whose search raised. */
module Core {
  import opened Strings
  import opened Models
  import Backends

  /** `LCPCore.search_models` after the concurrent calls: the list results
      in backend order, first occurrence of each `(repo_id, filename)`, cut
      to `limit` with Python slicing. */
  function SearchModels(results: seq<Option<seq<ModelInfo>>>, limit: int): (r: seq<ModelInfo>)
    ensures DistinctKeys(r)
    ensures forall m :: m in r ==> exists i :: 0 <= i < |results| && results[i].Some? && m in results[i].value
    ensures 0 <= limit ==> |r| == if limit < |Keys(Backends.Flatten(results))| then limit
                                  else |Keys(Backends.Flatten(results))|
    ensures |r| <= |FirstOccurrences(Backends.Flatten(results))|
    ensures r == FirstOccurrences(Backends.Flatten(results))[..|r|]
  {
    var all := Backends.Flatten(results);
    var unique := FirstOccurrences(all);
    DistinctKeysCount(unique);
    UniquePrefix(all, limit);
    PyPrefix(unique, limit)
  }

  /** A prefix of the first occurrences keeps distinct keys and only
      elements of the input. */
  lemma UniquePrefix(all: seq<ModelInfo>, limit: int)
    ensures var r := PyPrefix(FirstOccurrences(all), limit);
      DistinctKeys(r) && forall m :: m in r ==> m in all
  {
    var unique := FirstOccurrences(all);
    var r := PyPrefix(unique, limit);
    forall i, j | 0 <= i < j < |r| ensures Key(r[i]) != Key(r[j]) {
      assert r[i] == unique[i] && r[j] == unique[j];
    }
    forall m | m in r ensures m in all {
      assert m in unique;
      assert FirstOfKey(m, all);
    }
  }

  /** A list with distinct keys has as many keys as elements. */
  lemma {:induction false} DistinctKeysCount(ms: seq<ModelInfo>)
    requires DistinctKeys(ms)
    ensures |Keys(ms)| == |ms|
    decreases |ms|
  {
    if |ms| > 0 {
      var init, last := ms[..|ms| - 1], ms[|ms| - 1];
      assert ms == init + [last];
      DistinctKeysCount(init);
      KeysAppend(init, last);
      assert Key(last) !in Keys(init) by {
        forall j | 0 <= j < |init| ensures Key(init[j]) != Key(last) {
          assert init[j] == ms[j];
        }
      }
    }
  }

  /** With a limit at least the number of distinct results, every result is
      represented exactly once. */
  lemma SearchCoversAll(results: seq<Option<seq<ModelInfo>>>, limit: int)
    requires limit >= |Keys(Backends.Flatten(results))|
    ensures Keys(SearchModels(results, limit)) == Keys(Backends.Flatten(results))
  {
    var unique := FirstOccurrences(Backends.Flatten(results));
    DistinctKeysCount(unique);
    assert SearchModels(results, limit) == unique;
  }

  /** A backend that raised contributes nothing. */
  lemma FailedBackendIgnored(before: seq<Option<seq<ModelInfo>>>, after: seq<Option<seq<ModelInfo>>>,
                             limit: int)
    ensures SearchModels(before + [None] + after, limit) == SearchModels(before + after, limit)
  {
    FlattenSkipsNone(before, after);
  }

  lemma {:induction false} FlattenSkipsNone(before: seq<Option<seq<ModelInfo>>>, after: seq<Option<seq<ModelInfo>>>)
    ensures Backends.Flatten(before + [None] + after) == Backends.Flatten(before + after)
    decreases |before|
  {
    if |before| == 0 {
      assert before + [None] + after == [None] + after;
      assert ([None] + after)[1..] == after;
      assert before + after == after;
    } else {
      assert (before + [None] + after)[1..] == before[1..] + [None] + after;
      assert (before + after)[1..] == before[1..] + after;
      FlattenSkipsNone(before[1..], after);
    }
  }

  /** One configured backend as `get_model` sees it: whether it supports the
      identifier, and what its `get_model_info` would return. */
  datatype BackendAnswer = BackendAnswer(supports: bool, info: Option<ModelInfo>)

  predicate Hit(a: BackendAnswer) {
    a.supports && a.info.Some?
  }

  /** `LCPCore.get_model`: the first backend, in configuration order, that
      supports the identifier and finds the model. */
  function GetModel(answers: seq<BackendAnswer>): (r: Option<ModelInfo>)
    ensures r.None? <==> forall i :: 0 <= i < |answers| ==> !Hit(answers[i])
    ensures r.Some? ==> exists i :: (0 <= i < |answers| && Hit(answers[i]) && answers[i].info == r
                                     && forall j :: 0 <= j < i ==> !Hit(answers[j]))
  {
    if |answers| == 0 then None
    else if Hit(answers[0]) then answers[0].info
    else
      var rest := GetModel(answers[1..]);
      assert forall i :: 1 <= i < |answers| ==> answers[i] == answers[1..][i - 1];
      rest
  }
}

=== FILE: hardware.dfy ===
/** Hardware recommendations, the VRAM → RAM → storage memory breakdown and
    the proportional usage bar (lcp/hardware.py). Host probing is not part of
    the model: a `HardwareProfile` is an input. All quantities are GB. */
module Hardware {
  import opened Strings
  import Models

  /** GPU offloading needs at least this much total VRAM. */
  const MinOffloadVramGb: real := 8.0
  /** Fraction of available VRAM a model may use (safety margin). */
  const VramMargin: real := 0.8
  /** Fraction of available RAM a model may use (safety margin). */
  const RamMargin: real := 0.6
  /** Fraction of available RAM recommended for CPU-only models. */
  const CpuOnlyRamFraction: real := 0.5
  /** Storage shown in the bar when storage offload is enabled. */
  const StorageAllowanceGb: real := 50.0
  /** Tier usage fractions up to which a tier is green, then yellow. */
  const GreenMaxFraction: real := 0.7
  const YellowMaxFraction: real := 0.9

  /** The host snapshot, with the fields the recommendation step fills in. */
  datatype HardwareProfile = HardwareProfile(
    cpuCores: int,
    cpuThreads: int,
    cpuModel: string,
    systemRamGb: real,
    availableRamGb: real,
    gpuCount: int,
    gpuModels: seq<string>,
    totalVramGb: real,
    availableVramGb: real,
    availableStorageGb: real,
    storageType: string,
    profileDate: string,
    platform: string,
    canOffloadToGpu: bool,
    recommendedMaxModelSizeGb: real,
    optimalQuantization: Option<Models.QuantizationType>)

  // ---------------------------------------------------------------------------
  // Recommendations
  // ---------------------------------------------------------------------------

  /** Rank of the four tiers the ladder can pick, lowest fidelity first. */
  function LadderRank(q: Models.QuantizationType): nat {
    match q
    case Q5_K_M => 3
    case Q4_K_M => 2
    case Q4_K_S => 1
    case _ => 0
  }

  /** The quantization ladder, highest threshold first, thresholds inclusive. */
  function QuantizationFor(maxSizeGb: real): (q: Models.QuantizationType)
    ensures q in {Models.Q5_K_M, Models.Q4_K_M, Models.Q4_K_S, Models.Q3_K_M}
    ensures LadderRank(q) == (if maxSizeGb >= 20.0 then 1 else 0)
      + (if maxSizeGb >= 15.0 then 1 else 0) + (if maxSizeGb >= 10.0 then 1 else 0)
  {
    if maxSizeGb >= 20.0 then Models.Q5_K_M
    else if maxSizeGb >= 15.0 then Models.Q4_K_M
    else if maxSizeGb >= 10.0 then Models.Q4_K_S
    else Models.Q3_K_M
  }

  /** A larger recommended size never yields a lower tier. */
  lemma QuantizationMonotone(a: real, b: real)
    requires a <= b
    ensures LadderRank(QuantizationFor(a)) <= LadderRank(QuantizationFor(b))
  {
  }

  /** `calculate_recommendations`: sets offload viability, the recommended
      maximum model size and the quantization tier; nothing else changes. */
  function CalculateRecommendations(p: HardwareProfile): (r: HardwareProfile)
    ensures r.canOffloadToGpu <==> p.totalVramGb >= MinOffloadVramGb
    ensures r.canOffloadToGpu ==> r.recommendedMaxModelSizeGb == VramMargin * p.availableVramGb
    ensures !r.canOffloadToGpu ==> r.recommendedMaxModelSizeGb == CpuOnlyRamFraction * p.availableRamGb
    ensures r.optimalQuantization == Some(QuantizationFor(r.recommendedMaxModelSizeGb))
    ensures r.(canOffloadToGpu := p.canOffloadToGpu,
               recommendedMaxModelSizeGb := p.recommendedMaxModelSizeGb,
               optimalQuantization := p.optimalQuantization) == p
  {
    var offload := p.totalVramGb >= MinOffloadVramGb;
    var maxSize := if offload then p.availableVramGb * VramMargin else p.availableRamGb * CpuOnlyRamFraction;
    p.(canOffloadToGpu := offload,
       recommendedMaxModelSizeGb := maxSize,
       optimalQuantization := Some(QuantizationFor(maxSize)))
  }

  /** With 25 GB of available VRAM on a 32 GB card, the recommended size is
      20 GB and the ladder picks its highest tier (20 is inclusive). */
  lemma RecommendationAtThreshold(p: HardwareProfile)
    requires p.totalVramGb == 32.0 && p.availableVramGb == 25.0
    ensures CalculateRecommendations(p).recommendedMaxModelSizeGb == 20.0
    ensures CalculateRecommendations(p).optimalQuantization == Some(Models.Q5_K_M)
  {
  }

  // ---------------------------------------------------------------------------
  // Memory breakdown
  // ---------------------------------------------------------------------------

  datatype Color = Green | Yellow | Red

  datatype MemoryBreakdown = MemoryBreakdown(
    vramGb: real,
    systemRamGb: real,
    storageGb: real,
    vramColor: Color,
    ramColor: Color,
    storageColor: Color,
    feasible: bool)

  function Min(a: real, b: real): real {
    if b < a then b else a
  }

  /** Traffic-light colour of a tier from the share of its capacity in use. */
  function UsageColor(usage: real, capacity: real): (c: Color)
    ensures capacity > 0.0 ==> (c == Green <==> usage <= GreenMaxFraction * capacity)
    ensures capacity > 0.0 ==> (c == Red <==> usage > YellowMaxFraction * capacity)
    ensures capacity <= 0.0 ==> c == Red
  {
    var fraction := if capacity > 0.0 then usage / capacity else 1.0;
    if capacity > 0.0 then
      FractionBound(usage, capacity, GreenMaxFraction);
      FractionBound(usage, capacity, YellowMaxFraction);
      if fraction <= GreenMaxFraction then Green
      else if fraction <= YellowMaxFraction then Yellow
      else Red
    else
      if fraction <= GreenMaxFraction then Green
      else if fraction <= YellowMaxFraction then Yellow
      else Red
  }

  lemma FractionBound(usage: real, capacity: real, bound: real)
    requires capacity > 0.0
    ensures usage / capacity <= bound <==> usage <= bound * capacity
  {
    assert usage == (usage / capacity) * capacity;
  }

  /** Whether the VRAM tier takes part: offloading is viable and some VRAM is
      available. */
  predicate VramTierUsed(hw: HardwareProfile) {
    hw.canOffloadToGpu && hw.availableVramGb > 0.0
  }

  /** `get_model_memory_breakdown`: VRAM first (up to 80% of it), then RAM
      (up to 60% of it), then whatever is left goes to storage. */
  function MemoryBreakdownOf(modelSizeGb: real, hw: HardwareProfile): (b: MemoryBreakdown)
    ensures modelSizeGb >= 0.0 ==> b.vramGb + b.systemRamGb + b.storageGb == modelSizeGb
    ensures modelSizeGb >= 0.0 ==> b.vramGb >= 0.0 && b.systemRamGb >= 0.0 && b.storageGb >= 0.0
    ensures !VramTierUsed(hw) ==> b.vramGb == 0.0 && b.vramColor == Red
    ensures VramTierUsed(hw) ==>
      (b.vramGb <= VramMargin * hw.availableVramGb
       && b.vramColor == UsageColor(b.vramGb, hw.availableVramGb * VramMargin))
    ensures b.systemRamGb > 0.0 ==>
      (hw.availableRamGb > 0.0 && b.systemRamGb <= RamMargin * hw.availableRamGb
       && modelSizeGb - b.vramGb > 0.0)
    ensures !(modelSizeGb - b.vramGb > 0.0 && hw.availableRamGb > 0.0) ==> b.systemRamGb == 0.0 && b.ramColor == Red
    ensures modelSizeGb - b.vramGb > 0.0 && hw.availableRamGb > 0.0 ==>
      b.ramColor == UsageColor(b.systemRamGb, hw.availableRamGb * RamMargin)
    ensures b.storageGb > 0.0 ==>
      (!VramTierUsed(hw) || b.vramGb == VramMargin * hw.availableVramGb)
      && (hw.availableRamGb <= 0.0 || b.systemRamGb == RamMargin * hw.availableRamGb)
    ensures b.feasible <==> b.storageGb == 0.0
    ensures b.storageColor == (if b.storageGb > 0.0 then Red else Green)
  {
    var vramUsed := VramTierUsed(hw);
    var vram := if vramUsed then Min(modelSizeGb, hw.availableVramGb * VramMargin) else 0.0;
    var afterVram := modelSizeGb - vram;
    var ramUsed := afterVram > 0.0 && hw.availableRamGb > 0.0;
    var ram := if ramUsed then Min(afterVram, hw.availableRamGb * RamMargin) else 0.0;
    var afterRam := afterVram - ram;
    var storage := if afterRam > 0.0 then afterRam else 0.0;
    MemoryBreakdown(
      vram, ram, storage,
      if vramUsed then UsageColor(vram, hw.availableVramGb * VramMargin) else Red,
      if ramUsed then UsageColor(ram, hw.availableRamGb * RamMargin) else Red,
      if afterRam > 0.0 then Red else Green,
      storage == 0.0)
  }

  /** Usable VRAM and RAM as the breakdown sees them. */
  function VramCapacity(hw: HardwareProfile): real {
    if VramTierUsed(hw) then VramMargin * hw.availableVramGb else 0.0
  }

  function RamCapacity(hw: HardwareProfile): real {
    if hw.availableRamGb > 0.0 then RamMargin * hw.availableRamGb else 0.0
  }

  /** Closed form of the breakdown: each tier takes as much as it can in
      priority order, and storage holds exactly the demand the two memory
      tiers together cannot. */
  lemma BreakdownClosedForm(modelSizeGb: real, hw: HardwareProfile)
    requires modelSizeGb >= 0.0
    ensures var b := MemoryBreakdownOf(modelSizeGb, hw);
      && b.vramGb == Min(modelSizeGb, VramCapacity(hw))
      && b.systemRamGb == Min(modelSizeGb - b.vramGb, RamCapacity(hw))
      && b.storageGb == (if modelSizeGb > VramCapacity(hw) + RamCapacity(hw)
                         then modelSizeGb - VramCapacity(hw) - RamCapacity(hw) else 0.0)
  {
  }

  /** A larger model never needs less storage. */
  lemma StorageMonotone(a: real, b: real, hw: HardwareProfile)
    requires 0.0 <= a <= b
    ensures MemoryBreakdownOf(a, hw).storageGb <= MemoryBreakdownOf(b, hw).storageGb
  {
    BreakdownClosedForm(a, hw);
    BreakdownClosedForm(b, hw);
  }

  /** Below the offload threshold, VRAM is never used: the demand goes to RAM
      up to 60% of it, and the rest to storage. */
  lemma NoOffloadRoutesToRam(modelSizeGb: real, hw: HardwareProfile)
    requires modelSizeGb >= 0.0 && hw.availableRamGb > 0.0
    requires hw == CalculateRecommendations(hw) && hw.totalVramGb < MinOffloadVramGb
    ensures var b := MemoryBreakdownOf(modelSizeGb, hw);
      && b.vramGb == 0.0
      && b.systemRamGb == Min(modelSizeGb, RamMargin * hw.availableRamGb)
      && b.storageGb == modelSizeGb - b.systemRamGb
  {
  }

  // ---------------------------------------------------------------------------
  // Usage bar
  // ---------------------------------------------------------------------------

  /** One character of the bar. */
  datatype Cell = VramUsed | VramFree | RamUsed | RamFree | StorageUsed | StorageFree | Filler

  /** The Rich markup each cell is printed as. */
  function CellMarkup(c: Cell): string {
    match c
    case VramUsed => "[on green] [/on green]"
    case VramFree => "[green]░[/green]"
    case RamUsed => "[on yellow] [/on yellow]"
    case RamFree => "[yellow]░[/yellow]"
    case StorageUsed => "[on red] [/on red]"
    case StorageFree => "[red]░[/red]"
    case Filler => "[dim]·[/dim]"
  }

  /** Result of `create_memory_usage_bar`: the two fixed messages, the cells,
      or the division by zero a zero width causes. */
  datatype UsageBar = NoMemory | Insufficient | ZeroWidth | Cells(cells: seq<Cell>)

  /** Total pool the bar represents: usable VRAM, usable RAM and, when
      enabled, the storage allowance. */
  function PoolGb(hw: HardwareProfile, enableStorage: bool): real {
    BarVram(hw) + hw.availableRamGb * RamMargin + (if enableStorage then StorageAllowanceGb else 0.0)
  }

  function BarVram(hw: HardwareProfile): real {
    if hw.canOffloadToGpu then hw.availableVramGb * VramMargin else 0.0
  }

  /** `range(total)` with the first `used` cells marked used. */
  function Section(total: int, used: int, usedCell: Cell, freeCell: Cell): (s: seq<Cell>)
    ensures |s| == if total > 0 then total else 0
    ensures forall i :: 0 <= i < |s| ==> s[i] == if i < used then usedCell else freeCell
  {
    seq(if total > 0 then total else 0, i => if i < used then usedCell else freeCell)
  }

  /** Character counts of the three sections. */
  datatype BarCounts = BarCounts(
    vramTotal: int, vramUsed: int,
    ramTotal: int, ramUsed: int,
    storageTotal: int, storageUsed: int)

  function IntMin(a: int, b: int): int {
    if b < a then b else a
  }

  /** Characters for `gb` at `perChar` GB each, as `int(gb / perChar)` when
      `gb > 0`, otherwise none. */
  function Chars(gb: real, perChar: real): int
    requires perChar != 0.0
  {
    if gb > 0.0 then PyInt(gb / perChar) else 0
  }

  function CountsFor(b: MemoryBreakdown, hw: HardwareProfile, width: int, enableStorage: bool): BarCounts
    requires PoolGb(hw, enableStorage) > 0.0 && width != 0
  {
    var perChar := PoolGb(hw, enableStorage) / width as real;
    var vramTotal := Chars(BarVram(hw), perChar);
    var ramTotal := Chars(hw.availableRamGb * RamMargin, perChar);
    var storageTotal := if enableStorage then Chars(StorageAllowanceGb, perChar) else 0;
    BarCounts(
      vramTotal, IntMin(Chars(b.vramGb, perChar), vramTotal),
      ramTotal, IntMin(Chars(b.systemRamGb, perChar), ramTotal),
      storageTotal, IntMin(Chars(b.storageGb, perChar), storageTotal))
  }

  /** The sections laid out in order: VRAM, RAM, then storage when enabled. */
  function Sections(c: BarCounts, enableStorage: bool): seq<Cell> {
    Section(c.vramTotal, c.vramUsed, VramUsed, VramFree)
      + Section(c.ramTotal, c.ramUsed, RamUsed, RamFree)
      + (if enableStorage then Section(c.storageTotal, c.storageUsed, StorageUsed, StorageFree) else [])
  }

  /** Pads with filler up to `width`, or cuts to `bar[:width]`. */
  function FitToWidth(bar: seq<Cell>, width: int): (r: seq<Cell>)
    ensures width >= 0 ==> |r| == width
    ensures width >= 0 && |bar| <= width ==>
      (r[..|bar|] == bar && forall i :: |bar| <= i < width ==> r[i] == Filler)
    ensures 0 <= width < |bar| ==> r == bar[..width]
  {
    if |bar| < width then bar + seq(width - |bar|, _ => Filler)
    else if |bar| > width then PyPrefix(bar, width)
    else bar
  }

  /** `create_memory_usage_bar`. */
  function MemoryUsageBar(modelSizeGb: real, hw: HardwareProfile, width: int, enableStorage: bool): (r: UsageBar)
    ensures r == NoMemory <==> PoolGb(hw, enableStorage) <= 0.0
    ensures r == Insufficient <==> PoolGb(hw, enableStorage) > 0.0 && modelSizeGb > PoolGb(hw, enableStorage)
    ensures r == ZeroWidth <==> 0.0 < PoolGb(hw, enableStorage) && modelSizeGb <= PoolGb(hw, enableStorage) && width == 0
    ensures r.Cells? && width > 0 ==> |r.cells| == width
  {
    var pool := PoolGb(hw, enableStorage);
    if pool <= 0.0 then NoMemory
    else
      var b := MemoryBreakdownOf(modelSizeGb, hw);
      var needed := b.vramGb + b.systemRamGb + b.storageGb;
      NeededIsDemand(modelSizeGb, hw, pool);
      if needed > pool then Insufficient
      else if width == 0 then ZeroWidth
      else Cells(FitToWidth(Sections(CountsFor(b, hw, width, enableStorage), enableStorage), width))
  }

  /** What the bar compares with the pool is the model size itself, except that
      a negative size never counts as too large. */
  lemma NeededIsDemand(modelSizeGb: real, hw: HardwareProfile, pool: real)
    requires pool > 0.0
    ensures var b := MemoryBreakdownOf(modelSizeGb, hw);
      (b.vramGb + b.systemRamGb + b.storageGb > pool) <==> modelSizeGb > pool
  {
    var b := MemoryBreakdownOf(modelSizeGb, hw);
    if modelSizeGb < 0.0 {
      assert b.systemRamGb == 0.0 && b.storageGb == 0.0;
      assert b.vramGb <= 0.0;
    }
  }

  /** `x.Floor + y.Floor <= (x + y).Floor`. */
  lemma FloorAdd(x: real, y: real)
    ensures x.Floor + y.Floor <= (x + y).Floor
  {
    assert (x.Floor + y.Floor) as real <= x + y;
  }

  /** With non-negative availabilities the three sections never exceed the
      width, so the cut never fires, and within each section the used cells
      come first and number at most the section's size. */
  lemma BarLayout(modelSizeGb: real, hw: HardwareProfile, width: int, enableStorage: bool)
    requires hw.availableVramGb >= 0.0 && hw.availableRamGb >= 0.0
    requires width > 0 && MemoryUsageBar(modelSizeGb, hw, width, enableStorage).Cells?
    ensures var c := CountsFor(MemoryBreakdownOf(modelSizeGb, hw), hw, width, enableStorage);
      && 0 <= c.vramUsed <= c.vramTotal && 0 <= c.ramUsed <= c.ramTotal
      && 0 <= c.storageUsed <= c.storageTotal
      && |Sections(c, enableStorage)| <= width
      && MemoryUsageBar(modelSizeGb, hw, width, enableStorage).cells
         == Sections(c, enableStorage) + seq(width - |Sections(c, enableStorage)|, _ => Filler)
  {
    var b := MemoryBreakdownOf(modelSizeGb, hw);
    var c := CountsFor(b, hw, width, enableStorage);
    CountsFit(b, hw, width, enableStorage);
    var bar := Sections(c, enableStorage);
    assert MemoryUsageBar(modelSizeGb, hw, width, enableStorage).cells == FitToWidth(bar, width);
    if |bar| == width {
      assert bar + seq(width - |bar|, _ => Filler) == bar;
    }
  }

  /** The section sizes fit in the width and the used counts fit their
      sections, whatever the breakdown. */
  lemma CountsFit(b: MemoryBreakdown, hw: HardwareProfile, width: int, enableStorage: bool)
    requires hw.availableVramGb >= 0.0 && hw.availableRamGb >= 0.0
    requires width > 0 && PoolGb(hw, enableStorage) > 0.0
    ensures var c := CountsFor(b, hw, width, enableStorage);
      && 0 <= c.vramUsed <= c.vramTotal && 0 <= c.ramUsed <= c.ramTotal
      && 0 <= c.storageUsed <= c.storageTotal
      && |Sections(c, enableStorage)| <= width
  {
    var pool := PoolGb(hw, enableStorage);
    var c := CountsFor(b, hw, width, enableStorage);
    var perChar := pool / width as real;
    var v := BarVram(hw);
    var m := hw.availableRamGb * RamMargin;
    var s := if enableStorage then StorageAllowanceGb else 0.0;
    PerCharPositive(pool, width);
    ShareOfWidth(v, m, s, pool, width as real);
    CharsFloor(v, perChar);
    CharsFloor(m, perChar);
    CharsFloor(s, perChar);
    FloorAdd(v / perChar, m / perChar);
    FloorAdd(v / perChar + m / perChar, s / perChar);
    assert (width as real).Floor == width;
    SectionsLength(c, enableStorage);
  }

  lemma PerCharPositive(pool: real, width: int)
    requires pool > 0.0 && width > 0
    ensures pool / width as real > 0.0
  {
  }

  /** For a non-negative amount, the character count is the floor. */
  lemma CharsFloor(gb: real, perChar: real)
    requires gb >= 0.0 && perChar > 0.0
    ensures Chars(gb, perChar) == (gb / perChar).Floor >= 0
  {
    assert gb / perChar >= 0.0;
  }

  lemma SectionsLength(c: BarCounts, enableStorage: bool)
    ensures |Sections(c, enableStorage)| ==
      (if c.vramTotal > 0 then c.vramTotal else 0) + (if c.ramTotal > 0 then c.ramTotal else 0)
      + (if enableStorage && c.storageTotal > 0 then c.storageTotal else 0)
  {
  }

  /** The three pool parts, in characters, add up to the width. */
  lemma ShareOfWidth(v: real, m: real, s: real, pool: real, w: real)
    requires pool == v + m + s && pool > 0.0 && w > 0.0
    ensures v / (pool / w) + m / (pool / w) + s / (pool / w) == w
  {
    var g := pool / w;
    assert g > 0.0;
    assert v / g + m / g + s / g == (v + m + s) / g;
    assert pool / g == w;
  }

  /** `rjust`'s sibling `ljust`: pads with spaces on the right up to `width`. */
  function LeftJustify(s: string, width: int): (r: string)
    ensures |r| == if |s| < width then width else |s|
    ensures r[..|s|] == s
    ensures forall i :: |s| <= i < |r| ==> r[i] == ' '
  {
    if |s| < width then s + seq(width - |s|, _ => ' ') else s
  }

  function ConcatMarkup(cells: seq<Cell>): string {
    if |cells| == 0 then "" else CellMarkup(cells[0]) + ConcatMarkup(cells[1..])
  }

  /** The string the source returns, or None where it raises. */
  function BarMarkup(bar: UsageBar, width: int): (r: Option<string>)
    ensures r.None? <==> bar == ZeroWidth
  {
    match bar
    case NoMemory => Some(LeftJustify("[red]No memory available[/red]", width))
    case Insufficient => Some(LeftJustify("[red]Insufficient RAM[/red]", width))
    case ZeroWidth => None
    case Cells(cells) => Some(ConcatMarkup(cells))
  }
}

=== FILE: model_analyzer.dfy ===
/** Size-based GGUF metadata estimation and the GPU layer planner
    (lcp/model_analyzer.py). The file system is an input: a `FileProbe`
    holds the file's size and, when the file could be opened, its first
    bytes. */
module ModelAnalyzer {
  import opened Strings

  newtype byte = b: int | 0 <= b < 256

  /** The GGUF magic, the bytes of "GGUF". */
  const GgufMagic: seq<byte> := [0x47, 0x47, 0x55, 0x46]

  /** Buffer reserved for activations and overhead, in MB. */
  const OverheadMb: int := 512
  /** Context length the context memory estimate assumes. */
  const ContextSize: int := 8192
  /** `1024 ** 2` and `1024 ** 3`. */
  const MiB: int := 1048576
  const GiB: int := 1073741824
  /** llama.cpp's "all layers" convention. */
  const AllLayers: int := 999

  /** What `stat` and `open` report for the model file. */
  datatype FileProbe = FileProbe(sizeBytes: nat, head: Option<seq<byte>>)

  datatype ModelMetadata = ModelMetadata(
    nLayers: int,
    nParams: int,
    nEmbd: int,
    fileSizeGb: real,
    contextMemMb: int,
    modelMemMb: int,
    overheadMemMb: int)

  /** `total_mem_mb`: weights, context and overhead together. */
  function TotalMemMb(m: ModelMetadata): (t: int)
    ensures t - m.overheadMemMb == m.modelMemMb + m.contextMemMb
  {
    m.modelMemMb + m.contextMemMb + m.overheadMemMb
  }

  /** `mem_per_layer_mb`: the weights shared evenly over the layers. */
  function MemPerLayerMb(m: ModelMetadata): (r: real)
    ensures m.nLayers > 0 ==> r * m.nLayers as real == m.modelMemMb as real
    ensures m.nLayers <= 0 ==> r == 0.0
  {
    if m.nLayers > 0 then m.modelMemMb as real / m.nLayers as real else 0.0
  }

  function FileSizeGb(sizeBytes: nat): real {
    sizeBytes as real / GiB as real
  }

  /** Layer count, parameter count and embedding width guessed from size. */
  datatype SizeBand = SizeBand(layers: int, params: int, embd: int)

  function BandFor(sizeGb: real): (b: SizeBand)
    ensures b.layers in {22, 32, 40, 60, 80}
    ensures sizeGb < 2.0 <==> b.layers == 22
    ensures sizeGb >= 25.0 <==> b.layers == 80
    ensures b.embd % 32 == 0 && b.embd > 0
  {
    if sizeGb < 2.0 then SizeBand(22, 1_300_000_000, 2048)
    else if sizeGb < 3.0 then SizeBand(32, 3_000_000_000, 3072)
    else if sizeGb < 5.0 then SizeBand(32, 7_000_000_000, 4096)
    else if sizeGb < 8.0 then SizeBand(40, 13_000_000_000, 5120)
    else if sizeGb < 15.0 then SizeBand(40, 14_000_000_000, 5120)
    else if sizeGb < 25.0 then SizeBand(60, 30_000_000_000, 6656)
    else SizeBand(80, 70_000_000_000, 8192)
  }

  /** A larger file is never guessed to have fewer layers, parameters or a
      narrower embedding. */
  lemma BandMonotone(a: real, b: real)
    requires a <= b
    ensures BandFor(a).layers <= BandFor(b).layers
    ensures BandFor(a).params <= BandFor(b).params
    ensures BandFor(a).embd <= BandFor(b).embd
  {
  }

  /** Whether the file opened and does not start with the GGUF magic; a short
      read compares unequal too. */
  predicate NotGguf(f: FileProbe) {
    f.head.Some? && PyPrefix(f.head.value, 4) != GgufMagic
  }

  /** `read_gguf_header`: None when the file is not GGUF; otherwise the
      size-band estimate. A file that cannot be opened, or whose header ends
      early, still gets the estimate, because those errors are swallowed. */
  function ReadGgufHeader(f: FileProbe): (r: Option<ModelMetadata>)
    ensures r.None? <==> NotGguf(f)
    ensures r.Some? ==>
      var m := r.value;
      && m.fileSizeGb * GiB as real == f.sizeBytes as real
      && BandFor(m.fileSizeGb) == SizeBand(m.nLayers, m.nParams, m.nEmbd)
      && m.contextMemMb * 32 == m.nEmbd
      && m.overheadMemMb == OverheadMb
      && m.modelMemMb == (m.fileSizeGb * 1024.0 * 1.1).Floor
      && (m.fileSizeGb * 1024.0).Floor <= m.modelMemMb
  {
    if NotGguf(f) then None
    else
      var sizeGb := FileSizeGb(f.sizeBytes);
      var band := BandFor(sizeGb);
      var modelMem := PyInt(sizeGb * 1024.0 * 1.1);
      FloorMono(sizeGb * 1024.0, sizeGb * 1024.0 * 1.1);
      Some(ModelMetadata(
        band.layers, band.params, band.embd, sizeGb,
        PyInt((ContextSize * band.embd * 4) as real / (1024 * 1024) as real),
        modelMem, OverheadMb))
  }

  /** The total memory estimate of a GGUF file covers the whole file, in
      whole MiB, plus the context estimate and the 512 MB reserve. */
  lemma HeaderTotalMemCoversFile(f: FileProbe)
    requires !NotGguf(f)
    ensures var m := ReadGgufHeader(f).value;
      && m.contextMemMb > 0
      && TotalMemMb(m) >= f.sizeBytes / MiB + m.contextMemMb + OverheadMb
  {
    var m := ReadGgufHeader(f).value;
    var q, rem := f.sizeBytes / MiB, f.sizeBytes % MiB;
    assert f.sizeBytes as real == q as real * MiB as real + rem as real;
    assert m.fileSizeGb * 1024.0 == f.sizeBytes as real / MiB as real;
    assert f.sizeBytes as real / MiB as real == q as real + rem as real / MiB as real;
    assert 0.0 <= rem as real / MiB as real < 1.0;
    assert (m.fileSizeGb * 1024.0).Floor == q;
  }

  lemma FloorMono(x: real, y: real)
    requires x <= y
    ensures x.Floor <= y.Floor
  {
  }

  /** A file that starts with the magic is always recognised, whatever
      follows it. */
  lemma MagicRecognised(size: nat, rest: seq<byte>)
    ensures ReadGgufHeader(FileProbe(size, Some(GgufMagic + rest))).Some?
  {
    assert (GgufMagic + rest)[..4] == GgufMagic;
  }

  // ---------------------------------------------------------------------------
  // GPU layer planning
  // ---------------------------------------------------------------------------

  datatype Strategy = GpuOnly | CpuOnly | AutoPercentage | AutoMaximize

  /** Strategy names; anything unrecognised behaves as "auto-maximize". */
  function ParseStrategy(name: string): (s: Strategy)
    ensures s == GpuOnly <==> name == "gpu-only"
    ensures s == CpuOnly <==> name == "cpu-only"
    ensures s == AutoPercentage <==> name == "auto-percentage"
  {
    if name == "gpu-only" then GpuOnly
    else if name == "cpu-only" then CpuOnly
    else if name == "auto-percentage" then AutoPercentage
    else AutoMaximize
  }

  /** A layer count, or the division by zero the source raises. */
  datatype LayerPlan = Layers(count: int) | ZeroDivision

  /** Layer count when none is given: the header estimate, or a coarser
      size-based guess for files that are not GGUF. */
  function TotalLayers(f: FileProbe, layersOverride: Option<int>): (n: int)
    ensures layersOverride.Some? ==> n == layersOverride.value
    ensures layersOverride.None? ==> n in {22, 32, 40, 60, 80}
    ensures layersOverride.None? && !NotGguf(f) ==> n == BandFor(FileSizeGb(f.sizeBytes)).layers
    ensures layersOverride.None? && NotGguf(f) ==>
      && n in {32, 40, 80}
      && (n == 32 <==> f.sizeBytes < 3 * GiB)
      && (n == 80 <==> f.sizeBytes >= 8 * GiB)
  {
    if layersOverride.Some? then layersOverride.value
    else match ReadGgufHeader(f)
      case Some(m) => m.nLayers
      case None =>
        var sizeGb := FileSizeGb(f.sizeBytes);
        if sizeGb < 3.0 then 32 else if sizeGb < 8.0 then 40 else 80
  }

  function Clamp(pct: int): (p: int)
    ensures 0 <= p <= 100
    ensures 0 <= pct <= 100 ==> p == pct
  {
    if pct < 0 then 0 else if pct > 100 then 100 else pct
  }

  /** Usable VRAM for a percentage of the card, less the 512 MB reserve. */
  function UsableVramMb(pct: int, vramMb: real): real {
    vramMb * (Clamp(pct) as real / 100.0) - OverheadMb as real
  }

  /** Memory per layer when the file's bytes are spread evenly over `total`
      layers. */
  function LayerMb(sizeBytes: nat, total: int): real
    requires total != 0
  {
    (sizeBytes as real / MiB as real) / total as real
  }

  /** The "auto-percentage" computation. */
  function PercentageLayers(pct: int, vramMb: real, sizeBytes: nat, total: int): (r: LayerPlan)
    ensures r == ZeroDivision <==> total == 0 || sizeBytes == 0
    ensures r.Layers? ==>
      (0 <= r.count && (total <= 0 ==> r.count == 0) && (total > 0 ==> r.count <= total))
  {
    if total == 0 then ZeroDivision
    else
      var perLayer := LayerMb(sizeBytes, total);
      if perLayer == 0.0 then ZeroDivision
      else
        var n := PyInt(UsableVramMb(pct, vramMb) / perLayer);
        var capped := if n < total then n else total;
        Layers(if capped < 0 then 0 else capped)
  }

  /** `calculate_gpu_layers`. */
  function CalculateGpuLayers(f: FileProbe, strategy: string, pct: int, vramMb: real,
                              layersOverride: Option<int>): (r: LayerPlan)
    ensures strategy == "gpu-only" ==> r == Layers(AllLayers)
    ensures strategy == "cpu-only" ==> r == Layers(0)
    ensures r == ZeroDivision ==> f.sizeBytes == 0 || TotalLayers(f, layersOverride) == 0
    ensures r.Layers? && strategy != "gpu-only" ==>
      0 <= r.count && (TotalLayers(f, layersOverride) > 0 ==> r.count <= TotalLayers(f, layersOverride))
  {
    var total := TotalLayers(f, layersOverride);
    match ParseStrategy(strategy)
    case GpuOnly => Layers(AllLayers)
    case CpuOnly => Layers(0)
    case AutoPercentage => PercentageLayers(pct, vramMb, f.sizeBytes, total)
    case AutoMaximize => PercentageLayers(90, vramMb, f.sizeBytes, total)
  }

  /** The planner picks the greatest number of layers, up to the total, whose
      weights fit in the usable VRAM; zero when not even one fits. */
  lemma {:induction false} PlanIsGreatestFit(pct: int, vramMb: real, sizeBytes: nat, total: int)
    requires total > 0 && sizeBytes > 0
    ensures var r := PercentageLayers(pct, vramMb, sizeBytes, total);
      var usable := UsableVramMb(pct, vramMb);
      var per := LayerMb(sizeBytes, total);
      && r.Layers?
      && (r.count == 0 || r.count as real * per <= usable)
      && (r.count == total || (r.count + 1) as real * per > usable)
  {
    var per := LayerMb(sizeBytes, total);
    assert per > 0.0;
    FloorFit(UsableVramMb(pct, vramMb), per, total);
  }

  /** The layer count the planner derives from `usable / per`, capped to
      `[0, total]`, is the greatest that fits. */
  lemma FloorFit(usable: real, per: real, total: int)
    requires per > 0.0 && total > 0
    ensures var n := PyInt(usable / per);
      var capped := if n < total then n else total;
      var c := if capped < 0 then 0 else capped;
      && (c == 0 || c as real * per <= usable)
      && (c == total || (c + 1) as real * per > usable)
  {
    var q := usable / per;
    var n := PyInt(q);
    var capped := if n < total then n else total;
    assert q * per == usable;
    if q >= 0.0 {
      assert 0 <= capped && capped as real <= q < (n + 1) as real;
      MulLe(capped as real, q, per);
      if capped < total {
        assert capped == n;
        MulLt(q, (capped + 1) as real, per);
        assert (capped + 1) as real * per > usable;
      }
    } else {
      assert n <= 0;
      MulLt(q, 1.0, per);
    }
  }

  lemma MulLe(a: real, b: real, c: real)
    requires a <= b && c > 0.0
    ensures a * c <= b * c
  {
  }

  lemma MulLt(a: real, b: real, c: real)
    requires a < b && c > 0.0
    ensures a * c < b * c
  {
  }

  /** More VRAM never means fewer layers. */
  lemma {:induction false} PlanMonotoneInVram(pct: int, v1: real, v2: real, sizeBytes: nat, total: int)
    requires v1 <= v2 && total != 0 && sizeBytes > 0
    ensures PercentageLayers(pct, v1, sizeBytes, total).count <= PercentageLayers(pct, v2, sizeBytes, total).count
  {
    if total > 0 {
      var per := LayerMb(sizeBytes, total);
      var frac := Clamp(pct) as real / 100.0;
      assert v1 * frac <= v2 * frac by {
        if frac > 0.0 { MulLe(v1, v2, frac); }
      }
      DivMono(UsableVramMb(pct, v1), UsableVramMb(pct, v2), per);
      PyIntMono(UsableVramMb(pct, v1) / per, UsableVramMb(pct, v2) / per);
    }
  }

  /** A larger percentage never means fewer layers. */
  lemma {:induction false} PlanMonotoneInPercentage(p1: int, p2: int, vramMb: real, sizeBytes: nat, total: int)
    requires p1 <= p2 && vramMb >= 0.0 && total != 0 && sizeBytes > 0
    ensures PercentageLayers(p1, vramMb, sizeBytes, total).count <= PercentageLayers(p2, vramMb, sizeBytes, total).count
  {
    if total > 0 {
      var per := LayerMb(sizeBytes, total);
      var f1 := Clamp(p1) as real / 100.0;
      var f2 := Clamp(p2) as real / 100.0;
      assert f1 <= f2;
      assert vramMb * f1 <= vramMb * f2 by {
        if vramMb > 0.0 { MulLe(f1, f2, vramMb); }
      }
      DivMono(UsableVramMb(p1, vramMb), UsableVramMb(p2, vramMb), per);
      PyIntMono(UsableVramMb(p1, vramMb) / per, UsableVramMb(p2, vramMb) / per);
    }
  }

  lemma DivMono(a: real, b: real, c: real)
    requires a <= b && c > 0.0
    ensures a / c <= b / c
  {
    assert b / c - a / c == (b - a) / c;
  }

  /** Python's `int()` keeps the order of its arguments. */
  lemma PyIntMono(a: real, b: real)
    requires a <= b
    ensures PyInt(a) <= PyInt(b)
  {
    if a >= 0.0 { FloorMono(a, b); }
    else if b >= 0.0 { }
    else { FloorMono(-b, -a); }
  }

  /** No usable VRAM, as at a zero percentage, means no layers on the GPU. */
  lemma NoUsableVramNoLayers(pct: int, vramMb: real, sizeBytes: nat, total: int)
    requires total != 0 && sizeBytes > 0
    requires UsableVramMb(pct, vramMb) <= 0.0 || (pct <= 0 && vramMb >= 0.0)
    ensures PercentageLayers(pct, vramMb, sizeBytes, total) == Layers(0)
  {
    var usable := UsableVramMb(pct, vramMb);
    var per := LayerMb(sizeBytes, total);
    if pct <= 0 {
      assert Clamp(pct) == 0;
      assert usable == -512.0;
    }
    if total > 0 {
      assert per > 0.0;
      DivMono(usable, 0.0, per);
      PyIntMono(usable / per, 0.0);
    }
  }

  /** Percentages outside 0..100 are clamped, so they plan like the bound. */
  lemma PercentageClamped(pct: int, vramMb: real, sizeBytes: nat, total: int)
    requires pct > 100
    ensures PercentageLayers(pct, vramMb, sizeBytes, total) == PercentageLayers(100, vramMb, sizeBytes, total)
  {
  }

  /** An unrecognised strategy name plans exactly as "auto-maximize", which
      is "auto-percentage" at 90%, whatever percentage was passed. */
  lemma UnknownStrategyMaximizes(f: FileProbe, name: string, pct: int, pct2: int, vramMb: real,
                                 layersOverride: Option<int>)
    requires name !in {"gpu-only", "cpu-only", "auto-percentage"}
    ensures CalculateGpuLayers(f, name, pct, vramMb, layersOverride)
         == CalculateGpuLayers(f, "auto-maximize", pct2, vramMb, layersOverride)
         == CalculateGpuLayers(f, "auto-percentage", 90, vramMb, layersOverride)
  {
  }

  /** A 6 GiB GGUF file is estimated at 40 layers, 153.6 MB each; on a 4 GiB
      card "auto-maximize" keeps 3174.4 MB usable, which holds 20 of them. */
  lemma MaximizeOnSmallCard(rest: seq<byte>)
    ensures CalculateGpuLayers(FileProbe(6 * GiB, Some(GgufMagic + rest)), "auto-maximize", 80, 4096.0, None)
         == Layers(20)
  {
    var f := FileProbe(6 * GiB, Some(GgufMagic + rest));
    MagicRecognised(6 * GiB, rest);
    assert FileSizeGb(6 * GiB) == 6.0;
    assert TotalLayers(f, None) == 40;
    assert LayerMb(6 * GiB, 40) == 153.6;
    assert UsableVramMb(90, 4096.0) == 3174.4;
    assert (3174.4 / 153.6).Floor == 20;
  }
}

=== FILE: models.dfy ===
/** Model records and the chat session (lcp/models.py): what a model file's
    name says about it, how it is displayed and searched, and the message
    history of a chat with its running token total. */
module Models {
  import opened Strings

  /** `ModelType`, in declaration order. */
  datatype ModelType = Instruct | Chat | Code | Base | Function

  function ModelTypeValue(t: ModelType): string {
    match t
    case Instruct => "instruct"
    case Chat => "chat"
    case Code => "code"
    case Base => "base"
    case Function => "function"
  }

  /** `QuantizationType`, in declaration order. */
  datatype QuantizationType =
    | Q2_K | Q3_K_S | Q3_K_M | Q3_K_L | Q4_0 | Q4_1 | Q4_K_S | Q4_K_M
    | Q5_0 | Q5_1 | Q5_K_S | Q5_K_M | Q6_K | Q8_0 | F16 | F32

  function QuantValue(q: QuantizationType): string {
    match q
    case Q2_K => "Q2_K"
    case Q3_K_S => "Q3_K_S"
    case Q3_K_M => "Q3_K_M"
    case Q3_K_L => "Q3_K_L"
    case Q4_0 => "Q4_0"
    case Q4_1 => "Q4_1"
    case Q4_K_S => "Q4_K_S"
    case Q4_K_M => "Q4_K_M"
    case Q5_0 => "Q5_0"
    case Q5_1 => "Q5_1"
    case Q5_K_S => "Q5_K_S"
    case Q5_K_M => "Q5_K_M"
    case Q6_K => "Q6_K"
    case Q8_0 => "Q8_0"
    case F16 => "F16"
    case F32 => "F32"
  }

  /** Iteration order of `for quant in QuantizationType`. */
  const AllQuantizations: seq<QuantizationType> :=
    [Q2_K, Q3_K_S, Q3_K_M, Q3_K_L, Q4_0, Q4_1, Q4_K_S, Q4_K_M,
     Q5_0, Q5_1, Q5_K_S, Q5_K_M, Q6_K, Q8_0, F16, F32]

  lemma AllQuantizationsComplete(q: QuantizationType)
    ensures q in AllQuantizations
  {
  }

  /** `ModelInfo` without the dictionary, path and timestamp fields. */
  datatype ModelInfo = ModelInfo(
    name: string,
    repoId: string,
    filename: string,
    backend: string,
    sizeBytes: Option<int>,
    quantization: Option<QuantizationType>,
    modelType: Option<ModelType>,
    parameterCount: Option<string>,
    architecture: Option<string>,
    downloadUrl: Option<string>)

  // ---------------------------------------------------------------------------
  // Quantization from the file name
  // ---------------------------------------------------------------------------

  /** First member of `qs` whose value occurs in `text`. */
  function FirstQuantIn(text: string, qs: seq<QuantizationType>): (r: Option<QuantizationType>)
    ensures r.Some? ==> r.value in qs && Contains(text, QuantValue(r.value))
    ensures r.Some? ==> exists k :: (0 <= k < |qs| && qs[k] == r.value
      && forall j :: 0 <= j < k ==> !Contains(text, QuantValue(qs[j])))
    ensures r.None? <==> forall j :: 0 <= j < |qs| ==> !Contains(text, QuantValue(qs[j]))
  {
    if |qs| == 0 then None
    else if Contains(text, QuantValue(qs[0])) then Some(qs[0])
    else
      var r := FirstQuantIn(text, qs[1..]);
      if r.Some? then
        var k :| 0 <= k < |qs[1..]| && qs[1..][k] == r.value
          && forall j :: 0 <= j < k ==> !Contains(text, QuantValue(qs[1..][j]));
        assert qs[k + 1] == r.value;
        QuantAbsentShift(text, qs, k);
        r
      else
        QuantAbsentShift(text, qs, |qs| - 1);
        r
  }

  /** Absence from the first `k` members of the tail, and from the head,
      is absence from the first `k + 1` members. */
  lemma QuantAbsentShift(text: string, qs: seq<QuantizationType>, k: nat)
    requires 0 < |qs| && k < |qs| && !Contains(text, QuantValue(qs[0]))
    requires forall j :: 0 <= j < k ==> !Contains(text, QuantValue(qs[1..][j]))
    ensures forall j :: 0 <= j < k + 1 ==> !Contains(text, QuantValue(qs[j]))
  {
    forall j | 0 < j < k + 1 ensures !Contains(text, QuantValue(qs[j])) {
      assert qs[j] == qs[1..][j - 1];
    }
  }

  /** `ModelInfo._extract_quantization`: the first member, in declaration
      order, whose value occurs in the upper-cased file name. */
  function ExtractQuantization(filename: string): (r: Option<QuantizationType>)
    ensures r.Some? ==> Contains(Upper(filename), QuantValue(r.value))
    ensures r.Some? ==> exists k :: (0 <= k < |AllQuantizations| && AllQuantizations[k] == r.value
      && forall j :: 0 <= j < k ==> !Contains(Upper(filename), QuantValue(AllQuantizations[j])))
    ensures r.None? <==> forall q :: !Contains(Upper(filename), QuantValue(q))
  {
    var r := FirstQuantIn(Upper(filename), AllQuantizations);
    if r.None? then
      forall q ensures !Contains(Upper(filename), QuantValue(q)) {
        AllQuantizationsComplete(q);
        var j :| 0 <= j < |AllQuantizations| && AllQuantizations[j] == q;
      }
      r
    else r
  }

  // ---------------------------------------------------------------------------
  // Parameter count from the name
  // ---------------------------------------------------------------------------

  /** End of `\d+\.?\d*` at `i` (given a digit at `i`): the digits, and when
      a `.` follows them, the dot and the digits after it. */
  function NumberEnd(t: string, i: nat): (j: nat)
    requires i < |t| && IsDigit(t[i])
    ensures i < j <= |t|
  {
    var a := DigitRunEnd(t, i);
    if a < |t| && t[a] == '.' then DigitRunEnd(t, a + 1) else a
  }

  predicate IsMagnitude(c: char) {
    c == 'B' || c == 'M'
  }

  /** `(\d+\.?\d*[BM])` matched at `i`: the group, or None. */
  function ShortFormAt(t: string, i: nat): (r: Option<string>)
    requires i <= |t|
    ensures r.Some? ==> |r.value| > 1 && IsDigit(r.value[0]) && Contains(t, r.value)
  {
    if i < |t| && IsDigit(t[i]) then
      var e := NumberEnd(t, i);
      if e < |t| && IsMagnitude(t[e]) then
        ContainsAt(t, t[i..e + 1], i);
        Some(t[i..e + 1])
      else None
    else None
  }

  /** `(\d+\.?\d*)\s*[BM]ILLION` matched at `i`: the group, or None. */
  function LongFormAt(t: string, i: nat): (r: Option<string>)
    requires i <= |t|
    ensures r.Some? ==> |r.value| > 0 && IsDigit(r.value[0]) && Contains(t, r.value)
  {
    if i < |t| && IsDigit(t[i]) then
      var e := NumberEnd(t, i);
      var c := SpaceRunEnd(t, e);
      if c < |t| && IsMagnitude(t[c]) && StartsWith(t[c + 1..], "ILLION") then
        ContainsAt(t, t[i..e], i);
        Some(t[i..e])
      else None
    else None
  }

  /** `re.search` of the short form: the leftmost match at or after `i`. */
  function SearchShortForm(t: string, i: nat): (r: Option<string>)
    requires i <= |t|
    ensures r.Some? ==> |r.value| > 1 && IsDigit(r.value[0]) && Contains(t, r.value)
    ensures r.Some? ==> exists k :: (i <= k < |t| && ShortFormAt(t, k) == r
                                     && forall j :: i <= j < k ==> ShortFormAt(t, j).None?)
    ensures r.None? <==> forall k :: i <= k <= |t| ==> ShortFormAt(t, k).None?
    ensures (forall k :: i <= k < |t| ==> !IsDigit(t[k])) ==> r.None?
    decreases |t| - i
  {
    if i == |t| then None
    else
      var m := ShortFormAt(t, i);
      if m.Some? then m else SearchShortForm(t, i + 1)
  }

  /** `re.search` of the long form: the leftmost match at or after `i`. */
  function SearchLongForm(t: string, i: nat): (r: Option<string>)
    requires i <= |t|
    ensures r.Some? ==> |r.value| > 0 && IsDigit(r.value[0]) && Contains(t, r.value)
    ensures r.Some? ==> exists k :: (i <= k < |t| && LongFormAt(t, k) == r
                                     && forall j :: i <= j < k ==> LongFormAt(t, j).None?)
    ensures r.None? <==> forall k :: i <= k <= |t| ==> LongFormAt(t, k).None?
    ensures (forall k :: i <= k < |t| ==> !IsDigit(t[k])) ==> r.None?
    decreases |t| - i
  {
    if i == |t| then None
    else
      var m := LongFormAt(t, i);
      if m.Some? then m else SearchLongForm(t, i + 1)
  }

  function ParameterText(name: string, filename: string): string {
    Upper(name + " " + filename)
  }

  /** `ModelInfo._extract_parameter_count`: the short form (`7B`, `1.5B`) if
      it occurs anywhere, else the number of a long form (`7 billion`). */
  function ExtractParameterCount(name: string, filename: string): (r: Option<string>)
    ensures r.Some? ==> |r.value| > 0 && IsDigit(r.value[0]) && Contains(ParameterText(name, filename), r.value)
    ensures (forall k :: 0 <= k < |name + " " + filename| ==> !IsDigit((name + " " + filename)[k])) ==> r.None?
    ensures var t := ParameterText(name, filename);
      (exists k :: 0 <= k <= |t| && ShortFormAt(t, k).Some?) ==>
        exists k :: (0 <= k < |t| && r == ShortFormAt(t, k)
                     && forall j :: 0 <= j < k ==> ShortFormAt(t, j).None?)
    ensures var t := ParameterText(name, filename);
      (forall k :: 0 <= k <= |t| ==> ShortFormAt(t, k).None?) ==>
        && (r.None? <==> forall k :: 0 <= k <= |t| ==> LongFormAt(t, k).None?)
        && (r.Some? ==> exists k :: (0 <= k < |t| && r == LongFormAt(t, k)
                                     && forall j :: 0 <= j < k ==> LongFormAt(t, j).None?))
  {
    var t := ParameterText(name, filename);
    UpperNoDigits(name + " " + filename);
    var short := SearchShortForm(t, 0);
    if short.Some? then short else SearchLongForm(t, 0)
  }

  /** Upper-casing creates no digit. */
  lemma UpperNoDigits(s: string)
    ensures (forall k :: 0 <= k < |s| ==> !IsDigit(s[k])) ==>
      forall k :: 0 <= k < |Upper(s)| ==> !IsDigit(Upper(s)[k])
  {
  }

  /** A digit directly followed by `B` or `M` (either case) anywhere in the
      name or file name always yields a parameter count. */
  lemma {:induction false} ParameterCountFound(name: string, filename: string, k: nat)
    requires k + 1 < |name + " " + filename|
    requires IsDigit((name + " " + filename)[k])
    requires IsMagnitude(UpperChar((name + " " + filename)[k + 1]))
    ensures ExtractParameterCount(name, filename).Some?
  {
    var t := ParameterText(name, filename);
    assert IsDigit(t[k]) && IsMagnitude(t[k + 1]);
    ShortFormFoundBefore(t, 0, k);
  }

  lemma {:induction false} ShortFormFoundBefore(t: string, i: nat, k: nat)
    requires i <= k && k + 1 < |t| && IsDigit(t[k]) && IsMagnitude(t[k + 1])
    ensures SearchShortForm(t, i).Some?
    decreases k - i
  {
    if i == k {
      assert DigitRunEnd(t, k + 1) == k + 1;
    } else if ShortFormAt(t, i).None? {
      ShortFormFoundBefore(t, i + 1, k);
    }
  }

  // ---------------------------------------------------------------------------
  // Model type, display name, identifier, query matching
  // ---------------------------------------------------------------------------

  predicate ContainsAny(text: string, words: seq<string>) {
    exists k :: 0 <= k < |words| && Contains(text, words[k])
  }

  /** `ModelInfo._extract_model_type`: the first keyword group, in priority
      order, that the lower-cased name mentions. */
  function ExtractModelType(name: string): (r: ModelType)
    ensures r != Chat
    ensures r == Instruct <==> ContainsAny(Lower(name), ["instruct", "chat", "assistant"])
    ensures r == Code <==>
      !ContainsAny(Lower(name), ["instruct", "chat", "assistant"])
      && ContainsAny(Lower(name), ["code", "coder", "coding"])
    ensures r == Function <==>
      !ContainsAny(Lower(name), ["instruct", "chat", "assistant"])
      && !ContainsAny(Lower(name), ["code", "coder", "coding"])
      && ContainsAny(Lower(name), ["function", "tool", "agent"])
    ensures r == Base <==>
      !ContainsAny(Lower(name), ["instruct", "chat", "assistant"])
      && !ContainsAny(Lower(name), ["code", "coder", "coding"])
      && !ContainsAny(Lower(name), ["function", "tool", "agent"])
  {
    var lower := Lower(name);
    if ContainsAny(lower, ["instruct", "chat", "assistant"]) then Instruct
    else if ContainsAny(lower, ["code", "coder", "coding"]) then
      Code
    else if ContainsAny(lower, ["function", "tool", "agent"]) then Function
    else Base
  }

  /** The model type does not depend on the case of the name. */
  lemma ModelTypeIgnoresCase(name: string)
    ensures ExtractModelType(Upper(name)) == ExtractModelType(name)
  {
    assert Lower(Upper(name)) == Lower(name) by {
      forall i | 0 <= i < |name| ensures LowerChar(UpperChar(name[i])) == LowerChar(name[i]) { }
    }
  }

  /** A name mentioning both an instruct and a code keyword is Instruct: the
      instruct group is tested first. */
  lemma InstructOutranksCode()
    ensures ExtractModelType("CodeLlama-7B-Instruct") == Instruct
  {
    var lower := Lower("CodeLlama-7B-Instruct");
    assert lower[13..] == "instruct";
    ContainsAt(lower, "instruct", 13);
    assert ["instruct", "chat", "assistant"][0] == "instruct";
    assert ContainsAny(lower, ["instruct", "chat", "assistant"]);
  }

  /** `__post_init__`: fields left unset are filled from the name and file
      name; fields given by the caller are kept. */
  function PostInit(m: ModelInfo): (r: ModelInfo)
    ensures r.name == m.name && r.repoId == m.repoId && r.filename == m.filename
    ensures r.quantization.None? ==> forall q :: !Contains(Upper(m.filename), QuantValue(q))
    ensures m.quantization.Some? ==> r.quantization == m.quantization
    ensures m.parameterCount.Some? ==> r.parameterCount == m.parameterCount
    ensures r.modelType.Some?
    ensures m.modelType.Some? ==> r.modelType == m.modelType
    ensures m.quantization.None? ==> r.quantization == ExtractQuantization(m.filename)
    ensures m.parameterCount.None? ==> r.parameterCount == ExtractParameterCount(m.name, m.filename)
    ensures m.modelType.None? ==> r.modelType == Some(ExtractModelType(m.name))
    ensures r.(quantization := m.quantization, parameterCount := m.parameterCount,
               modelType := m.modelType) == m
  {
    m.(quantization := if m.quantization.None? then ExtractQuantization(m.filename) else m.quantization,
       parameterCount := if m.parameterCount.None? then ExtractParameterCount(m.name, m.filename) else m.parameterCount,
       modelType := if m.modelType.None? then Some(ExtractModelType(m.name)) else m.modelType)
  }

  /** The name with `-` and `_` turned into spaces. */
  function SpacedName(name: string): (r: string)
    ensures |r| == |name|
    ensures forall i :: 0 <= i < |name| ==>
      r[i] == (if name[i] == '-' || name[i] == '_' then ' ' else name[i])
  {
    var r := Replace(Replace(name, "-", " "), "_", " ");
    ReplaceCharPointwise(name, '-');
    ReplaceCharPointwise(Replace(name, "-", " "), '_');
    r
  }

  /** Replacing a one-character string by a space is a pointwise map. */
  lemma {:induction false} ReplaceCharPointwise(s: string, c: char)
    ensures |Replace(s, [c], " ")| == |s|
    ensures forall i :: 0 <= i < |s| ==> Replace(s, [c], " ")[i] == (if s[i] == c then ' ' else s[i])
    decreases |s|
  {
    if |s| > 0 {
      ReplaceCharPointwise(s[1..], c);
      var tail := Replace(s[1..], [c], " ");
      if s[0] == c {
        assert StartsWith(s, [c]);
        assert Replace(s, [c], " ") == " " + tail;
      } else {
        assert !StartsWith(s, [c]);
        assert Replace(s, [c], " ") == [s[0]] + tail;
      }
    }
  }

  /** Python truthiness of an optional string. */
  predicate Truthy(s: Option<string>) {
    s.Some? && |s.value| > 0
  }

  /** `ModelInfo.display_name`. */
  function DisplayName(m: ModelInfo): string {
    var parts := [SpacedName(m.name)]
      + (if Truthy(m.parameterCount) then ["(" + m.parameterCount.value + ")"] else [])
      + (if m.quantization.Some? then ["[" + QuantValue(m.quantization.value) + "]"] else []);
    Join(parts, " ")
  }

  /** The display name is the spaced name, then ` (count)` when a count is
      set, then ` [QUANT]` when a quantization is set. */
  lemma DisplayNameShape(m: ModelInfo)
    ensures DisplayName(m) == SpacedName(m.name)
      + (if Truthy(m.parameterCount) then " (" + m.parameterCount.value + ")" else "")
      + (if m.quantization.Some? then " [" + QuantValue(m.quantization.value) + "]" else "")
  {
    var hasP := Truthy(m.parameterCount);
    var hasQ := m.quantization.Some?;
    var p := "(" + (if hasP then m.parameterCount.value else "") + ")";
    var q := "[" + (if hasQ then QuantValue(m.quantization.value) else "") + "]";
    var n := SpacedName(m.name);
    assert DisplayName(m) == Join([n] + (if hasP then [p] else []) + (if hasQ then [q] else []), " ");
    OptionalJoin(n, hasP, p, hasQ, q);
    Bracketed(n, hasP, if hasP then m.parameterCount.value else "",
              hasQ, if hasQ then QuantValue(m.quantization.value) else "");
  }

  lemma Bracketed(n: string, hasP: bool, pv: string, hasQ: bool, qv: string)
    ensures n + (if hasP then " " + ("(" + pv + ")") else "") + (if hasQ then " " + ("[" + qv + "]") else "")
         == n + (if hasP then " (" + pv + ")" else "") + (if hasQ then " [" + qv + "]" else "")
  {
  }

  /** Joining a name with two optional parts by spaces. */
  lemma OptionalJoin(n: string, hasP: bool, p: string, hasQ: bool, q: string)
    ensures Join([n] + (if hasP then [p] else []) + (if hasQ then [q] else []), " ")
         == n + (if hasP then " " + p else "") + (if hasQ then " " + q else "")
  {
    JoinSmall(n, p, q, " ");
    if hasP && hasQ {
      assert [n] + [p] + [q] == [n, p, q];
    } else if hasP {
      assert [n] + [p] + [] == [n, p];
    } else if hasQ {
      assert [n] + [] + [q] == [n, q];
    } else {
      assert [n] + [] + [] == [n];
    }
  }

  /** `Join` on one, two and three parts. */
  lemma JoinSmall(a: string, b: string, c: string, sep: string)
    ensures Join([a], sep) == a
    ensures Join([a, b], sep) == a + sep + b
    ensures Join([a, c], sep) == a + sep + c
    ensures Join([a, b, c], sep) == a + sep + b + sep + c
  {
    assert [a, b][1..] == [b];
    assert [a, c][1..] == [c];
    assert [a, b, c][1..] == [b, c];
    assert [b, c][1..] == [c];
  }

  /** `ModelInfo.model_id`: the repository and file joined by `/`. */
  function ModelId(m: ModelInfo): (r: string)
    ensures |r| == |m.repoId| + 1 + |m.filename|
    ensures r[..|m.repoId|] == m.repoId && r[|m.repoId|] == '/' && r[|m.repoId| + 1..] == m.filename
  {
    m.repoId + "/" + m.filename
  }

  function SearchText(m: ModelInfo): string {
    Join([Lower(m.name), Lower(m.repoId), Lower(m.filename),
          if m.parameterCount.Some? then m.parameterCount.value else "",
          if m.architecture.Some? then m.architecture.value else "",
          if m.modelType.Some? then ModelTypeValue(m.modelType.value) else ""], " ")
  }

  /** `ModelInfo.matches_query`: the lower-cased query occurs in the
      space-joined lower-cased fields. */
  function MatchesQuery(m: ModelInfo, query: string): (r: bool)
    ensures Contains(Lower(m.name), Lower(query)) ==> r
    ensures Contains(Lower(m.repoId), Lower(query)) ==> r
    ensures Contains(Lower(m.filename), Lower(query)) ==> r
    ensures |query| == 0 ==> r
  {
    var t := SearchText(m);
    var q := Lower(query);
    var n, rp, f, tail := Lower(m.name), Lower(m.repoId), Lower(m.filename), SearchTail(m);
    SearchTextShape(m);
    assert t == "" + n + (" " + rp + " " + f + " " + tail);
    assert t == (n + " ") + rp + (" " + f + " " + tail);
    assert t == (n + " " + rp + " ") + f + (" " + tail);
    ContainsWithin(n, q, "", " " + rp + " " + f + " " + tail);
    ContainsWithin(rp, q, n + " ", " " + f + " " + tail);
    ContainsWithin(f, q, n + " " + rp + " ", " " + tail);
    ContainsEmpty(t);
    Contains(t, q)
  }

  function SearchTail(m: ModelInfo): string {
    Join([if m.parameterCount.Some? then m.parameterCount.value else "",
          if m.architecture.Some? then m.architecture.value else "",
          if m.modelType.Some? then ModelTypeValue(m.modelType.value) else ""], " ")
  }

  lemma SearchTextShape(m: ModelInfo)
    ensures SearchText(m) == Lower(m.name) + " " + Lower(m.repoId) + " " + Lower(m.filename) + " " + SearchTail(m)
  {
    var n, r, f := Lower(m.name), Lower(m.repoId), Lower(m.filename);
    var g := [if m.parameterCount.Some? then m.parameterCount.value else "",
              if m.architecture.Some? then m.architecture.value else "",
              if m.modelType.Some? then ModelTypeValue(m.modelType.value) else ""];
    var l := [n, r, f, g[0], g[1], g[2]];
    assert SearchText(m) == Join(l, " ");
    assert l[1..][1..][1..] == g;
    JoinStep(l[1..][1..]);
    JoinStep(l[1..]);
    JoinStep(l);
    assert SearchTail(m) == Join(g, " ");
    SpacedAssoc(n, r, f, Join(g, " "));
  }

  lemma SpacedAssoc(a: string, b: string, c: string, d: string)
    ensures a + " " + (b + " " + (c + " " + d)) == a + " " + b + " " + c + " " + d
  {
  }

  lemma JoinStep(l: seq<string>)
    requires |l| > 1
    ensures Join(l, " ") == l[0] + " " + Join(l[1..], " ")
  {
  }

  /** A string contained in a piece is contained in any text built around it. */
  lemma ContainsWithin(piece: string, p: string, before: string, after: string)
    ensures Contains(piece, p) ==> Contains(before + piece + after, p)
  {
    if !Contains(piece, p) { return; }
    var i :| 0 <= i <= |piece| && StartsWith(piece[i..], p);
    var t := before + piece + after;
    assert t[|before| + i..][..|p|] == piece[i..][..|p|];
    assert StartsWith(t[|before| + i..], p);
  }

  // ---------------------------------------------------------------------------
  // Chat session
  // ---------------------------------------------------------------------------

  datatype Role = User | Assistant | System

  function RoleName(r: Role): string {
    match r
    case User => "user"
    case Assistant => "assistant"
    case System => "system"
  }

  /** `ChatMessage` without its timestamp. */
  datatype ChatMessage = ChatMessage(role: Role, content: string, tokenCount: Option<int>)

  /** `ChatSession` without its start time. */
  datatype ChatSession = ChatSession(messages: seq<ChatMessage>, modelName: string, totalTokens: int)

  /** A message of the API request: role and content only. */
  datatype ApiMessage = ApiMessage(role: string, content: string)

  function UserMessage(content: string): ChatMessage {
    ChatMessage(User, content, None)
  }

  function AssistantMessage(content: string, tokenCount: Option<int>): ChatMessage {
    ChatMessage(Assistant, content, tokenCount)
  }

  function NewSession(modelName: string): (s: ChatSession)
    ensures Consistent(s) && |s.messages| == 0
  {
    ChatSession([], modelName, 0)
  }

  /** `token_count or 0`. */
  function TokensOf(m: ChatMessage): int {
    if m.tokenCount.Some? then m.tokenCount.value else 0
  }

  function TokenSum(ms: seq<ChatMessage>): int {
    if |ms| == 0 then 0 else TokensOf(ms[0]) + TokenSum(ms[1..])
  }

  lemma {:induction false} TokenSumAppend(ms: seq<ChatMessage>, m: ChatMessage)
    ensures TokenSum(ms + [m]) == TokenSum(ms) + TokensOf(m)
  {
    if |ms| > 0 {
      assert (ms + [m])[1..] == ms[1..] + [m];
      TokenSumAppend(ms[1..], m);
    } else {
      assert ms + [m] == [m];
    }
  }

  /** The session's running total equals the tokens its messages carry. */
  predicate Consistent(s: ChatSession) {
    s.totalTokens == TokenSum(s.messages)
  }

  /** `ChatSession.add_message`: appends, and adds the token count when it is
      set and non-zero. */
  function AddMessage(s: ChatSession, m: ChatMessage): (r: ChatSession)
    ensures r.messages == s.messages + [m] && r.modelName == s.modelName
    ensures r.totalTokens == s.totalTokens + TokensOf(m)
    ensures Consistent(s) ==> Consistent(r)
  {
    TokenSumAppend(s.messages, m);
    var truthy := m.tokenCount.Some? && m.tokenCount.value != 0;
    s.(messages := s.messages + [m],
       totalTokens := if truthy then s.totalTokens + m.tokenCount.value else s.totalTokens)
  }

  /** `ChatSession.clear_history`. */
  function ClearHistory(s: ChatSession): (r: ChatSession)
    ensures |r.messages| == 0 && r.totalTokens == 0 && r.modelName == s.modelName
    ensures Consistent(r)
  {
    s.(messages := [], totalTokens := 0)
  }

  function ToApi(m: ChatMessage): ApiMessage {
    ApiMessage(RoleName(m.role), m.content)
  }

  /** `ChatSession.get_context_messages`: the last `maxMessages` messages
      (all of them when `maxMessages <= 0`), oldest first. */
  function GetContextMessages(s: ChatSession, maxMessages: int): (r: seq<ApiMessage>)
    ensures |r| == if 0 < maxMessages < |s.messages| then maxMessages else |s.messages|
    ensures forall i :: 0 <= i < |r| ==> r[i] == ToApi(s.messages[|s.messages| - |r| + i])
  {
    var recent := if maxMessages > 0 && maxMessages < |s.messages|
      then s.messages[|s.messages| - maxMessages..] else s.messages;
    seq(|recent|, i requires 0 <= i < |recent| => ToApi(recent[i]))
  }

  /** Operations on a session from outside. */
  datatype SessionOp = Add(message: ChatMessage) | Clear

  function ApplyOps(s: ChatSession, ops: seq<SessionOp>): ChatSession
    decreases |ops|
  {
    if |ops| == 0 then s
    else
      var next := match ops[0]
        case Add(m) => AddMessage(s, m)
        case Clear => ClearHistory(s);
      ApplyOps(next, ops[1..])
  }

  /** Starting from a fresh session, any sequence of appends and clears keeps
      the total equal to the sum of the messages' token counts. */
  lemma {:induction false} ApplyOpsConsistent(s: ChatSession, ops: seq<SessionOp>)
    requires Consistent(s)
    ensures Consistent(ApplyOps(s, ops))
    decreases |ops|
  {
    if |ops| > 0 {
      match ops[0]
      case Add(m) => ApplyOpsConsistent(AddMessage(s, m), ops[1..]);
      case Clear => ApplyOpsConsistent(ClearHistory(s), ops[1..]);
    }
  }

  // ---------------------------------------------------------------------------
  // First-occurrence de-duplication of search results
  // ---------------------------------------------------------------------------

  /** The identity of a search result: `(repo_id, filename)`. */
  function Key(m: ModelInfo): (string, string) {
    (m.repoId, m.filename)
  }

  function Keys(ms: seq<ModelInfo>): set<(string, string)> {
    set m | m in ms :: Key(m)
  }

  predicate DistinctKeys(ms: seq<ModelInfo>) {
    forall i, j :: 0 <= i < j < |ms| ==> Key(ms[i]) != Key(ms[j])
  }

  /** `m` occurs in `xs` and no earlier element of `xs` has its key. */
  predicate FirstOfKey(m: ModelInfo, xs: seq<ModelInfo>) {
    exists i :: 0 <= i < |xs| && xs[i] == m && forall j :: 0 <= j < i ==> Key(xs[j]) != Key(m)
  }

  lemma KeysAppend(xs: seq<ModelInfo>, m: ModelInfo)
    ensures Keys(xs + [m]) == Keys(xs) + {Key(m)}
  {
    assert forall y :: y in xs + [m] <==> y in xs || y == m;
  }

  /** Reference definition of first-occurrence de-duplication: the elements
      of `xs`, in order, whose key no earlier element has. */
  function FirstOccurrences(xs: seq<ModelInfo>): (r: seq<ModelInfo>)
    ensures DistinctKeys(r)
    ensures Keys(r) == Keys(xs)
    ensures forall m :: m in r ==> FirstOfKey(m, xs)
    ensures Subsequence(r, xs)
    ensures |r| <= |xs|
  {
    if |xs| == 0 then
      SubsequenceEmpty(xs);
      []
    else
      var init := xs[..|xs| - 1];
      var last := xs[|xs| - 1];
      var prev := FirstOccurrences(init);
      assert xs == init + [last];
      DedupStep(init, last, prev);
      if Key(last) in Keys(init) then prev else prev + [last]
  }

  /** One step of the reference de-duplication keeps its properties. */
  lemma DedupStep(init: seq<ModelInfo>, last: ModelInfo, prev: seq<ModelInfo>)
    requires DistinctKeys(prev) && Keys(prev) == Keys(init)
    requires forall m :: m in prev ==> FirstOfKey(m, init)
    requires Subsequence(prev, init) && |prev| <= |init|
    ensures var xs := init + [last];
      var r := if Key(last) in Keys(init) then prev else prev + [last];
      && DistinctKeys(r) && Keys(r) == Keys(xs)
      && (forall m :: m in r ==> FirstOfKey(m, xs))
      && Subsequence(r, xs) && |r| <= |xs|
  {
    var xs := init + [last];
    KeysAppend(init, last);
    FirstOfKeyExtend(prev, init, last);
    SubsequenceSnoc(prev, init, last);
    if Key(last) !in Keys(init) {
      KeysAppend(prev, last);
      assert forall j :: 0 <= j < |prev| ==> Key(prev[j]) in Keys(prev);
      assert FirstOfKey(last, xs) by {
        assert xs[|xs| - 1] == last;
        forall j | 0 <= j < |xs| - 1 ensures Key(xs[j]) != Key(last) {
          assert xs[j] in init;
        }
      }
    }
  }

  lemma FirstOfKeyExtend(prev: seq<ModelInfo>, init: seq<ModelInfo>, last: ModelInfo)
    requires forall m :: m in prev ==> FirstOfKey(m, init)
    ensures forall m :: m in prev ==> FirstOfKey(m, init + [last])
  {
    forall m | m in prev ensures FirstOfKey(m, init + [last]) {
      var i :| 0 <= i < |init| && init[i] == m && forall j :: 0 <= j < i ==> Key(init[j]) != Key(m);
      assert (init + [last])[i] == m;
      forall j | 0 <= j < i ensures Key((init + [last])[j]) != Key(m) {
        assert (init + [last])[j] == init[j];
      }
    }
  }

  /** One more element is kept iff its key is new. */
  lemma FirstOccurrencesSnoc(xs: seq<ModelInfo>, m: ModelInfo)
    ensures FirstOccurrences(xs + [m])
         == if Key(m) in Keys(xs) then FirstOccurrences(xs) else FirstOccurrences(xs) + [m]
  {
    assert (xs + [m])[..|xs|] == xs;
  }

  /** The `seen`-set loop of the search functions: keeps each element whose
      `(repo_id, filename)` has not been seen before. */
  method DedupByKey(xs: seq<ModelInfo>) returns (unique: seq<ModelInfo>)
    ensures unique == FirstOccurrences(xs)
  {
    var seen: set<(string, string)> := {};
    unique := [];
    var i := 0;
    while i < |xs|
      invariant 0 <= i <= |xs|
      invariant seen == Keys(xs[..i])
      invariant unique == FirstOccurrences(xs[..i])
    {
      var m := xs[i];
      assert xs[..i + 1] == xs[..i] + [m];
      FirstOccurrencesSnoc(xs[..i], m);
      KeysAppend(xs[..i], m);
      if Key(m) !in seen {
        seen := seen + {Key(m)};
        unique := unique + [m];
      }
      i := i + 1;
    }
    assert xs[..i] == xs;
  }
}

=== FILE: regex.dfy ===
/** The fixed regular expressions the program substitutes with `re.sub`,
    each written as a matcher that returns the length of the match starting
    at the front of a string (0 when there is none), and `re.sub` itself as
    the left-to-right scan that replaces each non-overlapping match. */
module Regex {
  import opened Strings

  const Esc: char := '\U{1B}'
  const Bel: char := '\U{07}'

  datatype Pattern =
    | QuantSuffix  // -Q\d+_K_[MS], case-insensitive
    | FloatSuffix  // -F\d+, case-insensitive
    | NglFlag      // -ngl\s+\d+
    | Sgr          // \x1b\[[0-9;]*m
    | Sgr256       // \x1b\[38;5;\d+m
    | SgrRgb       // \x1b\[38;2;\d+;\d+;\d+m
    | Csi          // \x1b\[[0-9;]*[a-zA-Z]
    | Osc          // \x1b\].*?\x07
    | Dcs          // \x1b[PX^_].*?\x1b\\

  /** The character every match of `p` starts with. */
  function Lead(p: Pattern): char {
    match p
    case QuantSuffix => '-'
    case FloatSuffix => '-'
    case NglFlag => '-'
    case _ => Esc
  }

  predicate IsParamChar(c: char) {
    IsDigit(c) || c == ';'
  }

  predicate IsAsciiLetter(c: char) {
    'a' <= c <= 'z' || 'A' <= c <= 'Z'
  }

  /** End of the maximal run of `[0-9;]` starting at `i`. */
  function ParamRunEnd(t: string, i: nat): (j: nat)
    requires i <= |t|
    ensures i <= j <= |t|
    ensures forall k :: i <= k < j ==> IsParamChar(t[k])
    ensures j < |t| ==> !IsParamChar(t[j])
    decreases |t| - i
  {
    if i < |t| && IsParamChar(t[i]) then ParamRunEnd(t, i + 1) else i
  }

  /** `.*?\x07` from `i`: the index of the first BEL, provided no newline
      comes before it. */
  function FindBel(t: string, i: nat): (r: Option<nat>)
    requires i <= |t|
    ensures r.Some? ==>
      (i <= r.value < |t| && t[r.value] == Bel
       && forall k :: i <= k < r.value ==> t[k] != Bel && t[k] != '\n')
    decreases |t| - i
  {
    if i == |t| || t[i] == '\n' then None
    else if t[i] == Bel then Some(i)
    else FindBel(t, i + 1)
  }

  /** `.*?\x1b\\` from `i`: the index of the first ESC `\` pair, provided no
      newline comes before it. */
  function FindSt(t: string, i: nat): (r: Option<nat>)
    requires i <= |t|
    ensures r.Some? ==>
      (i <= r.value && r.value + 2 <= |t| && t[r.value] == Esc && t[r.value + 1] == '\\'
       && forall k :: i <= k < r.value ==> t[k] != '\n')
    decreases |t| - i
  {
    if i + 1 >= |t| || t[i] == '\n' then None
    else if t[i] == Esc && t[i + 1] == '\\' then Some(i)
    else FindSt(t, i + 1)
  }

  /** Length of the match of `p` at the front of `s`, 0 when there is none.
      Every pattern here matches only non-empty text, and where a greedy run
      is followed by a character outside its class the match is unique. */
  function MatchLen(p: Pattern, s: string): (n: nat)
    ensures n <= |s|
    ensures n > 0 ==> s[0] == Lead(p)
  {
    match p
    case QuantSuffix =>
      if |s| >= 2 && s[0] == '-' && LowerChar(s[1]) == 'q' then
        var d := DigitRunEnd(s, 2);
        if d > 2 && d + 4 <= |s| && s[d] == '_' && LowerChar(s[d + 1]) == 'k' && s[d + 2] == '_'
           && (LowerChar(s[d + 3]) == 'm' || LowerChar(s[d + 3]) == 's')
        then d + 4 else 0
      else 0
    case FloatSuffix =>
      if |s| >= 2 && s[0] == '-' && LowerChar(s[1]) == 'f' then
        var d := DigitRunEnd(s, 2);
        if d > 2 then d else 0
      else 0
    case NglFlag =>
      if StartsWith(s, "-ngl") then
        var w := SpaceRunEnd(s, 4);
        var d := DigitRunEnd(s, w);
        if w > 4 && d > w then d else 0
      else 0
    case Sgr =>
      if |s| >= 2 && s[0] == Esc && s[1] == '[' then
        var e := ParamRunEnd(s, 2);
        if e < |s| && s[e] == 'm' then e + 1 else 0
      else 0
    case Sgr256 =>
      if StartsWith(s, [Esc] + "[38;5;") then
        var d := DigitRunEnd(s, 7);
        if d > 7 && d < |s| && s[d] == 'm' then d + 1 else 0
      else 0
    case SgrRgb =>
      if StartsWith(s, [Esc] + "[38;2;") then
        var d1 := DigitRunEnd(s, 7);
        if d1 > 7 && d1 < |s| && s[d1] == ';' then
          var d2 := DigitRunEnd(s, d1 + 1);
          if d2 > d1 + 1 && d2 < |s| && s[d2] == ';' then
            var d3 := DigitRunEnd(s, d2 + 1);
            if d3 > d2 + 1 && d3 < |s| && s[d3] == 'm' then d3 + 1 else 0
          else 0
        else 0
      else 0
    case Csi =>
      if |s| >= 2 && s[0] == Esc && s[1] == '[' then
        var e := ParamRunEnd(s, 2);
        if e < |s| && IsAsciiLetter(s[e]) then e + 1 else 0
      else 0
    case Osc =>
      if |s| >= 2 && s[0] == Esc && s[1] == ']' then
        match FindBel(s, 2)
        case Some(j) => j + 1
        case None => 0
      else 0
    case Dcs =>
      if |s| >= 2 && s[0] == Esc && (s[1] == 'P' || s[1] == 'X' || s[1] == '^' || s[1] == '_') then
        match FindSt(s, 2)
        case Some(j) => j + 2
        case None => 0
      else 0
  }

  /** `re.sub(p, rep, s)`: scanning left to right, each match is replaced by
      `rep` and the scan resumes after it. */
  function Sub(p: Pattern, s: string, rep: string): (r: string)
    ensures !HasChar(s, Lead(p)) ==> r == s
    decreases |s|
  {
    if |s| == 0 then ""
    else
      var n := MatchLen(p, s);
      if n > 0 then rep + Sub(p, s[n..], rep)
      else
        assert !HasChar(s, Lead(p)) ==> !HasChar(s[1..], Lead(p)) by {
          forall k | 0 <= k < |s[1..]| ensures s[1..][k] == s[k + 1] { }
        }
        [s[0]] + Sub(p, s[1..], rep)
  }

  /** Text free of the lead character passes through unchanged, and the scan
      carries on after it. */
  lemma {:induction false} SubSkipsFree(p: Pattern, x: string, y: string, rep: string)
    requires !HasChar(x, Lead(p))
    ensures Sub(p, x + y, rep) == x + Sub(p, y, rep)
  {
    if |x| > 0 {
      var t := x[1..] + y;
      assert x + y == [x[0]] + t;
      assert ([x[0]] + t)[0] == x[0];
      assert MatchLen(p, [x[0]] + t) == 0;
      SubCons(p, x[0], t, rep);
      assert !HasChar(x[1..], Lead(p)) by {
        forall k | 0 <= k < |x[1..]| ensures x[1..][k] == x[k + 1] { }
      }
      SubSkipsFree(p, x[1..], y, rep);
      ConsAppend(x, Sub(p, y, rep));
    } else {
      assert x + y == y;
    }
  }

  /** A character at which no match starts is copied. */
  lemma SubCons(p: Pattern, c: char, t: string, rep: string)
    requires MatchLen(p, [c] + t) == 0
    ensures Sub(p, [c] + t, rep) == [c] + Sub(p, t, rep)
  {
    var s := [c] + t;
    assert s[0] == c && s[1..] == t;
  }

  /** A match at the front is replaced and the scan resumes after it. */
  lemma SubAtMatch(p: Pattern, m: string, y: string, rep: string)
    requires |m| > 0 && MatchLen(p, m + y) == |m|
    ensures Sub(p, m + y, rep) == rep + Sub(p, y, rep)
  {
    assert (m + y)[|m|..] == y;
  }

  /** Deleting matches never lengthens the text. */
  lemma {:induction false} SubDeleteShrinks(p: Pattern, s: string)
    ensures |Sub(p, s, "")| <= |s|
    decreases |s|
  {
    if |s| > 0 {
      var n := MatchLen(p, s);
      if n > 0 {
        SubDeleteShrinks(p, s[n..]);
      } else {
        SubDeleteShrinks(p, s[1..]);
      }
    }
  }

  /** Whether no match of `p` starts at any position of `x` when `y`
      follows it. */
  predicate Unmatched(p: Pattern, x: string, y: string)
    decreases |x|
  {
    |x| == 0 || (MatchLen(p, x + y) == 0 && Unmatched(p, x[1..], y))
  }

  /** Text at none of whose positions a match starts passes through unchanged
      and the scan carries on after it. */
  lemma {:induction false} SubSkipsUnmatched(p: Pattern, x: string, y: string, rep: string)
    requires Unmatched(p, x, y)
    ensures Sub(p, x + y, rep) == x + Sub(p, y, rep)
    decreases |x|
  {
    if |x| > 0 {
      var t := x[1..] + y;
      assert x + y == [x[0]] + t;
      SubCons(p, x[0], t, rep);
      SubSkipsUnmatched(p, x[1..], y, rep);
      ConsAppend(x, Sub(p, y, rep));
    } else {
      assert x + y == y;
    }
  }

  /** No match starts in text free of the lead character. */
  lemma {:induction false} SubFreeUnmatched(p: Pattern, x: string, y: string)
    requires !HasChar(x, Lead(p))
    ensures Unmatched(p, x, y)
    decreases |x|
  {
    if |x| > 0 {
      assert (x + y)[0] == x[0];
      assert !HasChar(x[1..], Lead(p)) by {
        forall k | 0 <= k < |x[1..]| ensures x[1..][k] == x[k + 1] { }
      }
      SubFreeUnmatched(p, x[1..], y);
    }
  }

  /** Text in which `p` never matches is left unchanged. */
  lemma SubNoMatch(p: Pattern, s: string, rep: string)
    requires Unmatched(p, s, "")
    ensures Sub(p, s, rep) == s
  {
    SubSkipsUnmatched(p, s, "", rep);
    assert s + "" == s;
  }

  /** Every `-` in `x` is followed, inside `x`, by a letter other than `q` or
      `f` in either case, so no file-name suffix can start in `x`. */
  predicate NoSuffixStart(x: string) {
    forall i :: 0 <= i < |x| && x[i] == '-' ==>
      i + 1 < |x| && LowerChar(x[i + 1]) != 'q' && LowerChar(x[i + 1]) != 'f'
  }

  lemma {:induction false} NoSuffixStartUnmatched(p: Pattern, x: string, y: string)
    requires p == QuantSuffix || p == FloatSuffix
    requires NoSuffixStart(x)
    ensures Unmatched(p, x, y)
    decreases |x|
  {
    if |x| > 0 {
      var s := x + y;
      assert s[0] == x[0];
      if x[0] == '-' {
        assert s[1] == x[1];
      }
      assert MatchLen(p, s) == 0;
      assert NoSuffixStart(x[1..]) by {
        forall i | 0 <= i < |x[1..]| && x[1..][i] == '-'
          ensures i + 1 < |x[1..]| && LowerChar(x[1..][i + 1]) != 'q' && LowerChar(x[1..][i + 1]) != 'f'
        {
          assert x[1..][i] == x[i + 1];
        }
      }
      NoSuffixStartUnmatched(p, x[1..], y);
    }
  }
}

=== FILE: service.dfy ===
/** The pure part of `_update_compose_for_model` in lcp/service.py: the
    layer count the planner gives for the active model, and the rewrite of
    the server's command string that writes it in as `-ngl N`. Reading and
    writing the compose file is left to the caller. */
module Service {
  import opened Strings
  import Regex
  import ModelAnalyzer

  /** The text written for `n` layers. */
  function NglArg(n: nat): string {
    "-ngl " + DecimalString(n)
  }

  /** What the `--host` flag becomes when no `-ngl` is present. */
  function HostArg(n: nat): string {
    NglArg(n) + " --host"
  }

  /** The command rewrite: an existing `-ngl <spaces><digits>` gets the new
      count everywhere; without `-ngl`, the flag is inserted before every
      `--host`. */
  function RewriteCommand(cmd: string, n: nat): (r: string)
    ensures !Contains(cmd, "-ngl") && !Contains(cmd, "--host") ==> r == cmd
  {
    if Contains(cmd, "-ngl") then Regex.Sub(Regex.NglFlag, cmd, NglArg(n))
    else Replace(cmd, "--host", HostArg(n))
  }

  datatype Outcome = Updated(command: string) | Failed

  /** `_update_compose_for_model` without the file I/O: fails when the
      active-model link is missing or the planner raises; otherwise writes
      the planned count into the command and reports success, whether or not
      the command changed. The planner sees the total VRAM in MB. */
  function UpdateCompose(modelPresent: bool, model: ModelAnalyzer.FileProbe, strategy: string,
                         pct: int, totalVramGb: real, command: string): (r: Outcome)
    ensures r.Updated? <==>
      modelPresent && ModelAnalyzer.CalculateGpuLayers(model, strategy, pct, totalVramGb * 1024.0, None).Layers?
    ensures r.Updated? ==>
      var plan := ModelAnalyzer.CalculateGpuLayers(model, strategy, pct, totalVramGb * 1024.0, None);
      plan.count >= 0 && r.command == RewriteCommand(command, plan.count)
  {
    if !modelPresent then Failed
    else
      match ModelAnalyzer.CalculateGpuLayers(model, strategy, pct, totalVramGb * 1024.0, None)
      case ZeroDivision => Failed
      case Layers(count) =>
        assert strategy != "gpu-only" ==> count >= 0;
        Updated(RewriteCommand(command, count))
  }

  /** With neither flag in the command the update still succeeds and leaves
      the command as it was. */
  lemma UpdateWithoutFlags(model: ModelAnalyzer.FileProbe, strategy: string, pct: int,
                           totalVramGb: real, command: string)
    requires !Contains(command, "-ngl") && !Contains(command, "--host")
    requires ModelAnalyzer.CalculateGpuLayers(model, strategy, pct, totalVramGb * 1024.0, None).Layers?
    ensures UpdateCompose(true, model, strategy, pct, totalVramGb, command) == Updated(command)
  {
  }

  // ---------------------------------------------------------------------------
  // Rewriting twice with the same count is rewriting once
  // ---------------------------------------------------------------------------

  /** The written flag is one whole match when no digit follows it. */
  lemma NglArgMatches(n: nat, t: string)
    requires |t| == 0 || !IsDigit(t[0])
    ensures Regex.MatchLen(Regex.NglFlag, NglArg(n) + t) == |NglArg(n)|
  {
    var d := DecimalString(n);
    var s := NglArg(n) + t;
    assert s[..4] == "-ngl";
    assert s[4] == ' ' && s[5] == d[0];
    assert SpaceRunEnd(s, 4) == 5 by {
      assert SpaceRunEnd(s, 4) == SpaceRunEnd(s, 5);
    }
    forall k | 5 <= k < 5 + |d| ensures IsDigit(s[k]) {
      assert s[k] == d[k - 5];
    }
    if |t| > 0 {
      assert s[5 + |d|] == t[0];
    }
    DigitRunAt(s, 5, |d|);
  }

  /** A match of `-ngl\s+\d+` is never followed by a digit. */
  lemma NglMatchEnd(s: string)
    ensures var m := Regex.MatchLen(Regex.NglFlag, s);
      m > 0 && m < |s| ==> !IsDigit(s[m])
  {
  }

  /** The first character of a substitution's result. */
  lemma SubHead(s: string, n: nat)
    requires |s| > 0
    ensures var r := Regex.Sub(Regex.NglFlag, s, NglArg(n));
      |r| > 0 && r[0] == (if Regex.MatchLen(Regex.NglFlag, s) > 0 then '-' else s[0])
  {
  }

  /** Runs of spaces or digits stop at a `-`, so they agree on two strings
      that agree up to and including one. */
  lemma {:induction false} RunsAgree(a: string, b: string, k: nat, i: nat)
    requires k < |a| && k < |b| && a[..k + 1] == b[..k + 1] && a[k] == '-' && i <= k
    ensures SpaceRunEnd(a, i) == SpaceRunEnd(b, i) <= k
    ensures DigitRunEnd(a, i) == DigitRunEnd(b, i) <= k
    decreases k - i
  {
    assert a[i] == a[..k + 1][i] == b[..k + 1][i] == b[i];
    if i < k {
      RunsAgree(a, b, k, i + 1);
    }
  }

  /** Whether `-ngl\s+\d+` matches at the front depends only on the text up
      to the next `-`. */
  lemma MatchLocal(a: string, b: string, k: nat)
    requires 1 <= k && k < |a| && k < |b| && a[..k + 1] == b[..k + 1] && a[k] == '-'
    ensures Regex.MatchLen(Regex.NglFlag, a) == Regex.MatchLen(Regex.NglFlag, b)
  {
    assert b[k] == b[..k + 1][k] == a[..k + 1][k];
    if k < 4 {
      assert !StartsWith(a, "-ngl") by { if |a| >= 4 { assert a[..4][k] == a[k]; } }
      assert !StartsWith(b, "-ngl") by { if |b| >= 4 { assert b[..4][k] == b[k]; } }
    } else {
      assert a[..4] == a[..k + 1][..4] == b[..k + 1][..4] == b[..4];
      RunsAgree(a, b, k, 4);
      var w := SpaceRunEnd(a, 4);
      RunsAgree(a, b, k, w);
    }
  }

  /** A position where no match started does not become a match start once
      the text after it has been rewritten. */
  lemma NoNewMatch(s: string, n: nat)
    requires |s| > 0 && Regex.MatchLen(Regex.NglFlag, s) == 0
    ensures Regex.MatchLen(Regex.NglFlag, [s[0]] + Regex.Sub(Regex.NglFlag, s[1..], NglArg(n))) == 0
  {
    if s[0] == '-' {
      if HasChar(s[1..], '-') {
        NoNewMatchBeforeDash(s, n, FirstDash(s));
      } else {
        assert [s[0]] + s[1..] == s;
      }
    }
  }

  lemma NoNewMatchBeforeDash(s: string, n: nat, k: nat)
    requires 1 <= k < |s| && s[k] == '-' && !HasChar(s[1..k], '-')
    ensures Regex.MatchLen(Regex.NglFlag, [s[0]] + Regex.Sub(Regex.NglFlag, s[1..], NglArg(n)))
         == Regex.MatchLen(Regex.NglFlag, s)
  {
    var u := [s[0]] + Regex.Sub(Regex.NglFlag, s[1..], NglArg(n));
    SubKeepsPrefix(s, n, k);
    MatchLocal(s, u, k);
  }

  /** Rewriting after the front keeps everything up to the next `-`. */
  lemma SubKeepsPrefix(s: string, n: nat, k: nat)
    requires 1 <= k < |s| && s[k] == '-' && !HasChar(s[1..k], '-')
    ensures var u := [s[0]] + Regex.Sub(Regex.NglFlag, s[1..], NglArg(n));
      k < |u| && u[..k + 1] == s[..k + 1]
  {
    assert s[1..] == s[1..k] + s[k..];
    SubKeepsDashFree(s[0], s[1..k], s[k..], n);
    assert s[..k + 1] == [s[0]] + s[1..k] + ['-'];
  }

  lemma SubKeepsDashFree(c: char, x: string, y: string, n: nat)
    requires !HasChar(x, '-') && |y| > 0 && y[0] == '-'
    ensures var u := [c] + Regex.Sub(Regex.NglFlag, x + y, NglArg(n));
      |u| > |x| + 1 && u[..|x| + 2] == [c] + x + ['-']
  {
    Regex.SubSkipsFree(Regex.NglFlag, x, y, NglArg(n));
    SubHead(y, n);
    var sy := Regex.Sub(Regex.NglFlag, y, NglArg(n));
    assert ([c] + (x + sy))[..|x| + 2] == [c] + x + [sy[0]];
  }

  /** The first `-` after the front. */
  function FirstDash(s: string): (k: nat)
    requires |s| > 0 && HasChar(s[1..], '-')
    ensures 1 <= k < |s| && s[k] == '-'
    ensures !HasChar(s[1..k], '-')
    decreases |s|
  {
    if s[1] == '-' then 1
    else
      assert HasChar(s[1..][1..], '-') by {
        var i :| 0 <= i < |s[1..]| && s[1..][i] == '-';
        assert s[1..][1..][i - 1] == s[1..][i];
      }
      var k := 1 + FirstDash(s[1..]);
      assert !HasChar(s[1..k], '-') by {
        forall i | 0 <= i < k - 1 ensures s[1..k][i] != '-' {
          if i > 0 { assert s[1..k][i] == s[1..][1..k - 1][i - 1]; }
        }
      }
      k
  }

  /** Substituting the written flag is idempotent. */
  lemma {:induction false} SubIdempotent(s: string, n: nat)
    ensures var rep := NglArg(n);
      Regex.Sub(Regex.NglFlag, Regex.Sub(Regex.NglFlag, s, rep), rep) == Regex.Sub(Regex.NglFlag, s, rep)
    decreases |s|
  {
    var rep := NglArg(n);
    if |s| > 0 {
      var m := Regex.MatchLen(Regex.NglFlag, s);
      if m > 0 {
        var t := Regex.Sub(Regex.NglFlag, s[m..], rep);
        SubIdempotent(s[m..], n);
        NglMatchEnd(s);
        if |t| > 0 {
          SubHead(s[m..], n);
        }
        NglArgMatches(n, t);
        Regex.SubAtMatch(Regex.NglFlag, rep, t, rep);
      } else {
        var t := Regex.Sub(Regex.NglFlag, s[1..], rep);
        SubIdempotent(s[1..], n);
        NoNewMatch(s, n);
        assert ([s[0]] + t)[1..] == t;
      }
    }
  }

  /** The first character of a `--host` insertion's result. */
  lemma ReplaceHead(t: string, n: nat)
    requires |t| > 0
    ensures var r := Replace(t, "--host", HostArg(n));
      |r| > 0 && r[0] == (if StartsWith(t, "--host") then '-' else t[0])
  {
  }

  /** Inserting before `--host` creates no `-ngl` at a position of its own:
      one there would already have been in the text. */
  lemma NglAfterInsert(s: string, n: nat)
    requires |s| > 0 && !StartsWith(s, "--host")
    ensures StartsWith([s[0]] + Replace(s[1..], "--host", HostArg(n)), "-ngl") ==> StartsWith(s, "-ngl")
  {
    var h := HostArg(n);
    var u := [s[0]] + Replace(s[1..], "--host", h);
    if StartsWith(u, "-ngl") && |s| > 1 {
      assert u[..4][1] == u[1] == 'n';
      ReplaceHead(s[1..], n);
      assert s[1] == 'n';
      assert !StartsWith(s[1..], "--host");
      var t := s[2..];
      assert s[1..][1..] == t;
      assert Replace(s[1..], "--host", h) == [s[1]] + Replace(t, "--host", h);
      if |t| > 0 {
        assert u[..4][2] == u[2] == 'g';
        ReplaceHead(t, n);
        assert s[2] == 'g';
        assert !StartsWith(t, "--host");
        assert t[1..] == s[3..];
        assert Replace(t, "--host", h) == [s[2]] + Replace(s[3..], "--host", h);
        if |s| > 3 {
          assert u[..4][3] == u[3] == 'l';
          ReplaceHead(s[3..], n);
          assert s[3] == 'l';
          assert s[..4] == "-ngl";
        }
      }
    }
  }

  /** No match starts inside the ` --host` that follows the inserted flag. */
  lemma HostTailUnmatched(t: string)
    ensures Regex.Unmatched(Regex.NglFlag, " --host", t)
  {
    var x := " --host";
    assert Regex.MatchLen(Regex.NglFlag, x + t) == 0;
    assert x[1..] == "--host";
    assert Regex.MatchLen(Regex.NglFlag, "--host" + t) == 0 by {
      assert ("--host" + t)[1] == '-';
    }
    assert "--host"[1..] == "-host";
    assert Regex.MatchLen(Regex.NglFlag, "-host" + t) == 0 by {
      assert ("-host" + t)[1] == 'h';
    }
    assert "-host"[1..] == "host";
    assert Regex.Unmatched(Regex.NglFlag, "host", t) by {
      Regex.SubFreeUnmatched(Regex.NglFlag, "host", t);
    }
  }

  /** Text without `-ngl` that had the flag inserted before each `--host`
      is left alone by the substitution. */
  lemma {:induction false} SubFixesInserted(s: string, n: nat)
    requires !Contains(s, "-ngl")
    ensures var r := Replace(s, "--host", HostArg(n));
      Regex.Sub(Regex.NglFlag, r, NglArg(n)) == r
    decreases |s|
  {
    var h := HostArg(n);
    if |s| > 0 {
      if StartsWith(s, "--host") {
        var t := s[6..];
        assert !Contains(t, "-ngl") by {
          if Contains(t, "-ngl") { ContainsSuffix(s, "-ngl", 6); }
        }
        SubFixesInserted(t, n);
        assert Replace(s, "--host", h) == h + Replace(t, "--host", h);
        SubFixesFlag(Replace(t, "--host", h), n);
      } else {
        var t := s[1..];
        assert !Contains(t, "-ngl") by {
          if Contains(t, "-ngl") { ContainsSuffix(s, "-ngl", 1); }
        }
        SubFixesInserted(t, n);
        SubFixesLiteral(s, n);
      }
    }
  }

  /** The inserted flag is replaced by itself. */
  lemma SubFixesFlag(rt: string, n: nat)
    requires Regex.Sub(Regex.NglFlag, rt, NglArg(n)) == rt
    ensures Regex.Sub(Regex.NglFlag, HostArg(n) + rt, NglArg(n)) == HostArg(n) + rt
  {
    var rep := NglArg(n);
    assert HostArg(n) + rt == rep + (" --host" + rt);
    NglArgMatches(n, " --host" + rt);
    Regex.SubAtMatch(Regex.NglFlag, rep, " --host" + rt, rep);
    HostTailUnmatched(rt);
    Regex.SubSkipsUnmatched(Regex.NglFlag, " --host", rt, rep);
  }

  /** A character of the original text is kept. */
  lemma SubFixesLiteral(s: string, n: nat)
    requires |s| > 0 && !Contains(s, "-ngl") && !StartsWith(s, "--host")
    requires var rt := Replace(s[1..], "--host", HostArg(n));
      Regex.Sub(Regex.NglFlag, rt, NglArg(n)) == rt
    ensures var r := Replace(s, "--host", HostArg(n));
      Regex.Sub(Regex.NglFlag, r, NglArg(n)) == r
  {
    LiteralStartsNoMatch(s, n);
    SubConsFixed(s[0], Replace(s[1..], "--host", HostArg(n)), n);
  }

  /** A character of the original text starts no match. */
  lemma LiteralStartsNoMatch(s: string, n: nat)
    requires |s| > 0 && !Contains(s, "-ngl") && !StartsWith(s, "--host")
    ensures var rt := Replace(s[1..], "--host", HostArg(n));
      && Replace(s, "--host", HostArg(n)) == [s[0]] + rt
      && Regex.MatchLen(Regex.NglFlag, [s[0]] + rt) == 0
  {
    var h := HostArg(n);
    var rt := Replace(s[1..], "--host", h);
    assert Replace(s, "--host", h) == [s[0]] + rt;
    NglAfterInsert(s, n);
    assert !StartsWith(s, "-ngl") by {
      if StartsWith(s, "-ngl") { ContainsAt(s, "-ngl", 0); }
    }
    NglNeedsPrefix([s[0]] + rt);
  }

  lemma NglNeedsPrefix(s: string)
    requires !StartsWith(s, "-ngl")
    ensures Regex.MatchLen(Regex.NglFlag, s) == 0
  {
  }

  lemma SubConsFixed(c: char, t: string, n: nat)
    requires Regex.MatchLen(Regex.NglFlag, [c] + t) == 0
    requires Regex.Sub(Regex.NglFlag, t, NglArg(n)) == t
    ensures Regex.Sub(Regex.NglFlag, [c] + t, NglArg(n)) == [c] + t
  {
    assert ([c] + t)[1..] == t;
  }

  /** Inserting before a `--host` leaves a `-ngl` in the text. */
  lemma {:induction false} InsertLeavesNgl(s: string, n: nat)
    requires Contains(s, "--host")
    ensures Contains(Replace(s, "--host", HostArg(n)), "-ngl")
    decreases |s|
  {
    var h := HostArg(n);
    if StartsWith(s, "--host") {
      var r := Replace(s, "--host", h);
      assert r == h + Replace(s[6..], "--host", h);
      assert r[..4] == "-ngl";
      ContainsAt(r, "-ngl", 0);
    } else {
      ContainsRest(s, "--host");
      InsertLeavesNgl(s[1..], n);
      var r := Replace(s, "--host", h);
      assert r[1..] == Replace(s[1..], "--host", h);
      ContainsSuffix(r, "-ngl", 1);
    }
  }

  /** Substituting keeps a `-ngl` in the text. */
  lemma {:induction false} SubLeavesNgl(s: string, n: nat)
    requires Contains(s, "-ngl")
    ensures Contains(Regex.Sub(Regex.NglFlag, s, NglArg(n)), "-ngl")
    decreases |s|
  {
    if StartsWith(s, "-ngl") {
      SubKeepsLeadingNgl(s, n);
    } else {
      var rep := NglArg(n);
      var r := Regex.Sub(Regex.NglFlag, s, rep);
      ContainsRest(s, "-ngl");
      SubLeavesNgl(s[1..], n);
      SubCommonTail(s, n);
      ContainsSuffix(r, "-ngl", 1);
    }
  }

  /** A text that starts with `-ngl` still does once substituted. */
  lemma SubKeepsLeadingNgl(s: string, n: nat)
    requires StartsWith(s, "-ngl")
    ensures Contains(Regex.Sub(Regex.NglFlag, s, NglArg(n)), "-ngl")
  {
    var rep := NglArg(n);
    var r := Regex.Sub(Regex.NglFlag, s, rep);
    var m := Regex.MatchLen(Regex.NglFlag, s);
    if m > 0 {
      assert r == rep + Regex.Sub(Regex.NglFlag, s[m..], rep);
      assert r[..4] == "-ngl";
    } else {
      assert s[1..] == "ngl" + s[4..];
      Regex.SubSkipsFree(Regex.NglFlag, "ngl", s[4..], rep);
      assert r == "-ngl" + Regex.Sub(Regex.NglFlag, s[4..], rep);
    }
    ContainsAt(r, "-ngl", 0);
  }

  /** Where no match starts at the front, the rest is substituted on its own. */
  lemma SubCommonTail(s: string, n: nat)
    requires |s| > 0 && !StartsWith(s, "-ngl")
    ensures var r := Regex.Sub(Regex.NglFlag, s, NglArg(n));
      |r| > 0 && r[1..] == Regex.Sub(Regex.NglFlag, s[1..], NglArg(n))
  {
    assert Regex.MatchLen(Regex.NglFlag, s) == 0;
  }

  /** Rewriting a command twice with the same count is rewriting it once. */
  lemma RewriteIdempotent(cmd: string, n: nat)
    ensures RewriteCommand(RewriteCommand(cmd, n), n) == RewriteCommand(cmd, n)
  {
    if Contains(cmd, "-ngl") {
      SubLeavesNgl(cmd, n);
      SubIdempotent(cmd, n);
    } else if Contains(cmd, "--host") {
      InsertLeavesNgl(cmd, n);
      SubFixesInserted(cmd, n);
    }
  }
}

=== FILE: strings.dfy ===
/** Python `str`, `int` and list-slicing primitives that the rest of the model
    is written in terms of. Each helper states the Python behaviour it stands
    for; characters outside ASCII are treated as described per helper. */
module Strings {

  datatype Option<+T> = None | Some(value: T)

  /** Characters for which Python's `str.isspace()` holds; `\s` in a `str`
      regex and `str.strip()` use exactly this set. */
  predicate IsSpace(c: char) {
    || ('\t' <= c <= '\r')
    || ('\U{1C}' <= c <= '\U{1F}')
    || c == ' ' || c == '\U{85}' || c == '\U{A0}' || c == '\U{1680}'
    || ('\U{2000}' <= c <= '\U{200A}')
    || c == '\U{2028}' || c == '\U{2029}' || c == '\U{202F}' || c == '\U{205F}'
    || c == '\U{3000}'
  }

  /** ASCII decimal digit (`\d` restricted to ASCII). */
  predicate IsDigit(c: char) {
    '0' <= c <= '9'
  }

  /** End of the maximal run of ASCII digits starting at `i`. */
  function DigitRunEnd(t: string, i: nat): (j: nat)
    requires i <= |t|
    ensures i <= j <= |t|
    ensures forall k :: i <= k < j ==> IsDigit(t[k])
    ensures j < |t| ==> !IsDigit(t[j])
    decreases |t| - i
  {
    if i < |t| && IsDigit(t[i]) then DigitRunEnd(t, i + 1) else i
  }

  /** End of the maximal run of whitespace starting at `i`. */
  function SpaceRunEnd(t: string, i: nat): (j: nat)
    requires i <= |t|
    ensures i <= j <= |t|
    ensures forall k :: i <= k < j ==> IsSpace(t[k])
    ensures j < |t| ==> !IsSpace(t[j])
    decreases |t| - i
  {
    if i < |t| && IsSpace(t[i]) then SpaceRunEnd(t, i + 1) else i
  }

  /** A block of `n` digits at `i` followed by a non-digit, or by the end, is
      the maximal run. */
  lemma {:induction false} DigitRunAt(t: string, i: nat, n: nat)
    requires i + n <= |t|
    requires forall k :: i <= k < i + n ==> IsDigit(t[k])
    requires i + n == |t| || !IsDigit(t[i + n])
    ensures DigitRunEnd(t, i) == i + n
    decreases n
  {
    if n > 0 {
      DigitRunAt(t, i + 1, n - 1);
    }
  }

  function LowerChar(c: char): char {
    if 'A' <= c <= 'Z' then (c as int + 32) as char else c
  }

  function UpperChar(c: char): char {
    if 'a' <= c <= 'z' then (c as int - 32) as char else c
  }

  /** `str.lower()` on the ASCII letters. */
  function Lower(s: string): (r: string)
    ensures |r| == |s|
    ensures forall i :: 0 <= i < |s| ==> r[i] == LowerChar(s[i])
  {
    seq(|s|, i requires 0 <= i < |s| => LowerChar(s[i]))
  }

  /** `str.upper()` on the ASCII letters. */
  function Upper(s: string): (r: string)
    ensures |r| == |s|
    ensures forall i :: 0 <= i < |s| ==> r[i] == UpperChar(s[i])
  {
    seq(|s|, i requires 0 <= i < |s| => UpperChar(s[i]))
  }

  predicate StartsWith(s: string, p: string) {
    |p| <= |s| && s[..|p|] == p
  }

  predicate EndsWith(s: string, p: string) {
    |p| <= |s| && s[|s| - |p|..] == p
  }

  /** Python's `p in s` for strings. */
  predicate Contains(s: string, p: string) {
    exists i | 0 <= i <= |s| :: StartsWith(s[i..], p)
  }

  lemma ContainsEmpty(s: string)
    ensures Contains(s, "")
  {
    assert StartsWith(s[0..], "");
  }

  lemma ContainsSelf(s: string)
    ensures Contains(s, s)
  {
    assert StartsWith(s[0..], s);
  }

  /** A string `p` occurring at position `i` of `s` is contained in `s`. */
  lemma ContainsAt(s: string, p: string, i: nat)
    requires i + |p| <= |s| && s[i..i + |p|] == p
    ensures Contains(s, p)
  {
    assert StartsWith(s[i..], p);
  }

  lemma ContainsInfix(a: string, p: string, b: string)
    ensures Contains(a + p + b, p)
  {
    ContainsAt(a + p + b, p, |a|);
  }

  /** An occurrence in a suffix is an occurrence in the whole. */
  lemma ContainsSuffix(s: string, p: string, i: nat)
    requires i <= |s| && Contains(s[i..], p)
    ensures Contains(s, p)
  {
    var j :| 0 <= j <= |s[i..]| && StartsWith(s[i..][j..], p);
    assert s[i..][j..] == s[i + j..];
  }

  /** An occurrence that is not at the front is in the tail. */
  lemma ContainsRest(s: string, p: string)
    requires Contains(s, p) && !StartsWith(s, p)
    ensures |s| > 0 && Contains(s[1..], p)
  {
    var j :| 0 <= j <= |s| && StartsWith(s[j..], p);
    assert j > 0;
    assert s[1..][j - 1..] == s[j..];
  }

  /** Python's `c in s` for a single character. */
  predicate HasChar(s: string, c: char) {
    exists i | 0 <= i < |s| :: s[i] == c
  }

  function CountChar(s: string, c: char): (n: nat)
    ensures n <= |s|
    ensures n == 0 <==> !HasChar(s, c)
  {
    if |s| == 0 then 0
    else (if s[0] == c then 1 else 0) + CountChar(s[1..], c)
  }

  lemma CountCharAppend(a: string, b: string, c: char)
    ensures CountChar(a + b, c) == CountChar(a, c) + CountChar(b, c)
  {
    if |a| > 0 {
      assert (a + b)[1..] == a[1..] + b;
      CountCharAppend(a[1..], b, c);
    } else {
      assert a + b == b;
    }
  }

  /** `r` is the slice `s[a..a + |r|]` and everything of `s` around it is
      whitespace. */
  predicate StrippedAt(s: string, a: nat, r: string) {
    && a + |r| <= |s| && r == s[a..a + |r|]
    && (forall i :: 0 <= i < a ==> IsSpace(s[i]))
    && (forall i :: a + |r| <= i < |s| ==> IsSpace(s[i]))
  }

  /** `str.strip()` with no argument: drops leading and trailing whitespace. */
  function Strip(s: string): (r: string)
    ensures |r| <= |s|
    ensures exists a :: StrippedAt(s, a, r)
    ensures |r| > 0 ==> !IsSpace(r[0]) && !IsSpace(r[|r| - 1])
    ensures forall i :: 0 <= i < |s| && !IsSpace(s[i]) ==> |r| > 0
  {
    var l := StripLeft(s);
    var r := StripRight(l);
    TrimmedSlice(s, l, r);
    r
  }

  /** Cutting whitespace off the front of `s`, then off the back of what is
      left, leaves a slice of `s` with only whitespace around it. */
  lemma TrimmedSlice(s: string, l: string, r: string)
    requires |l| <= |s| && l == s[|s| - |l|..]
    requires forall i :: 0 <= i < |s| - |l| ==> IsSpace(s[i])
    requires |r| <= |l| && r == l[..|r|]
    requires forall i :: |r| <= i < |l| ==> IsSpace(l[i])
    ensures StrippedAt(s, |s| - |l|, r)
  {
    var a := |s| - |l|;
    assert s[a..][..|r|] == s[a..a + |r|];
    forall i | a + |r| <= i < |s| ensures IsSpace(s[i]) {
      assert s[i] == l[i - a];
    }
  }

  function StripLeft(s: string): (r: string)
    ensures |r| <= |s| && r == s[|s| - |r|..]
    ensures |r| > 0 ==> !IsSpace(r[0])
    ensures forall i :: 0 <= i < |s| - |r| ==> IsSpace(s[i])
  {
    if |s| > 0 && IsSpace(s[0]) then StripLeft(s[1..]) else s
  }

  function StripRight(s: string): (r: string)
    ensures |r| <= |s| && r == s[..|r|]
    ensures |r| > 0 ==> !IsSpace(r[|r| - 1])
    ensures forall i :: |r| <= i < |s| ==> IsSpace(s[i])
  {
    if |s| > 0 && IsSpace(s[|s| - 1]) then StripRight(s[..|s| - 1]) else s
  }

  /** `s.replace(pat, rep)`: every non-overlapping occurrence of `pat`, scanned
      left to right, is replaced by `rep`. */
  function Replace(s: string, pat: string, rep: string): (r: string)
    requires |pat| > 0
    ensures !Contains(s, pat) ==> r == s
    ensures |rep| <= |pat| ==> |r| <= |s|
    decreases |s|
  {
    if |s| == 0 then s
    else if StartsWith(s, pat) then
      assert StartsWith(s[0..], pat);
      rep + Replace(s[|pat|..], pat, rep)
    else
      NotContainsTail(s, pat);
      [s[0]] + Replace(s[1..], pat, rep)
  }

  lemma NotContainsTail(s: string, p: string)
    requires |s| > 0 && !StartsWith(s, p)
    ensures Contains(s[1..], p) ==> Contains(s, p)
  {
    if Contains(s[1..], p) {
      var i :| 0 <= i <= |s[1..]| && StartsWith(s[1..][i..], p);
      assert s[1..][i..] == s[i + 1..];
    }
  }

  /** Text free of the first character of `pat` passes through `Replace`
      unchanged. */
  lemma {:induction false} ReplaceSkipsFree(x: string, y: string, pat: string, rep: string)
    requires |pat| > 0 && !HasChar(x, pat[0])
    ensures Replace(x + y, pat, rep) == x + Replace(y, pat, rep)
    decreases |x|
  {
    if |x| > 0 {
      var t := x[1..] + y;
      assert x + y == [x[0]] + t;
      ReplaceCons(x[0], t, pat, rep);
      assert !HasChar(x[1..], pat[0]) by {
        forall k | 0 <= k < |x[1..]| ensures x[1..][k] == x[k + 1] { }
      }
      ReplaceSkipsFree(x[1..], y, pat, rep);
      ConsAppend(x, Replace(y, pat, rep));
    } else {
      assert x + y == y;
    }
  }

  /** An occurrence at the front is replaced, and the scan resumes after it. */
  lemma ReplaceAtMatch(pat: string, y: string, rep: string)
    requires |pat| > 0
    ensures Replace(pat + y, pat, rep) == rep + Replace(y, pat, rep)
  {
    assert StartsWith(pat + y, pat);
    assert (pat + y)[|pat|..] == y;
  }

  /** Pieces free of the first character of `pat`, separated by `pat`: every
      separator is replaced and the pieces are copied. */
  lemma {:induction false} ReplaceJoin(pieces: seq<string>, pat: string, rep: string)
    requires |pat| > 0
    requires forall k :: 0 <= k < |pieces| ==> !HasChar(pieces[k], pat[0])
    ensures Replace(Join(pieces, pat), pat, rep) == Join(pieces, rep)
    decreases |pieces|
  {
    if |pieces| == 1 {
      ReplaceSkipsFree(pieces[0], "", pat, rep);
      assert pieces[0] + "" == pieces[0];
    } else if |pieces| > 1 {
      var tail := Join(pieces[1..], pat);
      assert Join(pieces, pat) == pieces[0] + (pat + tail);
      ReplaceSkipsFree(pieces[0], pat + tail, pat, rep);
      ReplaceAtMatch(pat, tail, rep);
      ReplaceJoin(pieces[1..], pat, rep);
      assert Join(pieces, rep) == pieces[0] + (rep + Join(pieces[1..], rep));
    }
  }

  lemma ConsAppend(x: string, z: string)
    requires |x| > 0
    ensures [x[0]] + (x[1..] + z) == x + z
  {
    assert [x[0]] + x[1..] == x;
  }

  /** A character other than the first of `pat` is copied. */
  lemma ReplaceCons(c: char, t: string, pat: string, rep: string)
    requires |pat| > 0 && c != pat[0]
    ensures Replace([c] + t, pat, rep) == [c] + Replace(t, pat, rep)
  {
    var s := [c] + t;
    assert s[0] == c;
    assert !StartsWith(s, pat);
    assert s[1..] == t;
  }

  /** `sep.join(parts)`. */
  function Join(parts: seq<string>, sep: string): string {
    if |parts| == 0 then ""
    else if |parts| == 1 then parts[0]
    else parts[0] + sep + Join(parts[1..], sep)
  }

  /** Joining a concatenation puts one separator between the two joins. */
  lemma {:induction false} JoinConcat(a: seq<string>, b: seq<string>, sep: string)
    requires |a| > 0 && |b| > 0
    ensures Join(a + b, sep) == Join(a, sep) + sep + Join(b, sep)
  {
    assert (a + b)[0] == a[0];
    assert (a + b)[1..] == a[1..] + b;
    if |a| > 1 {
      JoinConcat(a[1..], b, sep);
    }
  }

  /** `s.split(sep)` for a one-character separator: the pieces between
      separators, so there is always one more piece than separators. */
  function Split(s: string, sep: char): (parts: seq<string>)
    ensures |parts| == CountChar(s, sep) + 1
    ensures forall k :: 0 <= k < |parts| ==> !HasChar(parts[k], sep)
  {
    if |s| == 0 then [""]
    else
      var rest := Split(s[1..], sep);
      if s[0] == sep then [""] + rest
      else [[s[0]] + rest[0]] + rest[1..]
  }

  /** Joining the pieces of a split with the same separator gives back the
      original string. */
  lemma {:induction false} JoinSplit(s: string, sep: char)
    ensures Join(Split(s, sep), [sep]) == s
  {
    if |s| > 0 {
      var rest := Split(s[1..], sep);
      JoinSplit(s[1..], sep);
      if s[0] == sep {
        assert Split(s, sep) == [""] + rest;
        assert ([""] + rest)[1..] == rest;
      } else {
        var parts := [[s[0]] + rest[0]] + rest[1..];
        assert Split(s, sep) == parts;
        if |rest| == 1 {
          assert parts == [[s[0]] + rest[0]];
        } else {
          assert parts[1..] == rest[1..];
          assert Join(rest, [sep]) == rest[0] + [sep] + Join(rest[1..], [sep]);
        }
      }
    }
  }

  /** Joining strings free of the separator and splitting again gives back
      the pieces. */
  lemma {:induction false} SplitJoin(parts: seq<string>, sep: char)
    requires |parts| > 0
    requires forall k :: 0 <= k < |parts| ==> !HasChar(parts[k], sep)
    ensures Split(Join(parts, [sep]), sep) == parts
  {
    if |parts| == 1 {
      SplitNoSep(parts[0], sep);
    } else {
      SplitJoin(parts[1..], sep);
      SplitAppend(parts[0], Join(parts[1..], [sep]), sep);
      assert Join(parts, [sep]) == parts[0] + [sep] + Join(parts[1..], [sep]);
      assert [parts[0]] + parts[1..] == parts;
    }
  }

  lemma {:induction false} SplitNoSep(s: string, sep: char)
    requires !HasChar(s, sep)
    ensures Split(s, sep) == [s]
  {
    if |s| > 0 {
      assert !HasChar(s[1..], sep) by {
        forall i | 0 <= i < |s[1..]| ensures s[1..][i] != sep {
          assert s[1..][i] == s[i + 1];
        }
      }
      SplitNoSep(s[1..], sep);
      assert [s[0]] + s[1..] == s;
    }
  }

  /** Splitting `a + sep + b` where `a` has no separator peels `a` off. */
  lemma {:induction false} SplitAppend(a: string, b: string, sep: char)
    requires !HasChar(a, sep)
    ensures Split(a + [sep] + b, sep) == [a] + Split(b, sep)
  {
    if |a| == 0 {
      assert a + [sep] + b == [sep] + b;
      assert ([sep] + b)[1..] == b;
    } else {
      assert !HasChar(a[1..], sep) by {
        forall i | 0 <= i < |a[1..]| ensures a[1..][i] != sep {
          assert a[1..][i] == a[i + 1];
        }
      }
      SplitAppend(a[1..], b, sep);
      assert (a + [sep] + b)[1..] == a[1..] + [sep] + b;
      assert [a[0]] + a[1..] == a;
    }
  }

  /** Decimal rendering of a non-negative integer, as `str(n)` / `f"{n}"`. */
  function DecimalString(n: nat): (r: string)
    ensures |r| > 0
    ensures forall i :: 0 <= i < |r| ==> IsDigit(r[i])
    ensures DecimalValue(r) == n
    ensures n > 0 ==> r[0] != '0'
    decreases n
  {
    if n < 10 then
      assert [DigitChar(n)][..0] == "";
      [DigitChar(n)]
    else
      var hi := DecimalString(n / 10);
      var r := hi + [DigitChar(n % 10)];
      assert r[..|r| - 1] == hi;
      r
  }

  /** The number a run of ASCII digits denotes, as `int(s)` reads it. */
  function DecimalValue(s: string): nat
    requires forall i :: 0 <= i < |s| ==> IsDigit(s[i])
  {
    if |s| == 0 then 0
    else
      assert IsDigit(s[|s| - 1]);
      DecimalValue(s[..|s| - 1]) * 10 + (s[|s| - 1] as int - '0' as int)
  }

  function DigitChar(d: nat): (c: char)
    requires d < 10
    ensures IsDigit(c)
  {
    ('0' as int + d) as char
  }

  /** Python `int(x)` on a float: truncation toward zero. */
  function PyInt(x: real): (n: int)
    ensures 0.0 <= x ==> n == x.Floor
    ensures x < 0.0 ==> x <= n as real < x + 1.0 && n <= 0
    ensures (n as real) * (if x < 0.0 then -1.0 else 1.0) <= x * (if x < 0.0 then -1.0 else 1.0)
  {
    if x >= 0.0 then x.Floor else -((-x).Floor)
  }

  /** `r` takes the elements of `xs` at the strictly increasing positions
      `idx`. */
  ghost predicate PicksAt<T>(r: seq<T>, xs: seq<T>, idx: seq<nat>) {
    && |idx| == |r|
    && (forall k :: 0 <= k < |idx| ==> idx[k] < |xs| && xs[idx[k]] == r[k])
    && (forall a, b :: 0 <= a < b < |idx| ==> idx[a] < idx[b])
  }

  /** `r` is a subsequence of `xs`: its elements occur in `xs`, in the same
      order. */
  ghost predicate Subsequence<T>(r: seq<T>, xs: seq<T>) {
    exists idx :: PicksAt(r, xs, idx)
  }

  lemma SubsequenceEmpty<T>(xs: seq<T>)
    ensures Subsequence([], xs)
  {
    assert PicksAt([], xs, []);
  }

  /** Appending to the input keeps a subsequence, and may extend it. */
  lemma SubsequenceSnoc<T>(r: seq<T>, xs: seq<T>, x: T)
    requires Subsequence(r, xs)
    ensures Subsequence(r, xs + [x]) && Subsequence(r + [x], xs + [x])
  {
    var idx: seq<nat> :| PicksAt(r, xs, idx);
    assert PicksAt(r, xs + [x], idx);
    assert PicksAt(r + [x], xs + [x], idx + [|xs|]);
  }

  /** Prepending to the input keeps a subsequence, and may extend it. */
  lemma SubsequenceCons<T>(r: seq<T>, xs: seq<T>, x: T)
    requires Subsequence(r, xs)
    ensures Subsequence(r, [x] + xs) && Subsequence([x] + r, [x] + xs)
  {
    var idx: seq<nat> :| PicksAt(r, xs, idx);
    var shifted := seq(|idx|, k requires 0 <= k < |idx| => idx[k] + 1);
    assert PicksAt(r, [x] + xs, shifted);
    assert PicksAt([x] + r, [x] + xs, [0] + shifted);
  }

  /** Of two elements of a subsequence, the earlier one occurs earlier in
      the input. */
  lemma SubsequenceOrder<T>(r: seq<T>, xs: seq<T>, a: nat, b: nat)
    requires Subsequence(r, xs) && a < b < |r|
    ensures exists i, j :: 0 <= i < j < |xs| && xs[i] == r[a] && xs[j] == r[b]
  {
    var idx: seq<nat> :| PicksAt(r, xs, idx);
    assert xs[idx[a]] == r[a] && xs[idx[b]] == r[b];
  }

  /** Python `xs[:k]`: a negative `k` counts from the end. */
  function PyPrefix<T>(xs: seq<T>, k: int): (r: seq<T>)
    ensures 0 <= k ==> |r| == if k < |xs| then k else |xs|
    ensures k < 0 ==> |r| == if |xs| + k > 0 then |xs| + k else 0
    ensures |r| <= |xs| && r == xs[..|r|]
  {
    if k >= 0 then (if k < |xs| then xs[..k] else xs)
    else if |xs| + k > 0 then xs[..|xs| + k]
    else []
  }
}
